=== FILE: README.md ===
# Dafny model of the otp_login authentication core

This project models the authentication state logic of otp_login, a Spring Boot
service that logs users in with one-time passwords (OTPs) sent by mail and then
hands out JWT access and refresh tokens. It covers:

- the OTP store of `OtpService` on its in-memory path. It keeps three maps keyed
  by `"otp:"+email` and `"otp_attempts:"+email`, checks expiry lazily on read, and
  caps attempts;
- the token revocation table of `TokenBlacklistService`, `BlacklistedTokenRepository`
  and `BlacklistedToken`, keyed by the unique `jti` claim (section 4.1.7 of RFC 7519)
  and expiring by the `exp` claim (section 4.1.4 of RFC 7519);
- the claims logic of `JwtTokenService`;
- the account table, the login history and the failed-attempt locks of
  `UserService`, `UserRepository` and `LoginHistoryRepository`;
- the decision chains of `AuthController`, `LogoutController`, `RateLimitFilter`,
  `JwtAuthenticationFilter` and `GlobalExceptionHandler`.

Every operation is a pure function from the state to the new state and the
reply. The clock is an explicit `now` in milliseconds. Random digits, fresh token
ids and new user ids are parameters. The password hash and JWT signing are
uninterpreted functions:

- `OtpService.PasswordEncoder` holds `encode` and `matches`;
- `JwtTokenService.Codec` holds `sign` and a partial `parse`.

Lemmas assume only what they need of these: `AcceptsOwnHash`, `RejectsOtherCodes`
and `Sound`. Java `null` is `Option.None`. A thrown exception is a `Result.Failure`
carrying an `Exceptions.Thrown`. `Server.State` gathers everything the
application keeps:

- the two database tables;
- the OTP maps;
- the revocation table;
- the bucket maps of both controllers and of the rate-limit filter.

The model keeps the departures from the intended design that the code has, and
lemmas state them:

- request-otp reads the clock again for `expiresIn`, so when that second read falls
  after the generating millisecond but within the following minute it reports one
  minute less than configured, and less again after longer delays
  (`AuthController.RequestOtp`, `OtpService.TtlAfterGenerate`);
- on the in-memory path, verify-otp purges an over-used code without resetting
  the counter, and generating a code does not reset it either, so the lock is
  permanent (`OtpService.LockoutIsPermanent`); with Redis enabled, the default,
  the counter expires `otpExpirationMinutes` after the first attempt, so the
  lock lasts at most that long after the first wrong code;
- deleting a user's "refresh" rows un-revokes those tokens
  (`TokenBlacklistService.ByTypeOnlyTouchesThatType`);
- the blacklist check fails open (`TokenBlacklistService.UnparseableNeverBlacklisted`);
- the refresh endpoint never consults the revocation table
  (`Flows.RefreshUnaffectedByLogout`, `Flows.LogoutLeavesRefreshUsable`);
- request-otp mails a code to a deactivated account
  (`Flows.DeactivatedAccountIsMailedUnusableCode`);
- logout from all devices revokes only the presented token
  (`Flows.LogoutAllLeavesOtherSessions`);
- an admin force-logout revokes no token at all: it only relabels rows that
  were already there (`LogoutController.ForceLogoutNeverRevokes`,
  `Flows.ForceLogoutLeavesSessions`);
- a missing User-Agent header makes every verify-otp outcome for a known account
  a 500, because the history column is NOT NULL (`AuthController.VerifyOtp`);
- the rate-limit filter reads the request body before anything has been cached,
  so with the deployed wrapper its email bucket is never used
  (`RateLimitFilter.EmptyCacheSkipsEmailBucket`).

Files, one module each unless noted:

- `wrappers.dfy`: `Wrappers` and `Exceptions`;
- `java_strings.dfy`: the `String` operations used;
- `http.dfy`: `Http` and `ClientIp`;
- the rest follow the source classes: `otp_service.dfy`, `blacklisted_tokens.dfy`,
  `token_blacklist_service.dfy`, `jwt_token_service.dfy`, `users.dfy`,
  `user_service.dfy`, `buckets.dfy`, `server.dfy`, `auth_controller.dfy`,
  `logout_controller.dfy`, `rate_limit_filter.dfy`, `jwt_auth_filter.dfy`,
  `exception_handler.dfy`;
- `flows.dfy`: scenarios that cross endpoints.

## Model

| member | source | states |
|---|---|---|
| OtpService.GenerateNumericOtp | src/main/java/com/springboot/otplogin/service/OtpService.java:208-214 | exactly `otpLength` characters, the i-th being the decimal digit of the i-th random draw |
| OtpService.GetOtpFromMemory | src/main/java/com/springboot/otplogin/service/OtpService.java:236-245 | a read strictly after the deadline removes code and deadline, keeps the counter and reports nothing; any other read changes nothing and returns what is stored; other keys are never touched |
| OtpService.StoreOtpInMemory | src/main/java/com/springboot/otplogin/service/OtpService.java:230-234 | the hash and the deadline `now + minutes*60000` are stored under the key; every other key and all counters are unchanged; hash and deadline stay paired |
| OtpService.ClearOtpFromMemory | src/main/java/com/springboot/otplogin/service/OtpService.java:247-250 | hash and deadline of the key are gone; every other key and all counters are unchanged |
| OtpService.IsOtpExpiredInMemory | src/main/java/com/springboot/otplogin/service/OtpService.java:252-260 | true exactly when no hash is stored or the deadline has passed; an overdue record is deleted, and nothing else changes |
| OtpService.GetOtpTtlFromMemory | src/main/java/com/springboot/otplogin/service/OtpService.java:262-269 | the whole minutes left before the deadline (floor), 0 when it has passed or none is stored |
| OtpService.GetAttemptCount | src/main/java/com/springboot/otplogin/service/OtpService.java:276-279 | the attempts recorded for the email, 0 when none are |
| OtpService.IncrementAttemptCount | src/main/java/com/springboot/otplogin/service/OtpService.java:271-274 | the email's count goes up by exactly one (from 0 when absent); codes, deadlines and other counters are unchanged |
| OtpService.ClearAttemptCount | src/main/java/com/springboot/otplogin/service/OtpService.java:281-284 | the email's counter is gone, so it reads 0; codes, deadlines and other counters are unchanged |
| OtpService.GenerateOtp | src/main/java/com/springboot/otplogin/service/OtpService.java:45-66 | the new code's hash and the deadline `now + minutes*60000` replace any earlier ones under "otp:"+email; the attempt counter and every other email are untouched; the code is all digits |
| OtpService.ClearOtp | src/main/java/com/springboot/otplogin/service/OtpService.java:110-126 | removes code and deadline of that email only, never the attempt counter |
| OtpService.VerifyOtp | src/main/java/com/springboot/otplogin/service/OtpService.java:68-108 | true exactly for a live code, a counter with room for one more attempt and a matching hash; no live code leaves the counter alone; a live code raises it by one first; over the maximum the code is purged but the counter is not; a match purges code and counter; a mismatch keeps the code |
| OtpService.IsOtpExpired | src/main/java/com/springboot/otplogin/service/OtpService.java:128-141 | true exactly when no live code is stored; an overdue record is deleted on the way |
| OtpService.GetOtpTtl | src/main/java/com/springboot/otplogin/service/OtpService.java:143-157 | the whole minutes left before the deadline (floor), 0 when past or absent |
| OtpService.IsRateLimited | src/main/java/com/springboot/otplogin/service/OtpService.java:216-218 | the stored counter (0 when absent) has reached the maximum |
| OtpService.GenerateThenVerifyOnce | src/main/java/com/springboot/otplogin/service/OtpService.java:68-108 | a fresh code verifies once before its deadline, which also clears the counter, and is refused when repeated |
| OtpService.ExpiredCodeRefused | src/main/java/com/springboot/otplogin/service/OtpService.java:236-245 | after the deadline even the right code fails; code and deadline are purged, the counter is kept |
| OtpService.TtlAfterGenerate | src/main/java/com/springboot/otplogin/service/OtpService.java:262-269 | read at any instant after generating, the TTL is the whole minutes left before `now + minutes*60000` (0 once reached): the configured minutes in the generating millisecond, one less at any later instant of the following minute |
| OtpService.LockoutIsPermanent | src/main/java/com/springboot/otplogin/service/OtpService.java:271-284 | on the in-memory path, once the counter reaches the maximum, verify, generate and clear all leave the email rate limited, and verify fails (with Redis the counter expires `otpExpirationMinutes` after the first attempt, so the lock is bounded there) |
| OtpService.AttemptCapScenario | src/main/java/com/springboot/otplogin/service/OtpService.java:89-107 | with the default maximum 3: three wrong codes keep the code, the fourth attempt purges it, and the right code is refused after that |
| OtpService.WrongCodeKeepsCode | src/main/java/com/springboot/otplogin/service/OtpService.java:68-108 | a wrong code while attempts remain is refused, the live code stays and the counter rises by one |
| OtpService.OverusedCodePurged | src/main/java/com/springboot/otplogin/service/OtpService.java:89-95 | once the increment passes the maximum the attempt is refused and the code is purged |
| OtpService.NoLiveCodeRefused | src/main/java/com/springboot/otplogin/service/OtpService.java:68-108 | without a stored code every verification is refused |
| BlacklistedTokens.FindByJti | src/main/java/com/springboot/otplogin/repository/BlacklistedTokenRepository.java:17 | present exactly when a row has that jti, and then it is that row |
| BlacklistedTokens.ExistsByJti | src/main/java/com/springboot/otplogin/repository/BlacklistedTokenRepository.java:19 | agrees with `findByJti` |
| BlacklistedTokens.Insert | src/main/java/com/springboot/otplogin/entity/BlacklistedToken.java:30-31 | the unique jti column refuses a duplicate; otherwise exactly one row is added and the others are kept |
| BlacklistedTokens.DeleteWhere | src/main/java/com/springboot/otplogin/repository/BlacklistedTokenRepository.java:21-34 | a bulk delete keeps exactly the rows not matched, unchanged, and returns the number of matched rows |
| BlacklistedTokens.DeleteExpiredTokens | src/main/java/com/springboot/otplogin/repository/BlacklistedTokenRepository.java:21-23 | removes exactly the rows whose expiry is strictly before `now` |
| BlacklistedTokens.FindValidBlacklistedTokensForUser | src/main/java/com/springboot/otplogin/repository/BlacklistedTokenRepository.java:25-26 | exactly that email's rows whose expiry is strictly after `now` |
| BlacklistedTokens.DeleteAllTokensForUser | src/main/java/com/springboot/otplogin/repository/BlacklistedTokenRepository.java:28-30 | every row of that email goes and every other row stays |
| BlacklistedTokens.DeleteTokensForUserByType | src/main/java/com/springboot/otplogin/repository/BlacklistedTokenRepository.java:32-34 | removes exactly the rows matching both email and type, and returns their number |
| BlacklistedTokens.SaveAll | src/main/java/com/springboot/otplogin/service/TokenBlacklistService.java:93 | saving existing rows replaces each by its new version and adds no key |
| BlacklistedTokens.SweepIdempotent | src/main/java/com/springboot/otplogin/service/TokenBlacklistService.java:140-149 | a second sweep at the same instant deletes nothing |
| BlacklistedTokens.BoundaryRowNeitherValidNorSwept | src/main/java/com/springboot/otplogin/entity/BlacklistedToken.java:55-57 | a row expiring exactly at `now` is not expired, not reported valid, and not swept |
| TokenBlacklistService.BlacklistToken | src/main/java/com/springboot/otplogin/service/TokenBlacklistService.java:36-77 | idempotent on the jti (an existing row is left as it was); a parsed token with a new jti and all of subject, type and expiry is stored as exactly the row built from them, the given reason/address/agent and `now`; a missing claim or an unparseable token fails with the table unchanged |
| TokenBlacklistService.BlacklistAllUserTokens | src/main/java/com/springboot/otplogin/service/TokenBlacklistService.java:80-98 | rewrites reason, address and agent of that user's rows expiring after `now` only; no row is added or removed |
| TokenBlacklistService.BlacklistAllUserTokensByType | src/main/java/com/springboot/otplogin/service/TokenBlacklistService.java:101-108 | deletes exactly that user's rows of that type; all other rows are kept unchanged |
| TokenBlacklistService.IsTokenBlacklisted | src/main/java/com/springboot/otplogin/service/TokenBlacklistService.java:110-136 | true exactly for a parsed token whose row exists and is not expired; an expired row is deleted and reported false; an unparseable token is false |
| TokenBlacklistService.CleanupExpiredTokens | src/main/java/com/springboot/otplogin/service/TokenBlacklistService.java:140-149 | keeps exactly the rows whose expiry is not before `now`, unchanged |
| TokenBlacklistService.GetBlacklistedTokensForUser | src/main/java/com/springboot/otplogin/service/TokenBlacklistService.java:152-154 | that email's rows that expire strictly after `now` |
| TokenBlacklistService.ValidateTokenNotBlacklisted | src/main/java/com/springboot/otplogin/service/TokenBlacklistService.java:168-172 | throws exactly when `isTokenBlacklisted` says true |
| TokenBlacklistService.RevokeThenBlacklisted | src/main/java/com/springboot/otplogin/service/TokenBlacklistService.java:36-136 | an issued access token, once revoked, is reported blacklisted for the rest of its life unless an expired row with its jti was already there |
| TokenBlacklistService.RevocationAddsAtMostOne | src/main/java/com/springboot/otplogin/service/TokenBlacklistService.java:36-77 | a successful revocation adds at most one jti to the table |
| TokenBlacklistService.RevokeFresh | src/main/java/com/springboot/otplogin/service/TokenBlacklistService.java:36-77 | revoking a token whose jti, subject, type and expiry are all present and whose jti has no row stores exactly the row built from those claims, with the creation instant `now` |
| TokenBlacklistService.UnrevokedNotBlacklisted | src/main/java/com/springboot/otplogin/service/TokenBlacklistService.java:110-136 | a token whose jti has no row is not blacklisted and the check changes nothing |
| TokenBlacklistService.UnparseableNeverBlacklisted | src/main/java/com/springboot/otplogin/service/TokenBlacklistService.java:132-135 | fail-open: a token that does not parse is never blacklisted and validation lets it through |
| TokenBlacklistService.ByTypeOnlyTouchesThatType | src/main/java/com/springboot/otplogin/service/TokenBlacklistService.java:101-108 | after revoking an access and a refresh token, deleting the user's "refresh" rows un-revokes the refresh token and leaves the access token revoked |
| TokenBlacklistService.BlacklistedAtNeverChanges | src/main/java/com/springboot/otplogin/entity/BlacklistedToken.java:51-53 | the creation instant (and jti, expiry, email) of a row survives every operation that keeps the row |
| JwtTokenService.GenerateAccessToken | src/main/java/com/springboot/otplogin/service/JwtTokenService.java:84-90 | the token parses back, until its expiry, to subject, type "access", the given jti, issued-at `now` and expiry `now + minutes` |
| JwtTokenService.GenerateRefreshToken | src/main/java/com/springboot/otplogin/service/JwtTokenService.java:92-98 | as the access token, with type "refresh" and expiry `now + days` |
| JwtTokenService.ExtractAllClaims | src/main/java/com/springboot/otplogin/service/JwtTokenService.java:51-62 | a blank token fails with the parser's own IllegalArgumentException, which the `catch (JwtException)` does not rewrap; any other token fails exactly when parsing fails, with IllegalArgumentException("Invalid JWT token"); a success is the parsed claims |
| JwtTokenService.ExtractUsername | src/main/java/com/springboot/otplogin/service/JwtTokenService.java:38-40 | the subject of a signed unexpired token; an exception when the token does not parse |
| JwtTokenService.IsAccessToken | src/main/java/com/springboot/otplogin/service/JwtTokenService.java:138-145 | true exactly when the token is not blank and parses with type "access"; never throws |
| JwtTokenService.IsRefreshToken | src/main/java/com/springboot/otplogin/service/JwtTokenService.java:147-154 | true exactly when the token is not blank and parses with type "refresh"; never true together with `isAccessToken` |
| JwtTokenService.ValidateToken | src/main/java/com/springboot/otplogin/service/JwtTokenService.java:128-136 | true exactly when the token is not blank, its subject is the email and its expiry is not before `now`; false for a blank or unparseable token; the only exception is a NullPointerException from a missing claim |
| JwtTokenService.GetAccessTokenExpirationInSeconds | src/main/java/com/springboot/otplogin/service/JwtTokenService.java:156-158 | the access lifetime in seconds |
| JwtTokenService.RefreshToken | src/main/java/com/springboot/otplogin/service/JwtTokenService.java:160-174 | IllegalArgumentException exactly when the token is not a refresh token; otherwise a new access token for the same subject |
| JwtTokenService.AccessTokenRoundTrip | src/main/java/com/springboot/otplogin/service/JwtTokenService.java:84-136 | an issued access token yields its email, is an access and not a refresh token, and is valid for its owner only |
| JwtTokenService.RefreshKeepsSubject | src/main/java/com/springboot/otplogin/service/JwtTokenService.java:160-174 | refreshing an issued refresh token gives an access token for the same email |
| JwtTokenService.RefreshTokenRoundTrip | src/main/java/com/springboot/otplogin/service/JwtTokenService.java:92-98 | until it expires an issued refresh token is not blank, parses back to its email, and is a refresh token and not an access token |
| JwtTokenService.AccessTokenDoesNotRefresh | src/main/java/com/springboot/otplogin/service/JwtTokenService.java:160-174 | an access token cannot be used to refresh |
| Users.FindByEmail | src/main/java/com/springboot/otplogin/repository/UserRepository.java:16 | present exactly when some account has that email, active or not, and then it is such an account |
| Users.ExistsByEmail | src/main/java/com/springboot/otplogin/repository/UserRepository.java:14 | agrees with `findByEmail` |
| Users.FindByEmailAndIsActive | src/main/java/com/springboot/otplogin/repository/UserRepository.java:21-22 | present exactly when an active account has that email |
| Users.ExistsByEmailAndIsActive | src/main/java/com/springboot/otplogin/repository/UserRepository.java:18-19 | agrees with `findByEmailAndIsActive` |
| Users.ActiveLookupIsFilteredLookup | src/main/java/com/springboot/otplogin/repository/UserRepository.java:16-22 | with unique emails the active lookup is the plain lookup filtered by the active flag |
| Users.FindIndexById | src/main/java/com/springboot/otplogin/service/UserService.java:101 | the position of an account with that id, absent exactly when no account has it |
| Users.CountFailedAttemptsSince | src/main/java/com/springboot/otplogin/repository/LoginHistoryRepository.java:18-19 | the number of that user's failed entries created strictly after `since` |
| Users.CountFailedAttemptsByIpSince | src/main/java/com/springboot/otplogin/repository/LoginHistoryRepository.java:21-22 | the number of failed entries from that address created strictly after `since` |
| Users.CountIsCardinality | src/main/java/com/springboot/otplogin/repository/LoginHistoryRepository.java:18-22 | the count of matching entries is the number of matching positions |
| Users.AppendSuccessfulKeepsCounts | src/main/java/com/springboot/otplogin/repository/LoginHistoryRepository.java:18-22 | appending a successful entry changes neither count |
| Users.AppendFailedAddsOne | src/main/java/com/springboot/otplogin/repository/LoginHistoryRepository.java:18-19 | appending a newer failed entry of the user adds exactly one to the user's count |
| Users.CountsNonIncreasing | src/main/java/com/springboot/otplogin/repository/LoginHistoryRepository.java:18-22 | both counts can only drop as `since` moves later |
| Users.InsertNewestFirst | src/main/java/com/springboot/otplogin/repository/LoginHistoryRepository.java:16 | inserting into a newest-first list keeps it newest first and adds exactly that entry |
| Users.SortNewestFirst | src/main/java/com/springboot/otplogin/repository/LoginHistoryRepository.java:16 | a newest-first permutation of the entries |
| Users.EntriesOf | src/main/java/com/springboot/otplogin/repository/LoginHistoryRepository.java:16 | exactly the entries of that user, each as often as in the history |
| Users.FindByUserOrderByCreatedAtDesc | src/main/java/com/springboot/otplogin/repository/LoginHistoryRepository.java:16 | exactly that user's entries (as a multiset), newest first |
| UserService.LoadUserByUsername | src/main/java/com/springboot/otplogin/service/UserService.java:29-33 | succeeds exactly for an email of an active account; UsernameNotFoundException otherwise |
| UserService.GetUserByEmail | src/main/java/com/springboot/otplogin/service/UserService.java:154-157 | succeeds exactly for an email some account has, active or not |
| UserService.GetUserById | src/main/java/com/springboot/otplogin/service/UserService.java:159-162 | succeeds exactly for an id some account has; IllegalArgumentException otherwise |
| UserService.LoadIsActiveGet | src/main/java/com/springboot/otplogin/service/UserService.java:29-33 | with unique emails, loading succeeds exactly when `getUserByEmail` finds an active account, and returns it |
| UserService.NameFor | src/main/java/com/springboot/otplogin/service/UserService.java:89-91 | the given name, or the text before the first '@'; without '@' the substring call throws |
| UserService.RegisterKeepsValid | src/main/java/com/springboot/otplogin/service/UserService.java:67-79 | saving an account with a fresh email and id keeps emails and ids unique |
| UserService.GetOrCreateUser | src/main/java/com/springboot/otplogin/service/UserService.java:51-65 | the existing account and an unchanged database, or a newly saved active account |
| UserService.CreateUser | src/main/java/com/springboot/otplogin/service/UserService.java:67-79 | IllegalArgumentException for a taken email; otherwise one new active account under the fresh id |
| UserService.CreateUserIfNotExists | src/main/java/com/springboot/otplogin/service/UserService.java:83-98 | null and no change for a taken email; otherwise one new active account named by the given name or the part before '@' |
| UserService.UpdateUser | src/main/java/com/springboot/otplogin/service/UserService.java:100-106 | only the name of the account with that id changes; an unknown id throws |
| UserService.DeactivateUser | src/main/java/com/springboot/otplogin/service/UserService.java:108-114 | only the active flag of the account with that id changes, to false; an unknown id throws |
| UserService.RecordLoginHistory | src/main/java/com/springboot/otplogin/service/UserService.java:116-132 | appends one entry stamped `now`; fails exactly when the User-Agent is missing (the column is NOT NULL) |
| UserService.CountFailedAttemptsInLastMinutes | src/main/java/com/springboot/otplogin/service/UserService.java:134-137 | the user's failed entries strictly inside the last `minutes` |
| UserService.CountFailedAttemptsByIpInLastMinutes | src/main/java/com/springboot/otplogin/service/UserService.java:139-142 | the address's failed entries strictly inside the last `minutes` |
| UserService.IsRateLimited | src/main/java/com/springboot/otplogin/service/UserService.java:144-147 | true exactly when the user's failures in the window reach the maximum |
| UserService.IsIpRateLimited | src/main/java/com/springboot/otplogin/service/UserService.java:149-152 | true exactly when the address's failures in the window reach the maximum |
| UserService.SuccessDoesNotLock | src/main/java/com/springboot/otplogin/service/UserService.java:116-152 | recording a successful login never locks an account or an address |
| UserService.FailureCounts | src/main/java/com/springboot/otplogin/service/UserService.java:116-137 | recording a failed login adds exactly one to the user's count in any positive window |
| UserService.LockOnlyLiftsOverTime | src/main/java/com/springboot/otplogin/service/UserService.java:144-147 | with no new entries, a lock at a later instant implies a lock at the earlier one |
| Buckets.TryConsume | src/main/java/com/springboot/otplogin/controller/AuthController.java:281-298 | granted exactly while fewer tokens than the capacity were taken, taking one; no other key's bucket changes |
| Buckets.Run | src/main/java/com/springboot/otplogin/controller/AuthController.java:281-298 | in a burst on one key the i-th request is granted exactly when the tokens taken before plus i stay under the capacity; the bucket ends full or n tokens further on |
| Buckets.BurstBounded | src/main/java/com/springboot/otplogin/controller/AuthController.java:281-298 | the grants of a burst are exactly the tokens it takes, so a key is never granted more than its capacity |
| Buckets.KeysIndependent | src/main/java/com/springboot/otplogin/filter/RateLimitFilter.java:105-121 | requests on one key never use up another key's bucket |
| ClientIp.FirstSegment | src/main/java/com/springboot/otplogin/controller/AuthController.java:270 | the text before the first comma, or all of it |
| ClientIp.GetClientIpAddress | src/main/java/com/springboot/otplogin/controller/AuthController.java:267-279 | the trimmed first comma field of X-Forwarded-For when it is present, non-empty and not "unknown" in any case; else X-Real-IP under the same rule; else the remote address |
| AuthController.RequestOtp | src/main/java/com/springboot/otplogin/controller/AuthController.java:49-115 | the address bucket (429 "Too many requests"), then the email bucket and the OTP counter (429 "Too many OTP attempts"; later buckets untouched), then 400 INVALID MAIL for an unknown email, then the account lock (429, account message), then the address lock (429, address message), each answered only when every earlier check passed; 200 exactly when all pass, and then the mailed code's hash is stored with the deadline taken at generation; `expiresIn` is the whole minutes left at the second clock read (the configured minutes only when both reads fall in the same millisecond, one less within the following minute); no refusal touches the code store; `isActive` is never consulted |
| AuthController.VerifyOtp | src/main/java/com/springboot/otplogin/controller/AuthController.java:118-171 | unknown email 500; inactive 403 and locked 429 without consulting the code; a match 200 with access and refresh tokens for the email; a mismatch 401; each outcome for a known account appends one history entry, and a missing User-Agent turns it into a 500 |
| AuthController.RefreshToken | src/main/java/com/springboot/otplogin/controller/AuthController.java:174-210 | blank 400; not a refresh token 401 "Invalid refresh token"; a refresh token without subject or of an unknown account 401 "Invalid or expired refresh token"; of an inactive account 403 "Account is deactivated"; 200 exactly for a refresh token of a known active account, with a new access token for its subject; the revocation table plays no part |
| AuthController.Signup | src/main/java/com/springboot/otplogin/controller/AuthController.java:213-265 | address bucket then email bucket (429); a taken email 409 with nothing saved; otherwise 201 and one new active account with the given name |
| LogoutController.BearerToken | src/main/java/com/springboot/otplogin/controller/LogoutController.java:37-38 | the header minus "Bearer " exactly when it starts with that prefix |
| LogoutController.ExtractEmailFromToken | src/main/java/com/springboot/otplogin/controller/LogoutController.java:165-178 | the token's subject under the controller's own key; "unknown" when that key is unusable or the token does not parse; never throws |
| LogoutController.Logout | src/main/java/com/springboot/otplogin/controller/LogoutController.java:31-64 | no Bearer header: 200 and nothing changes; otherwise revoke the token (500 and nothing changed when that fails), delete the extracted email's "refresh" rows, clear its code |
| LogoutController.LogoutAllDevices | src/main/java/com/springboot/otplogin/controller/LogoutController.java:67-96 | revokes the presented token, then relabels the user's still-valid rows with the "Logout all devices" reason, address and agent; the table gains at most that token, so no other session is revoked; the code of the token's email is cleared |
| LogoutController.InvalidateRefreshTokens | src/main/java/com/springboot/otplogin/controller/LogoutController.java:99-132 | the address bucket of capacity 20 first (429); then the extracted email's "refresh" rows are deleted; rows are only ever removed |
| LogoutController.ForceLogout | src/main/java/com/springboot/otplogin/controller/LogoutController.java:135-163 | null or blank email 400 with nothing changed; otherwise the user's still-valid rows are relabelled and the code cleared, and no key is added |
| LogoutController.ForceLogoutNeverRevokes | src/main/java/com/springboot/otplogin/controller/LogoutController.java:135-163 | force logout changes no token's blacklist verdict at any check instant: it only relabels rows that were already there |
| LogoutController.InvalidationNeverRevokes | src/main/java/com/springboot/otplogin/controller/LogoutController.java:99-132 | a token blacklisted after invalidation was blacklisted before it |
| LogoutController.DefaultKeyLogsOutUnknown | src/main/java/com/springboot/otplogin/controller/LogoutController.java:165-178 | when the controller's key cannot be built, a logout clears the code of "unknown" |
| RateLimitFilter.ExtractEmailFromRequest | src/main/java/com/springboot/otplogin/filter/RateLimitFilter.java:69-89 | null without `"email"`; a result is non-empty, quote-free, and stands between two quotes of the body |
| RateLimitFilter.ExtractsFromSimpleJson | src/main/java/com/springboot/otplogin/filter/RateLimitFilter.java:69-89 | the body `{"email":"e"}` yields `e` |
| RateLimitFilter.SendRateLimitResponse | src/main/java/com/springboot/otplogin/filter/RateLimitFilter.java:123-139 | 429 with Retry-After 60, X-RateLimit-Limit 5, X-RateLimit-Remaining 0, the message as detail and the request-otp path as instance |
| RateLimitFilter.DoFilter | src/main/java/com/springboot/otplogin/filter/RateLimitFilter.java:29-67 | only POST to the request-otp path is gated; the address bucket first (429 without touching the email bucket), then the email bucket only for an extracted email; the chain runs exactly when neither refused |
| RateLimitFilter.EmptyCacheSkipsEmailBucket | src/main/java/com/springboot/otplogin/filter/RateLimitFilter.java:40-60 | with the empty cached body the filter sees before the controller reads, the email bucket is never used |
| JwtAuthFilter.GetJwtFromRequest | src/main/java/com/springboot/otplogin/security/JwtAuthenticationFilter.java:74-80 | the header minus "Bearer " exactly when it has text and starts with that prefix |
| JwtAuthFilter.DoFilterInternal | src/main/java/com/springboot/otplogin/security/JwtAuthenticationFilter.java:31-72 | no access token: continue with nothing changed; a blacklisted access token is the only rejection; a principal is set exactly when the token is valid for an active account and no authentication exists, and it is that account |
| GlobalExceptionHandler.MessagesOf | src/main/java/com/springboot/otplogin/exception/GlobalExceptionHandler.java:24-40 | a field's messages in error order: empty exactly when no error names the field, and each the message of an error of that field |
| GlobalExceptionHandler.GroupErrors | src/main/java/com/springboot/otplogin/exception/GlobalExceptionHandler.java:24-40 | exactly the fields with an error are keys, each mapped to its messages in order, and the message total equals the number of errors |
| GlobalExceptionHandler.HandleValidationExceptions | src/main/java/com/springboot/otplogin/exception/GlobalExceptionHandler.java:19-44 | 400 with exactly the erroneous fields, each with its messages in order |
| GlobalExceptionHandler.HandleRateLimitExceeded | src/main/java/com/springboot/otplogin/exception/GlobalExceptionHandler.java:46-62 | 429, Retry-After and retryAfter equal the exception's seconds, the detail is its message, the instance is the description with every "uri=" removed |
| GlobalExceptionHandler.InstanceIsRequestPath | src/main/java/com/springboot/otplogin/exception/GlobalExceptionHandler.java:46-62 | for the description "uri="+path the instance is the path |
| Flows.LoginWithMailedCode | src/main/java/com/springboot/otplogin/controller/AuthController.java:49-171 | when request-otp passes for an active account, the mailed code verified before its deadline gives 200 with tokens for that email, and the same code again gives 401 |
| Flows.DeactivatedAccountIsMailedUnusableCode | src/main/java/com/springboot/otplogin/controller/AuthController.java:49-136 | a deactivated account is mailed a code, and verify-otp answers 403 to it without consuming it |
| Flows.WrongCodeCountsTowardLock | src/main/java/com/springboot/otplogin/controller/AuthController.java:136-164 | a wrong code for an unlocked account is a 401 and adds one failure to the account-lock window |
| Flows.LogoutRevokesAccessToken | src/main/java/com/springboot/otplogin/controller/LogoutController.java:31-64 | after logout with a fresh access token the filter rejects that token until it expires |
| Flows.RefreshUnaffectedByLogout | src/main/java/com/springboot/otplogin/controller/AuthController.java:174-210 | the refresh endpoint answers the same before and after any logout |
| Flows.IssuedRefreshTokenRefreshes | src/main/java/com/springboot/otplogin/controller/AuthController.java:174-210 | an issued refresh token of an active account gets a new access token for it |
| Flows.LogoutLeavesRefreshUsable | src/main/java/com/springboot/otplogin/controller/LogoutController.java:38-48 | after logout the session's access token is rejected but its refresh token still obtains access tokens |
| Flows.LogoutAllLeavesOtherSessions | src/main/java/com/springboot/otplogin/controller/LogoutController.java:67-96 | after logout from all devices another unrevoked access token still authenticates its account |
| Flows.ForceLogoutLeavesSessions | src/main/java/com/springboot/otplogin/controller/LogoutController.java:135-163 | after an admin force-logout of an account, an unrevoked access token of that account still authenticates it |
| Flows.RefreshTokenNeverAuthenticates | src/main/java/com/springboot/otplogin/security/JwtAuthenticationFilter.java:39 | a refresh token in the Bearer header never authenticates and changes nothing |

## Left out

- Redis is left out. The primary store of `OtpService` and the `isRedisAvailable` probe are external; only the in-memory fallback is modelled.
- BCrypt, `SecureRandom` and the jjwt library are uninterpreted. Whether jjwt's parser itself rejects an expired token is not visible, so `parse` at an expired instant is unconstrained.
- JWT expiry is kept in milliseconds. The claim's truncation to whole seconds is not modelled.
- The extra claims of the `UserDetails` variants of token generation are not modelled. `generateToken` builds the same claims as `generateAccessToken`, and `generateJTI`'s UUID is a parameter.
- `LogoutController` builds its own key from a system property whose default, "mySecretKey", is too short for an HMAC key. The key is an `Option<Codec>`: `None` when it cannot be built.
- `generateJtiFromToken` mixes the token's hash code with the wall clock. It is a parameter (`generatedJti`).
- Bucket refill is not modelled. A bucket counts the tokens taken and grants its first `capacity` requests. Refill timing belongs to the bucket4j library.
- `ConcurrentHashMap` atomicity, `@Transactional`, `@Scheduled` and `@Async` are left out, because every operation is modelled as a sequential step. A `DataIntegrityViolationException` from a concurrent signup is part of this.
- `LocalDateTime` and time-zone conversions are left out: every instant is an integer.
- Within one request, every read of the clock except `AuthController.RequestOtp`'s `ttlAt` is taken to be the same instant `now`. The source reads the clock separately in several places that the model merges: `generateAccessToken` for the expiry and `createToken` for `issuedAt`; in verify-otp, the OTP lookup and expiry test, the failure-window start of `isRateLimited` and the `@CreatedDate` stamp of the login-history row. `AuthController.RequestOtp` alone takes two instants: `now`, when the code's deadline is set, and `ttlAt`, when `getOtpTtl` reads the clock again after the mail hand-over. The model does not order them: the contract states `expiresIn` for any pair.
- The Redis expiry of the attempt counter is left out with Redis itself (`OtpService.java:164-167`): with Redis the counter, and the lock with it, disappears `otpExpirationMinutes` after the first attempt, whereas the in-memory counter modelled here never expires.
- The exact text of the parser's message for a blank token (`JwtTokenService.BlankTokenMessage`) is the library's. The model relies only on that message differing from "Invalid JWT token".
- Logging is left out.
- `EmailService` is left out. The code it would send is the third result of `AuthController.RequestOtp`, and a send failure does not change the reply.
- The audit services and their entities (`LogoutAuditService`, `LogoutAuditLog`, `LogoutAuditLogRepository`) are not part of this model. `UserController` is not part of this model either.
- The DTOs are shapes only. Their timestamps and the bean-validation annotations are not modelled. `RateLimitExceededResponse.of` is `Http.RateLimitExceeded`.
- Overflow of the source's `int` arithmetic, such as `otpExpirationMinutes*60*1000`, is not modelled. Integers are unbounded.
- `equalsIgnoreCase` folds ASCII letters only.
- `ClientIp.GetClientIpAddress` requires that an `X-Forwarded-For` header it would use is not made only of commas. For such a header `split(",")` yields an empty array and indexing it throws. This applies to all three copies of `getClientIpAddress`.
- `GlobalExceptionHandler.HandleValidationExceptions` takes the field errors as a list. A binding error that is not a `FieldError` makes the source's cast throw; that case is left out.
- The catch block of `requestOtp` returns 500. None of the modelled steps before mail sending throws, so it is not modelled.
- `isTokenBlacklisted` also returns false on a database failure. Only the parse failure is modelled; a failing repository is not.
- The other exception paths of `blacklistAllUserTokens` and `blacklistAllUserTokensByType` are not modelled. Both swallow exceptions, and the in-memory table cannot fail.
- RateLimitFilter.ExtractEmailFromRequest: states that a result is non-empty, quote-free and stands between two quotes of the body, weaker than the exact position (after the first colon that follows the first `"email"`). When no colon follows, `indexOf` returns -1 and the scan starts from the body's first quote. `RateLimitFilter.ExtractsFromSimpleJson` pins the result down for the usual body.
- GlobalExceptionHandler.HandleRateLimitExceeded: states the instance exactly only for a description without "uri="; in general it states only that the instance is no longer than the description. `GlobalExceptionHandler.InstanceIsRequestPath` covers the servlet's "uri=" + path form.

=== FILE: auth_controller.dfy ===
/**
 * `AuthController`: the decision chains of request-otp, verify-otp,
 * refresh-token and signup. Each endpoint is a function from the state to the
 * new state and the reply; random draws, fresh token ids and new user ids are
 * parameters.
 */
module AuthController {
  import opened Wrappers
  import opened Exceptions
  import opened Http
  import opened ClientIp
  import opened JavaStrings
  import opened Buckets
  import opened Server
  import Users
  import Otp = OtpService
  import Jwt = JwtTokenService
  import Us = UserService

  const IpBucketCapacity := 10
  const EmailBucketCapacity := 5

  /** Login-history locks: 5 failures of the account, or 10 from the address, within 15 minutes. */
  const AccountMaxFailures := 5
  const IpMaxFailures := 10
  const LockWindowMinutes := 15

  const TooManyRequests := "Too many requests. Please try again later."
  const TooManyOtpAttempts := "Too many OTP attempts. Please try again later."
  const InvalidMail := "INVALID MAIL"
  const AccountLockedOnRequest := "Account temporarily locked due to too many failed attempts. Please try again in 15 minutes."
  const IpBlocked := "IP temporarily blocked due to too many failed attempts. Please try again in 15 minutes."
  const OtpSentMessage := "OTP has been sent to your email"
  const VerificationFailed := "OTP verification failed. Please try again."
  const AccountDeactivated := "Account is deactivated"
  const AccountLockedOnVerify := "Account temporarily locked. Please try again in 15 minutes."
  const InvalidOtp := "Invalid OTP. Please try again."
  const RefreshTokenRequired := "Refresh token is required"
  const InvalidRefreshToken := "Invalid refresh token"
  const InvalidOrExpiredRefreshToken := "Invalid or expired refresh token"
  const UserAlreadyExists := "User with this email already exists"
  const RegistrationFailed := "Registration failed. Please try again."
  const TokenType := "Bearer"

  predicate AccountLocked(db: Us.UserDb, user: Users.User, now: int) {
    Us.IsRateLimited(db, user, AccountMaxFailures, LockWindowMinutes, now)
  }

  predicate IpLocked(db: Us.UserDb, ip: string, now: int) {
    Us.IsIpRateLimited(db, ip, IpMaxFailures, LockWindowMinutes, now)
  }

  /** Every check `requestOtp` makes before it generates a code passes. */
  predicate MayIssueOtp(env: Env, st: State, email: string, ip: string, now: int) {
    && TryConsume(st.authIpBuckets, ip, IpBucketCapacity).1
    && TryConsume(st.authEmailBuckets, email, EmailBucketCapacity).1
    && !Otp.IsRateLimited(env.otpCfg, st.otp, email)
    && Users.FindByEmail(st.db.users, email).Some?
    && !AccountLocked(st.db, Users.FindByEmail(st.db.users, email).value, now)
    && !IpLocked(st.db, ip, now)
  }

  /**
   * `requestOtp`: the address bucket, the email bucket and the OTP attempt
   * counter are consulted in that order, then the account must exist, then the
   * account lock and the address lock; only then is a code generated. The third
   * component is the code handed to the mail service; a failed send does not
   * change the reply. The code's deadline is taken at `now`; `expiresIn` is the
   * TTL read again at `ttlAt`, after the mail has been handed over.
   */
  function RequestOtp(env: Env, st: State, email: string, req: Request, draws: seq<Otp.Digit>, now: int, ttlAt: int)
    : (r: (State, Reply, Option<string>))
    requires SplitsToSomething(req.headers.xForwardedFor)
    requires |draws| == env.otpCfg.otpLength
    ensures var ip := ForRequest(req);
            var (ipBuckets, ipOk) := TryConsume(st.authIpBuckets, ip, IpBucketCapacity);
            && r.0 == st.(authIpBuckets := ipBuckets, authEmailBuckets := r.0.authEmailBuckets, otp := r.0.otp)
            && (!ipOk ==> r.1 == Reply(StatusTooManyRequests, Message(TooManyRequests)) && r.0.authEmailBuckets == st.authEmailBuckets)
            && (ipOk ==> r.0.authEmailBuckets == TryConsume(st.authEmailBuckets, email, EmailBucketCapacity).0)
            && (r.1.status == StatusOk <==> MayIssueOtp(env, st, email, ip, now))
            && ((ipOk && TryConsume(st.authEmailBuckets, email, EmailBucketCapacity).1
                 && !Otp.IsRateLimited(env.otpCfg, st.otp, email) && !Users.ExistsByEmail(st.db.users, email))
                ==> r.1 == Reply(StatusBadRequest, Message(InvalidMail)))
    ensures var ip := ForRequest(req);
            var emailOk := TryConsume(st.authEmailBuckets, email, EmailBucketCapacity).1;
            var otpLimited := Otp.IsRateLimited(env.otpCfg, st.otp, email);
            var user := Users.FindByEmail(st.db.users, email);
            TryConsume(st.authIpBuckets, ip, IpBucketCapacity).1 ==>
              && (!emailOk ==> r.1 == Reply(StatusTooManyRequests, Message(TooManyOtpAttempts)))
              && (emailOk && otpLimited ==> r.1 == Reply(StatusTooManyRequests, Message(TooManyOtpAttempts)))
              && (emailOk && !otpLimited && user.Some? && AccountLocked(st.db, user.value, now) ==>
                    r.1 == Reply(StatusTooManyRequests, Message(AccountLockedOnRequest)))
              && (emailOk && !otpLimited && user.Some? && !AccountLocked(st.db, user.value, now) && IpLocked(st.db, ip, now) ==>
                    r.1 == Reply(StatusTooManyRequests, Message(IpBlocked)))
    ensures r.2.Some? <==> r.1.status == StatusOk
    ensures r.1.status in {StatusOk, StatusBadRequest, StatusTooManyRequests}
    ensures r.1.status != StatusOk ==> r.0.otp == st.otp
    ensures r.1.status == StatusOk ==>
              && |r.2.value| == env.otpCfg.otpLength
              && Otp.EntryOf(r.0.otp, email)
                 == Otp.Entry(Some(env.encoder.encode(r.2.value)), Some(now + env.otpCfg.expirationMinutes * Otp.MillisPerMinute),
                              Otp.EntryOf(st.otp, email).attempts)
              && r.1.body.OtpSent? && r.1.body.message == OtpSentMessage && r.1.body.email == email
    ensures r.1.status == StatusOk ==>
              var m := env.otpCfg.expirationMinutes;
              var left := now + m * Otp.MillisPerMinute - ttlAt;
              var expiresIn := r.1.body.expiresIn;
              && (left <= 0 ==> expiresIn == 0)
              && (left > 0 ==> expiresIn * Otp.MillisPerMinute <= left < (expiresIn + 1) * Otp.MillisPerMinute)
              && (ttlAt == now && m >= 0 ==> expiresIn == m)
              && (now < ttlAt <= now + Otp.MillisPerMinute && m >= 1 ==> expiresIn == m - 1)
  {
    var ip := ForRequest(req);
    var (ipBuckets, ipOk) := TryConsume(st.authIpBuckets, ip, IpBucketCapacity);
    var st1 := st.(authIpBuckets := ipBuckets);
    if !ipOk then (st1, Reply(StatusTooManyRequests, Message(TooManyRequests)), None)
    else
      var (emailBuckets, emailOk) := TryConsume(st.authEmailBuckets, email, EmailBucketCapacity);
      var st2 := st1.(authEmailBuckets := emailBuckets);
      if !emailOk || Otp.IsRateLimited(env.otpCfg, st.otp, email) then
        (st2, Reply(StatusTooManyRequests, Message(TooManyOtpAttempts)), None)
      else if !Users.ExistsByEmail(st.db.users, email) then (st2, Reply(StatusBadRequest, Message(InvalidMail)), None)
      else
        var user := Us.GetUserByEmail(st.db, email).value;
        if AccountLocked(st.db, user, now) then (st2, Reply(StatusTooManyRequests, Message(AccountLockedOnRequest)), None)
        else if IpLocked(st.db, ip, now) then (st2, Reply(StatusTooManyRequests, Message(IpBlocked)), None)
        else
          var (otp', code) := Otp.GenerateOtp(env.otpCfg, env.encoder, st.otp, email, draws, now);
          var ttl := Otp.GetOtpTtl(otp', email, ttlAt);
          Otp.TtlAfterGenerate(env.otpCfg, env.encoder, st.otp, email, draws, now, ttlAt);
          (st2.(otp := otp'), Reply(StatusOk, OtpSent(OtpSentMessage, email, ttl)), Some(code))
  }

  /** Appends the history entry, or answers 500 with the state as it was when the insert fails. */
  function Recorded(st: State, user: Users.User, ip: string, userAgent: Option<string>, successful: bool,
                    reason: Option<string>, now: int, reply: Reply): (r: (State, Reply))
  {
    match Us.RecordLoginHistory(st.db, user, ip, userAgent, successful, reason, now)
    case Failure(_) => (st, Reply(StatusInternalServerError, Message(VerificationFailed)))
    case Success(db') => (st.(db := db'), reply)
  }

  /** The tokens a successful verification hands out. */
  function IssuedTokens(env: Env, email: string, accessJti: string, refreshJti: string, now: int): Body {
    TokenPair(Jwt.GenerateAccessToken(env.key, env.jwtCfg, Some(email), accessJti, now),
              Jwt.GenerateRefreshToken(env.key, env.jwtCfg, Some(email), refreshJti, now),
              TokenType, Jwt.GetAccessTokenExpirationInSeconds(env.jwtCfg), email)
  }

  /**
   * `verifyOtp`: an unknown account is a 500; an inactive one a 403 and a locked
   * one a 429, each with a failed history entry and without consulting the code;
   * otherwise the code is checked, and a match issues an access and a refresh
   * token. Every outcome for a known account records one history entry, which
   * fails (500) when the request has no User-Agent.
   */
  function VerifyOtp(env: Env, st: State, email: string, otp: string, req: Request, now: int,
                     accessJti: string, refreshJti: string): (r: (State, Reply))
    requires SplitsToSomething(req.headers.xForwardedFor)
    ensures Users.FindByEmail(st.db.users, email).None? ==> r == (st, Reply(StatusInternalServerError, Message(VerificationFailed)))
    ensures Users.FindByEmail(st.db.users, email).Some? ==>
              var user := Users.FindByEmail(st.db.users, email).value;
              var codeConsulted := user.isActive && !AccountLocked(st.db, user, now);
              var (otp', ok) := Otp.VerifyOtp(env.otpCfg, env.encoder, st.otp, email, otp, now);
              && r.0 == st.(db := r.0.db, otp := r.0.otp)
              && r.0.otp == (if codeConsulted then otp' else st.otp)
              && (req.headers.userAgent.None? ==> r.0.db == st.db && r.1.status == StatusInternalServerError)
              && (req.headers.userAgent.Some? ==>
                    && r.0.db.users == st.db.users
                    && |r.0.db.history| == |st.db.history| + 1 && r.0.db.history[..|st.db.history|] == st.db.history
                    && var entry := r.0.db.history[|st.db.history|];
                    && entry.userId == user.id && entry.createdAt == now && entry.ipAddress == ForRequest(req)
                    && entry.successful == (codeConsulted && ok)
                    && (!user.isActive ==> r.1 == Reply(StatusForbidden, Message(AccountDeactivated)))
                    && (user.isActive && !codeConsulted ==> r.1 == Reply(StatusTooManyRequests, Message(AccountLockedOnVerify)))
                    && (codeConsulted && ok ==> r.1 == Reply(StatusOk, IssuedTokens(env, email, accessJti, refreshJti, now)))
                    && (codeConsulted && !ok ==> r.1 == Reply(StatusUnauthorized, Message(InvalidOtp))))
  {
    var ip := ForRequest(req);
    var ua := req.headers.userAgent;
    match Us.GetUserByEmail(st.db, email)
    case Failure(_) => (st, Reply(StatusInternalServerError, Message(VerificationFailed)))
    case Success(user) =>
      if !user.isActive then
        Recorded(st, user, ip, ua, false, Some("Account is inactive"), now, Reply(StatusForbidden, Message(AccountDeactivated)))
      else if AccountLocked(st.db, user, now) then
        Recorded(st, user, ip, ua, false, Some("Account rate limited"), now, Reply(StatusTooManyRequests, Message(AccountLockedOnVerify)))
      else
        var (otp', ok) := Otp.VerifyOtp(env.otpCfg, env.encoder, st.otp, email, otp, now);
        var st1 := st.(otp := otp');
        if ok then
          Recorded(st1, user, ip, ua, true, None, now, Reply(StatusOk, IssuedTokens(env, user.email, accessJti, refreshJti, now)))
        else
          Recorded(st1, user, ip, ua, false, Some("Invalid OTP"), now, Reply(StatusUnauthorized, Message(InvalidOtp)))
  }

  /**
   * `refreshToken`: a missing or blank token is a 400, a token that is not a
   * refresh token a 401, an unknown subject a 401 and an inactive account a 403;
   * otherwise a new access token for the token's subject. The revocation table
   * is not part of the decision.
   */
  function RefreshToken(env: Env, st: State, refreshToken: Option<string>, jti: string, now: int): (r: Reply)
    ensures refreshToken.None? || Trim(refreshToken.value) == "" ==> r == Reply(StatusBadRequest, Message(RefreshTokenRequired))
    ensures refreshToken.Some? && Trim(refreshToken.value) != "" && !Jwt.IsRefreshToken(env.key, refreshToken.value, now) ==>
              r == Reply(StatusUnauthorized, Message(InvalidRefreshToken))
    ensures r.status == StatusOk <==>
              && refreshToken.Some? && Trim(refreshToken.value) != ""
              && Jwt.IsRefreshToken(env.key, refreshToken.value, now)
              && var subject := env.key.parse(refreshToken.value, now).value.subject;
              && subject.Some? && Users.FindByEmail(st.db.users, subject.value).Some?
              && Users.FindByEmail(st.db.users, subject.value).value.isActive
    ensures r.status == StatusOk ==>
              r.body == AccessTokenOnly(Jwt.GenerateAccessToken(env.key, env.jwtCfg, env.key.parse(refreshToken.value, now).value.subject, jti, now),
                                        TokenType, Jwt.GetAccessTokenExpirationInSeconds(env.jwtCfg))
    ensures refreshToken.Some? && Trim(refreshToken.value) != "" && Jwt.IsRefreshToken(env.key, refreshToken.value, now) ==>
              var subject := env.key.parse(refreshToken.value, now).value.subject;
              && (subject.None? || Users.FindByEmail(st.db.users, subject.value).None? ==>
                    r == Reply(StatusUnauthorized, Message(InvalidOrExpiredRefreshToken)))
              && (subject.Some? && Users.FindByEmail(st.db.users, subject.value).Some?
                  && !Users.FindByEmail(st.db.users, subject.value).value.isActive ==>
                    r == Reply(StatusForbidden, Message(AccountDeactivated)))
    ensures r.status in {StatusOk, StatusBadRequest, StatusUnauthorized, StatusForbidden}
  {
    if refreshToken.None? || Trim(refreshToken.value) == "" then Reply(StatusBadRequest, Message(RefreshTokenRequired))
    else
      var token := refreshToken.value;
      if !Jwt.IsRefreshToken(env.key, token, now) then Reply(StatusUnauthorized, Message(InvalidRefreshToken))
      else
        match Jwt.ExtractUsername(env.key, token, now)
        case Failure(_) => Reply(StatusUnauthorized, Message(InvalidOrExpiredRefreshToken))
        case Success(subject) =>
          if subject.None? then Reply(StatusUnauthorized, Message(InvalidOrExpiredRefreshToken))
          else
            match Us.GetUserByEmail(st.db, subject.value)
            case Failure(_) => Reply(StatusUnauthorized, Message(InvalidOrExpiredRefreshToken))
            case Success(user) =>
              if !user.isActive then Reply(StatusForbidden, Message(AccountDeactivated))
              else
                match Jwt.RefreshToken(env.key, env.jwtCfg, token, jti, now)
                case Failure(_) => Reply(StatusUnauthorized, Message(InvalidOrExpiredRefreshToken))
                case Success(newToken) =>
                  Reply(StatusOk, AccessTokenOnly(newToken, TokenType, Jwt.GetAccessTokenExpirationInSeconds(env.jwtCfg)))
  }

  /**
   * `signup`: the address bucket and then the email bucket (the second is not
   * consumed when the first refuses); a taken email is a 409; otherwise one
   * new active account with the given name.
   */
  function Signup(env: Env, st: State, email: string, name: string, req: Request, newId: int): (r: (State, Reply))
    requires SplitsToSomething(req.headers.xForwardedFor)
    requires Us.Valid(st.db) && Us.FreshId(st.db, newId)
    ensures var (ipBuckets, ipOk) := TryConsume(st.authIpBuckets, ForRequest(req), IpBucketCapacity);
            var (emailBuckets, emailOk) := TryConsume(st.authEmailBuckets, email, EmailBucketCapacity);
            && r.0 == st.(authIpBuckets := ipBuckets, authEmailBuckets := r.0.authEmailBuckets, db := r.0.db)
            && r.0.authEmailBuckets == (if ipOk then emailBuckets else st.authEmailBuckets)
            && (!(ipOk && emailOk) ==> r.1 == Reply(StatusTooManyRequests, Message(TooManyRequests)))
            && (ipOk && emailOk && Users.ExistsByEmail(st.db.users, email) ==> r.1 == Reply(StatusConflict, Message(UserAlreadyExists)))
            && (r.1.status == StatusCreated <==> ipOk && emailOk && !Users.ExistsByEmail(st.db.users, email))
    ensures r.1.status != StatusCreated ==> r.0.db == st.db
    ensures r.1.status == StatusCreated ==>
              && r.0.db == st.db.(users := st.db.users + [Users.User(newId, email, Some(name), true)])
              && r.1.body == Registered("User registered successfully", email, name, newId)
    ensures Us.Valid(r.0.db)
  {
    var ip := ForRequest(req);
    var (ipBuckets, ipOk) := TryConsume(st.authIpBuckets, ip, IpBucketCapacity);
    var st1 := st.(authIpBuckets := ipBuckets);
    if !ipOk then (st1, Reply(StatusTooManyRequests, Message(TooManyRequests)))
    else
      var (emailBuckets, emailOk) := TryConsume(st.authEmailBuckets, email, EmailBucketCapacity);
      var st2 := st1.(authEmailBuckets := emailBuckets);
      if !emailOk then (st2, Reply(StatusTooManyRequests, Message(TooManyRequests)))
      else
        match Us.CreateUserIfNotExists(st.db, email, Some(name), newId)
        case Failure(_) =>
          // A given name never needs the '@' split, so creation cannot throw here.
          assert false;
          (st2, Reply(StatusInternalServerError, Message(RegistrationFailed)))
        case Success((db', created)) =>
          if created.None? then (st2, Reply(StatusConflict, Message(UserAlreadyExists)))
          else (st2.(db := db'), Reply(StatusCreated, Registered("User registered successfully", email, name, created.value.id)))
  }
}

=== FILE: blacklisted_tokens.dfy ===
/**
 * The `BlacklistedToken` entity and the query semantics of `BlacklistedTokenRepository`.
 * The table is a map keyed by the unique, non-null `jti` column.
 */
module BlacklistedTokens {
  import opened Wrappers
  import opened Exceptions

  /** One revocation row. The non-null columns are plain values; the nullable ones are options. */
  datatype BlacklistedToken = BlacklistedToken(
    jti: string,
    userEmail: string,
    tokenType: string,
    expiryDate: int,
    logoutReason: Option<string>,
    ipAddress: Option<string>,
    userAgent: Option<string>,
    blacklistedAt: int)

  /** `isExpired`: `now` is strictly after the expiry; at the expiry instant the row is still live. */
  predicate IsExpired(row: BlacklistedToken, now: int) {
    now > row.expiryDate
  }

  type Table = map<string, BlacklistedToken>

  /** Every row is filed under its own jti, so a jti names at most one row. */
  ghost predicate KeyedByJti(t: Table) {
    forall j :: j in t ==> t[j].jti == j
  }

  /** `bt.userEmail = :email`; a null parameter matches no row. */
  predicate EmailIs(row: BlacklistedToken, email: Option<string>) {
    email == Some(row.userEmail)
  }

  /** Rows that are kept keep their contents. */
  ghost predicate RowsKept(t: Table, t': Table) {
    forall j :: j in t' ==> j in t && t'[j] == t[j]
  }

  /** `findByJti` */
  function FindByJti(t: Table, jti: string): (r: Option<BlacklistedToken>)
    ensures r.Some? <==> jti in t
    ensures KeyedByJti(t) && r.Some? ==> r.value.jti == jti && r.value == t[jti]
  {
    if jti in t then Some(t[jti]) else None
  }

  /** `existsByJti` agrees with `findByJti`. */
  function ExistsByJti(t: Table, jti: string): (b: bool)
    ensures b <==> FindByJti(t, jti).Some?
  {
    jti in t
  }

  /** `save` of a new entity: an insert, refused by the unique constraint when the jti is taken. */
  function Insert(t: Table, row: BlacklistedToken): (r: Result<Table, Thrown>)
    ensures r.Failure? <==> row.jti in t
    ensures r.Success? ==> r.value.Keys == t.Keys + {row.jti} && r.value[row.jti] == row && |r.value| == |t| + 1
    ensures r.Success? ==> forall j :: j in t ==> r.value[j] == t[j]
    ensures r.Success? && KeyedByJti(t) ==> KeyedByJti(r.value)
  {
    if row.jti in t then Failure(ConstraintViolation("jti"))
    else Success(t[row.jti := row])
  }

  /** A bulk `DELETE ... WHERE doomed`: the rows kept, and how many went. */
  function DeleteWhere(t: Table, doomed: BlacklistedToken -> bool): (r: (Table, nat))
    ensures forall j :: j in r.0 <==> j in t && !doomed(t[j])
    ensures RowsKept(t, r.0)
    ensures r.1 == |t| - |r.0|
    ensures r.1 == |set j | j in t && doomed(t[j])|
  {
    var kept := map j | j in t && !doomed(t[j]) :: t[j];
    var gone := set j | j in t && doomed(t[j]);
    assert kept.Keys + gone == t.Keys;
    assert kept.Keys * gone == {};
    assert |kept.Keys + gone| == |kept.Keys| + |gone|;
    (kept, |gone|)
  }

  /** `deleteExpiredTokens(now)`: removes exactly the rows whose expiry is strictly before `now`. */
  function DeleteExpiredTokens(t: Table, now: int): (r: (Table, nat))
    ensures forall j :: j in r.0 <==> j in t && t[j].expiryDate >= now
    ensures RowsKept(t, r.0)
    ensures r.1 == |t| - |r.0|
  {
    DeleteWhere(t, (row: BlacklistedToken) => row.expiryDate < now)
  }

  /** `findValidBlacklistedTokensForUser`: that user's rows whose expiry is strictly after `now`. */
  function FindValidBlacklistedTokensForUser(t: Table, email: Option<string>, now: int): (r: Table)
    ensures forall j :: j in r <==> j in t && EmailIs(t[j], email) && t[j].expiryDate > now
    ensures RowsKept(t, r)
  {
    map j | j in t && EmailIs(t[j], email) && t[j].expiryDate > now :: t[j]
  }

  /** `deleteAllTokensForUser`: every row of that user goes, every other row stays. */
  function DeleteAllTokensForUser(t: Table, email: Option<string>): (r: (Table, nat))
    ensures forall j :: j in r.0 <==> j in t && !EmailIs(t[j], email)
    ensures RowsKept(t, r.0)
    ensures r.1 == |t| - |r.0|
  {
    DeleteWhere(t, (row: BlacklistedToken) => EmailIs(row, email))
  }

  /** `deleteTokensForUserByType`: removes exactly the rows matching both user and type. */
  function DeleteTokensForUserByType(t: Table, email: Option<string>, tokenType: string): (r: (Table, nat))
    ensures forall j :: j in r.0 <==> j in t && !(EmailIs(t[j], email) && t[j].tokenType == tokenType)
    ensures RowsKept(t, r.0)
    ensures r.1 == |t| - |r.0|
  {
    DeleteWhere(t, (row: BlacklistedToken) => EmailIs(row, email) && row.tokenType == tokenType)
  }

  /** `saveAll` of rows already in the table: each is replaced by its new version. */
  function SaveAll(t: Table, rows: Table): (r: Table)
    requires rows.Keys <= t.Keys
    ensures r.Keys == t.Keys
    ensures forall j :: j in t ==> r[j] == if j in rows then rows[j] else t[j]
  {
    t + rows
  }

  /** A second sweep at the same instant finds nothing left to delete. */
  lemma SweepIdempotent(t: Table, now: int)
    ensures var once := DeleteExpiredTokens(t, now).0;
            DeleteExpiredTokens(once, now).1 == 0 && DeleteExpiredTokens(once, now).0 == once
  {
    var once := DeleteExpiredTokens(t, now).0;
    var twice := DeleteExpiredTokens(once, now);
    assert twice.0.Keys == once.Keys;
  }

  /** A row expiring exactly at `now` is neither reported valid nor swept. */
  lemma BoundaryRowNeitherValidNorSwept(t: Table, j: string, now: int)
    requires j in t && t[j].expiryDate == now
    ensures j !in FindValidBlacklistedTokensForUser(t, Some(t[j].userEmail), now)
    ensures j in DeleteExpiredTokens(t, now).0
    ensures !IsExpired(t[j], now)
  {
  }
}

=== FILE: buckets.dfy ===
/**
 * The per-key token buckets the controllers and the rate-limit filter keep in a
 * map (`computeIfAbsent(key, new bucket of capacity n)` then `tryConsume(1)`).
 * A bucket is modelled by the number of tokens taken from it; refill is not
 * modelled, so a bucket of capacity `n` grants its first `n` requests.
 */
module Buckets {

  type Buckets = map<string, nat>

  /** Tokens already taken from the bucket of `key`; an absent bucket is a new, full one. */
  function Taken(m: Buckets, key: string): nat {
    if key in m then m[key] else 0
  }

  /** `computeIfAbsent(key, ...).tryConsume(1)` */
  function TryConsume(m: Buckets, key: string, capacity: nat): (r: (Buckets, bool))
    ensures r.1 <==> Taken(m, key) < capacity
    ensures Taken(r.0, key) == if r.1 then Taken(m, key) + 1 else Taken(m, key)
    ensures r.0.Keys == m.Keys + {key}
    ensures forall k :: k != key ==> Taken(r.0, k) == Taken(m, k)
  {
    if Taken(m, key) < capacity then (m[key := Taken(m, key) + 1], true)
    else (m[key := Taken(m, key)], false)
  }

  /**
   * The outcomes of a series of `n` requests on one key: the i-th is granted
   * exactly while the tokens taken before the series plus `i` stay under the
   * capacity, and the bucket ends full or `n` tokens further on.
   */
  function Run(m: Buckets, key: string, capacity: nat, n: nat): (r: (Buckets, seq<bool>))
    ensures |r.1| == n
    ensures forall i :: 0 <= i < n ==> r.1[i] == (Taken(m, key) + i < capacity)
    ensures Taken(r.0, key) == if Taken(m, key) >= capacity then Taken(m, key)
                               else if Taken(m, key) + n <= capacity then Taken(m, key) + n
                               else capacity
    decreases n
  {
    if n == 0 then (m, [])
    else
      var (m1, ok) := TryConsume(m, key, capacity);
      var (m2, oks) := Run(m1, key, capacity, n - 1);
      (m2, [ok] + oks)
  }

  function Granted(oks: seq<bool>): nat {
    if |oks| == 0 then 0 else (if oks[0] then 1 else 0) + Granted(oks[1..])
  }

  /**
   * A burst of `n` requests on one key: the grants counted over the burst are
   * exactly the tokens taken, so a key is never granted more than its capacity.
   */
  lemma {:induction false} BurstBounded(m: Buckets, key: string, capacity: nat, n: nat)
    requires Taken(m, key) <= capacity
    ensures var (m', oks) := Run(m, key, capacity, n);
            Taken(m', key) == Taken(m, key) + Granted(oks) <= capacity
    decreases n
  {
    if n > 0 {
      var (m1, ok) := TryConsume(m, key, capacity);
      BurstBounded(m1, key, capacity, n - 1);
    }
  }

  /** Requests on one key never use up another key's bucket. */
  lemma {:induction false} KeysIndependent(m: Buckets, key: string, other: string, capacity: nat, n: nat)
    requires other != key
    ensures Taken(Run(m, key, capacity, n).0, other) == Taken(m, other)
    decreases n
  {
    if n > 0 {
      var (m1, ok) := TryConsume(m, key, capacity);
      KeysIndependent(m1, key, other, capacity, n - 1);
    }
  }
}

=== FILE: exception_handler.dfy ===
/**
 * `GlobalExceptionHandler`: the 400 for failed bean validation, with the
 * messages grouped per field, and the 429 for a rate-limit exception.
 */
module GlobalExceptionHandler {
  import opened Http
  import opened JavaStrings

  /** A field error: the field's name and its default message. */
  datatype FieldError = FieldError(field: string, message: string)

  datatype ValidationReply = ValidationReply(status: int, errors: map<string, seq<string>>)

  /**
   * The messages of `field`, in the order the errors come: empty exactly when no
   * error names the field, and each one the message of an error of that field.
   */
  function MessagesOf(errors: seq<FieldError>, field: string): (ms: seq<string>)
    ensures ms == [] <==> forall i :: 0 <= i < |errors| ==> errors[i].field != field
    ensures forall k :: 0 <= k < |ms| ==> exists i :: 0 <= i < |errors| && errors[i] == FieldError(field, ms[k])
    decreases |errors|
  {
    if |errors| == 0 then []
    else
      var init := errors[..|errors| - 1];
      var last := errors[|errors| - 1];
      var ms := MessagesOf(init, field) + (if last.field == field then [last.message] else []);
      assert forall i :: 0 <= i < |init| ==> init[i] == errors[i];
      ms
  }

  /** The total number of messages listed under `fields`. */
  function TotalUnder(grouped: map<string, seq<string>>, fields: seq<string>): nat
    requires forall i :: 0 <= i < |fields| ==> fields[i] in grouped
    decreases |fields|
  {
    if |fields| == 0 then 0
    else TotalUnder(grouped, fields[..|fields| - 1]) + |grouped[fields[|fields| - 1]]|
  }

  lemma {:induction false} TotalUnderOtherEntry(grouped: map<string, seq<string>>, fields: seq<string>, f: string, ms: seq<string>)
    requires forall i :: 0 <= i < |fields| ==> fields[i] in grouped && fields[i] != f
    ensures TotalUnder(grouped[f := ms], fields) == TotalUnder(grouped, fields)
    decreases |fields|
  {
    if |fields| > 0 {
      TotalUnderOtherEntry(grouped, fields[..|fields| - 1], f, ms);
    }
  }

  lemma {:induction false} TotalUnderLongerEntry(grouped: map<string, seq<string>>, fields: seq<string>, f: string, m: string)
    requires forall i :: 0 <= i < |fields| ==> fields[i] in grouped
    requires forall i, j :: 0 <= i < j < |fields| ==> fields[i] != fields[j]
    requires f in grouped && exists i :: 0 <= i < |fields| && fields[i] == f
    ensures TotalUnder(grouped[f := grouped[f] + [m]], fields) == TotalUnder(grouped, fields) + 1
    decreases |fields|
  {
    var n := |fields| - 1;
    if fields[n] == f {
      TotalUnderOtherEntry(grouped, fields[..n], f, grouped[f] + [m]);
    } else {
      TotalUnderLongerEntry(grouped, fields[..n], f, m);
    }
  }

  /** The keys are exactly the fields some error of `prefix` names. */
  ghost predicate KeysAreErrorFields(prefix: seq<FieldError>, grouped: map<string, seq<string>>) {
    forall f :: f in grouped <==> exists i :: 0 <= i < |prefix| && prefix[i].field == f
  }

  /** Each key maps to its field's messages in order, never to an empty list. */
  ghost predicate MessagesInOrder(prefix: seq<FieldError>, grouped: map<string, seq<string>>) {
    forall f :: f in grouped ==> grouped[f] == MessagesOf(prefix, f) && grouped[f] != []
  }

  ghost predicate Distinct(fields: seq<string>) {
    forall i, j :: 0 <= i < j < |fields| ==> fields[i] != fields[j]
  }

  ghost predicate ListsKeys(grouped: map<string, seq<string>>, fields: seq<string>) {
    forall f :: f in grouped <==> f in fields
  }

  /** `grouped` and `fields` are the grouping of `prefix`. */
  ghost predicate GroupingOf(prefix: seq<FieldError>, grouped: map<string, seq<string>>, fields: seq<string>) {
    && KeysAreErrorFields(prefix, grouped)
    && MessagesInOrder(prefix, grouped)
    && Distinct(fields)
    && ListsKeys(grouped, fields)
    && TotalUnder(grouped, fields) == |prefix|
  }

  /** One step of the loop: the `compute` call for the next error. */
  function Add(grouped: map<string, seq<string>>, e: FieldError): map<string, seq<string>> {
    if e.field in grouped then grouped[e.field := grouped[e.field] + [e.message]]
    else grouped[e.field := [e.message]]
  }

  lemma MessagesStep(prefix: seq<FieldError>, e: FieldError, f: string)
    ensures MessagesOf(prefix + [e], f) == MessagesOf(prefix, f) + (if e.field == f then [e.message] else [])
  {
    assert (prefix + [e])[..|prefix|] == prefix;
  }

  lemma StepKeys(prefix: seq<FieldError>, e: FieldError, grouped: map<string, seq<string>>)
    requires KeysAreErrorFields(prefix, grouped)
    ensures KeysAreErrorFields(prefix + [e], Add(grouped, e))
  {
    var next := prefix + [e];
    forall f ensures f in Add(grouped, e) <==> exists i :: 0 <= i < |next| && next[i].field == f {
      if f in grouped {
        var i :| 0 <= i < |prefix| && prefix[i].field == f;
        assert next[i].field == f;
      }
      if f == e.field {
        assert next[|prefix|].field == f;
      }
      if exists i :: 0 <= i < |next| && next[i].field == f {
        var i :| 0 <= i < |next| && next[i].field == f;
        if i < |prefix| { assert prefix[i].field == f; }
      }
    }
  }

  lemma StepMessage(prefix: seq<FieldError>, e: FieldError, grouped: map<string, seq<string>>, f: string)
    requires f in grouped <==> exists i :: 0 <= i < |prefix| && prefix[i].field == f
    requires f in grouped ==> grouped[f] == MessagesOf(prefix, f) && grouped[f] != []
    requires f in Add(grouped, e)
    ensures Add(grouped, e)[f] == MessagesOf(prefix + [e], f) && Add(grouped, e)[f] != []
  {
    MessagesStep(prefix, e, f);
  }

  lemma StepMessages(prefix: seq<FieldError>, e: FieldError, grouped: map<string, seq<string>>)
    requires KeysAreErrorFields(prefix, grouped)
    requires MessagesInOrder(prefix, grouped)
    ensures MessagesInOrder(prefix + [e], Add(grouped, e))
  {
    forall f | f in Add(grouped, e)
      ensures Add(grouped, e)[f] == MessagesOf(prefix + [e], f) && Add(grouped, e)[f] != []
    {
      StepMessage(prefix, e, grouped, f);
    }
  }

  lemma StepFields(grouped: map<string, seq<string>>, fields: seq<string>, e: FieldError)
    requires Distinct(fields)
    requires ListsKeys(grouped, fields)
    ensures var fields' := if e.field in grouped then fields else fields + [e.field];
            && Distinct(fields')
            && ListsKeys(Add(grouped, e), fields')
            && TotalUnder(Add(grouped, e), fields') == TotalUnder(grouped, fields) + 1
  {
    if e.field in grouped {
      TotalUnderLongerEntry(grouped, fields, e.field, e.message);
    } else {
      var fields' := fields + [e.field];
      TotalUnderOtherEntry(grouped, fields, e.field, [e.message]);
      assert fields'[..|fields|] == fields;
    }
  }

  lemma GroupingStep(prefix: seq<FieldError>, e: FieldError, grouped: map<string, seq<string>>, fields: seq<string>)
    requires GroupingOf(prefix, grouped, fields)
    ensures GroupingOf(prefix + [e], Add(grouped, e), if e.field in grouped then fields else fields + [e.field])
  {
    StepKeys(prefix, e, grouped);
    StepMessages(prefix, e, grouped);
    StepFields(grouped, fields, e);
  }

  /** The step of the loop at index `k`, stated over the prefixes of `errors`. */
  lemma GroupingStepAt(errors: seq<FieldError>, k: int, grouped: map<string, seq<string>>, fields: seq<string>)
    requires 0 <= k < |errors|
    requires GroupingOf(errors[..k], grouped, fields)
    ensures GroupingOf(errors[..k + 1], Add(grouped, errors[k]),
                       if errors[k].field in grouped then fields else fields + [errors[k].field])
  {
    assert errors[..k + 1] == errors[..k] + [errors[k]];
    GroupingStep(errors[..k], errors[k], grouped, fields);
  }

  /**
   * The grouping loop of `handleValidationExceptions`: each field maps to its
   * messages in order, only fields that have an error appear, and no message
   * is lost or invented. `fields` lists the keys in order of first appearance.
   */
  method GroupErrors(errors: seq<FieldError>) returns (grouped: map<string, seq<string>>, ghost fields: seq<string>)
    ensures forall f :: f in grouped <==> exists i :: 0 <= i < |errors| && errors[i].field == f
    ensures forall f :: f in grouped ==> grouped[f] == MessagesOf(errors, f) && grouped[f] != []
    ensures forall f :: f in grouped <==> f in fields
    ensures TotalUnder(grouped, fields) == |errors|
  {
    grouped := map[];
    fields := [];
    var k := 0;
    while k < |errors|
      invariant 0 <= k <= |errors|
      invariant GroupingOf(errors[..k], grouped, fields)
    {
      var e := errors[k];
      GroupingStepAt(errors, k, grouped, fields);
      if e.field !in grouped {
        fields := fields + [e.field];
      }
      grouped := Add(grouped, e);
      k := k + 1;
    }
    assert errors[..k] == errors;
  }

  /** `handleValidationExceptions`: a 400 carrying the grouped messages. */
  method HandleValidationExceptions(errors: seq<FieldError>) returns (reply: ValidationReply)
    ensures reply.status == StatusBadRequest
    ensures forall f :: f in reply.errors <==> exists i :: 0 <= i < |errors| && errors[i].field == f
    ensures forall f :: f in reply.errors ==> reply.errors[f] == MessagesOf(errors, f)
  {
    var grouped, _ := GroupErrors(errors);
    reply := ValidationReply(StatusBadRequest, grouped);
  }

  /**
   * `handleRateLimitExceeded`: a 429 with `Retry-After` set to the exception's
   * seconds and the request description, every "uri=" removed, as instance.
   */
  function HandleRateLimitExceeded(message: string, retryAfterSeconds: int, description: string, now: int): (reply: RateLimitReply)
    ensures reply.status == StatusTooManyRequests && reply.body.status == StatusTooManyRequests
    ensures reply.retryAfterHeader == LongToString(retryAfterSeconds) && reply.body.retryAfter == retryAfterSeconds
    ensures reply.body.detail == message && reply.resetHeader == now + retryAfterSeconds * 1000
    ensures |reply.body.instance| <= |description|
    ensures (forall i :: !OccursAt(description, "uri=", i)) ==> reply.body.instance == description
  {
    RateLimitExceeded(message, retryAfterSeconds, RemoveAll(description, "uri="), now)
  }

  /** A servlet request's description is "uri=" and the path; the instance is the path again. */
  lemma InstanceIsRequestPath(message: string, retryAfterSeconds: int, path: string, now: int)
    requires forall i :: !OccursAt(path, "uri=", i)
    ensures HandleRateLimitExceeded(message, retryAfterSeconds, "uri=" + path, now).body.instance == path
  {
    var d := "uri=" + path;
    assert d[..4] == "uri=" && d[4..] == path;
  }
}

=== FILE: flows.dfy ===
/**
 * Scenarios that cross endpoints: a login from the mailed code to the issued
 * tokens, and what logout does and does not take away afterwards.
 */
module Flows {
  import opened Wrappers
  import opened Http
  import opened ClientIp
  import opened JavaStrings
  import opened Server
  import opened AuthController
  import Users
  import Otp = OtpService
  import Jwt = JwtTokenService
  import Tbs = TokenBlacklistService
  import Us = UserService
  import Lc = LogoutController
  import Jf = JwtAuthFilter

  /** The request a client sends with `token` in its Authorization header. */
  function WithBearer(req: Request, token: string): Request {
    req.(headers := req.headers.(authorization := Some(BearerPrefix + token)))
  }

  lemma BearerIsRead(req: Request, token: string)
    ensures Lc.BearerToken(WithBearer(req, token).headers.authorization) == Some(token)
    ensures Jf.GetJwtFromRequest(WithBearer(req, token).headers.authorization) == Some(token)
  {
    var h := BearerPrefix + token;
    assert h[..|BearerPrefix|] == BearerPrefix;
    assert h[0] == 'B' && !IsJavaWhitespace(h[0]);
  }

  /** An account that is locked at a later instant was locked already, and a successful login never locks. */
  lemma StaysUnlocked(db: Us.UserDb, user: Users.User, ip: string, ua: string, now: int, later: int)
    requires now <= later
    requires !AccountLocked(db, user, now)
    ensures !AccountLocked(Us.RecordLoginHistory(db, user, ip, Some(ua), true, None, later).value, user, later)
  {
    Us.LockOnlyLiftsOverTime(db, user, AccountMaxFailures, LockWindowMinutes, now, later);
    Us.SuccessDoesNotLock(db, user, ip, ua, user, ip, AccountMaxFailures, LockWindowMinutes, later, later);
  }

  /**
   * The login: when request-otp passes its checks for an active account, the
   * code it mails is accepted by verify-otp before the deadline, which issues
   * tokens for that email; the same code presented again is a 401.
   */
  lemma {:induction false} LoginWithMailedCode(env: Env, st: State, email: string, req: Request, draws: seq<Otp.Digit>,
                                               now: int, ttlAt: int, later: int, accessJti: string, refreshJti: string,
                                               accessJti2: string, refreshJti2: string)
    requires SplitsToSomething(req.headers.xForwardedFor) && req.headers.userAgent.Some?
    requires |draws| == env.otpCfg.otpLength
    requires Otp.AcceptsOwnHash(env.encoder)
    requires MayIssueOtp(env, st, email, ForRequest(req), now)
    requires Users.FindByEmail(st.db.users, email).value.isActive
    requires now <= later <= now + env.otpCfg.expirationMinutes * Otp.MillisPerMinute
    ensures var (st1, reply1, code) := RequestOtp(env, st, email, req, draws, now, ttlAt);
            && reply1.status == StatusOk && code.Some?
            && var (st2, reply2) := VerifyOtp(env, st1, email, code.value, req, later, accessJti, refreshJti);
            && reply2 == Reply(StatusOk, IssuedTokens(env, email, accessJti, refreshJti, later))
            && VerifyOtp(env, st2, email, code.value, req, later, accessJti2, refreshJti2).1
               == Reply(StatusUnauthorized, Message(InvalidOtp))
  {
    var user := Users.FindByEmail(st.db.users, email).value;
    var (st1, reply1, code) := RequestOtp(env, st, email, req, draws, now, ttlAt);
    assert st1.db == st.db;
    Us.LockOnlyLiftsOverTime(st.db, user, AccountMaxFailures, LockWindowMinutes, now, later);
    var (otp2, ok) := Otp.VerifyOtp(env.otpCfg, env.encoder, st1.otp, email, code.value, later);
    assert ok;
    var (st2, reply2) := VerifyOtp(env, st1, email, code.value, req, later, accessJti, refreshJti);
    assert st2.db.users == st.db.users;
    assert st2.db == Us.RecordLoginHistory(st.db, user, ForRequest(req), req.headers.userAgent, true, None, later).value;
    StaysUnlocked(st.db, user, ForRequest(req), req.headers.userAgent.value, now, later);
    assert Otp.EntryOf(st2.otp, email) == Otp.Entry(None, None, None);
  }

  /**
   * request-otp never looks at `isActive`: a deactivated account is mailed a
   * code, and verify-otp answers 403 to that code without consuming it.
   */
  lemma DeactivatedAccountIsMailedUnusableCode(env: Env, st: State, email: string, req: Request, draws: seq<Otp.Digit>,
                                               now: int, ttlAt: int, later: int, accessJti: string, refreshJti: string)
    requires SplitsToSomething(req.headers.xForwardedFor) && req.headers.userAgent.Some?
    requires |draws| == env.otpCfg.otpLength
    requires MayIssueOtp(env, st, email, ForRequest(req), now)
    requires !Users.FindByEmail(st.db.users, email).value.isActive
    ensures var (st1, reply1, code) := RequestOtp(env, st, email, req, draws, now, ttlAt);
            && reply1.status == StatusOk && code.Some?
            && var (st2, reply2) := VerifyOtp(env, st1, email, code.value, req, later, accessJti, refreshJti);
            && reply2 == Reply(StatusForbidden, Message(AccountDeactivated))
            && st2.otp == st1.otp
  {
  }

  /** A wrong code for an active, unlocked account adds one to the failures that lead to the account lock. */
  lemma {:induction false} WrongCodeCountsTowardLock(env: Env, st: State, email: string, wrong: string, req: Request,
                                                     now: int, accessJti: string, refreshJti: string)
    requires SplitsToSomething(req.headers.xForwardedFor) && req.headers.userAgent.Some?
    requires Users.FindByEmail(st.db.users, email).Some?
    requires var user := Users.FindByEmail(st.db.users, email).value;
             user.isActive && !AccountLocked(st.db, user, now)
    requires !Otp.VerifyOtp(env.otpCfg, env.encoder, st.otp, email, wrong, now).1
    ensures var user := Users.FindByEmail(st.db.users, email).value;
            var (st1, reply) := VerifyOtp(env, st, email, wrong, req, now, accessJti, refreshJti);
            && reply == Reply(StatusUnauthorized, Message(InvalidOtp))
            && Us.CountFailedAttemptsInLastMinutes(st1.db, user, LockWindowMinutes, now)
               == Us.CountFailedAttemptsInLastMinutes(st.db, user, LockWindowMinutes, now) + 1
  {
    var user := Users.FindByEmail(st.db.users, email).value;
    var (st1, reply) := VerifyOtp(env, st, email, wrong, req, now, accessJti, refreshJti);
    assert st1.db == Us.RecordLoginHistory(st.db, user, ForRequest(req), req.headers.userAgent, false, Some("Invalid OTP"), now).value;
    Us.FailureCounts(st.db, user, ForRequest(req), req.headers.userAgent.value, "Invalid OTP", LockWindowMinutes, now);
  }

  /** Logout with a fresh access token succeeds, and the filter then refuses that token for the rest of its life. */
  lemma {:induction false} LogoutRevokesAccessToken(env: Env, st: State, email: string, req: Request, issued: int,
                                                    now: int, later: int, accessJti: string, logoutJti: string,
                                                    filterJti: string)
    requires SplitsToSomething(req.headers.xForwardedFor)
    requires Jwt.Sound(env.key)
    requires issued <= now <= later <= issued + env.jwtCfg.accessTokenExpirationMinutes * Jwt.MillisPerMinute
    requires accessJti !in st.blacklist
    ensures var access := Jwt.GenerateAccessToken(env.key, env.jwtCfg, Some(email), accessJti, issued);
            var (st1, reply) := Lc.Logout(env, st, WithBearer(req, access), now, logoutJti);
            && reply.status == StatusOk
            && Jf.DoFilterInternal(env, st1, WithBearer(req, access), false, later, filterJti).1 == Jf.Rejected
  {
    var access := Jwt.GenerateAccessToken(env.key, env.jwtCfg, Some(email), accessJti, issued);
    var req1 := WithBearer(req, access);
    BearerIsRead(req, access);
    Tbs.RevokeThenBlacklisted(env.key, env.jwtCfg, st.blacklist, email, accessJti, Some("User logout"),
                              Some(ForRequest(req1)), req1.headers.userAgent, issued, now, later, logoutJti);
    var revoked := Tbs.BlacklistToken(env.key, st.blacklist, access, Some("User logout"), Some(ForRequest(req1)),
                                      req1.headers.userAgent, now, logoutJti);
    var st1 := Lc.Logout(env, st, req1, now, logoutJti).0;
    assert revoked.value[accessJti].tokenType == Jwt.AccessType;
    assert accessJti in st1.blacklist && st1.blacklist[accessJti] == revoked.value[accessJti];
    assert Jf.CarriesAccessToken(env, req1, later);
  }

  /** The refresh endpoint answers after a logout exactly as before it: it reads neither the revocation table nor the codes. */
  lemma RefreshUnaffectedByLogout(env: Env, st: State, req: Request, refresh: Option<string>, now: int, later: int,
                                  logoutJti: string, newJti: string)
    requires SplitsToSomething(req.headers.xForwardedFor)
    ensures RefreshToken(env, Lc.Logout(env, st, req, now, logoutJti).0, refresh, newJti, later)
            == RefreshToken(env, st, refresh, newJti, later)
  {
  }

  /** An issued refresh token of an active account obtains a new access token for that account. */
  lemma IssuedRefreshTokenRefreshes(env: Env, st: State, email: string, issued: int, later: int, refreshJti: string,
                                    newJti: string)
    requires Jwt.Sound(env.key)
    requires issued <= later <= issued + env.jwtCfg.refreshTokenExpirationDays * Jwt.MillisPerDay
    requires Users.FindByEmail(st.db.users, email).Some? && Users.FindByEmail(st.db.users, email).value.isActive
    requires Trim(Jwt.GenerateRefreshToken(env.key, env.jwtCfg, Some(email), refreshJti, issued)) != ""
    ensures var refresh := Jwt.GenerateRefreshToken(env.key, env.jwtCfg, Some(email), refreshJti, issued);
            RefreshToken(env, st, Some(refresh), newJti, later)
            == Reply(StatusOk, AccessTokenOnly(Jwt.GenerateAccessToken(env.key, env.jwtCfg, Some(email), newJti, later),
                                               TokenType, Jwt.GetAccessTokenExpirationInSeconds(env.jwtCfg)))
  {
    var refresh := Jwt.GenerateRefreshToken(env.key, env.jwtCfg, Some(email), refreshJti, issued);
    Jwt.RefreshTokenRoundTrip(env.key, env.jwtCfg, email, refreshJti, issued, later);
  }

  /**
   * Logout with the access token of a session: the filter then refuses that
   * access token, but the session's refresh token still obtains new access
   * tokens for the account.
   */
  lemma {:induction false} LogoutLeavesRefreshUsable(env: Env, st: State, email: string, req: Request, issued: int,
                                                     now: int, later: int, accessJti: string, refreshJti: string,
                                                     logoutJti: string, filterJti: string, newJti: string)
    requires SplitsToSomething(req.headers.xForwardedFor)
    requires Jwt.Sound(env.key)
    requires issued <= now <= later <= issued + env.jwtCfg.accessTokenExpirationMinutes * Jwt.MillisPerMinute
    requires env.jwtCfg.accessTokenExpirationMinutes * Jwt.MillisPerMinute <= env.jwtCfg.refreshTokenExpirationDays * Jwt.MillisPerDay
    requires accessJti !in st.blacklist
    requires Users.FindByEmail(st.db.users, email).Some? && Users.FindByEmail(st.db.users, email).value.isActive
    requires Trim(Jwt.GenerateRefreshToken(env.key, env.jwtCfg, Some(email), refreshJti, issued)) != ""
    ensures var access := Jwt.GenerateAccessToken(env.key, env.jwtCfg, Some(email), accessJti, issued);
            var refresh := Jwt.GenerateRefreshToken(env.key, env.jwtCfg, Some(email), refreshJti, issued);
            var (st1, reply) := Lc.Logout(env, st, WithBearer(req, access), now, logoutJti);
            && reply.status == StatusOk
            && Jf.DoFilterInternal(env, st1, WithBearer(req, access), false, later, filterJti).1 == Jf.Rejected
            && RefreshToken(env, st1, Some(refresh), newJti, later).status == StatusOk
  {
    var access := Jwt.GenerateAccessToken(env.key, env.jwtCfg, Some(email), accessJti, issued);
    var refresh := Jwt.GenerateRefreshToken(env.key, env.jwtCfg, Some(email), refreshJti, issued);
    LogoutRevokesAccessToken(env, st, email, req, issued, now, later, accessJti, logoutJti, filterJti);
    RefreshUnaffectedByLogout(env, st, WithBearer(req, access), Some(refresh), now, later, logoutJti, newJti);
    IssuedRefreshTokenRefreshes(env, st, email, issued, later, refreshJti, newJti);
  }

  /**
   * Logout from all devices revokes only the presented token: another access
   * token of the same account, never revoked, still authenticates that account.
   */
  lemma {:induction false} LogoutAllLeavesOtherSessions(env: Env, st: State, email: string, req: Request, issued: int,
                                                        now: int, later: int, jti: string, otherJti: string,
                                                        logoutJti: string, filterJti: string)
    requires SplitsToSomething(req.headers.xForwardedFor)
    requires Jwt.Sound(env.key)
    requires issued <= now <= later <= issued + env.jwtCfg.accessTokenExpirationMinutes * Jwt.MillisPerMinute
    requires jti != otherJti && otherJti !in st.blacklist
    requires Us.LoadUserByUsername(st.db, email).Success?
    ensures var token := Jwt.GenerateAccessToken(env.key, env.jwtCfg, Some(email), jti, issued);
            var other := Jwt.GenerateAccessToken(env.key, env.jwtCfg, Some(email), otherJti, issued);
            var (st1, reply) := Lc.LogoutAllDevices(env, st, WithBearer(req, token), now, logoutJti);
            && reply.status == StatusOk
            && var d := Jf.DoFilterInternal(env, st1, WithBearer(req, other), false, later, filterJti).1;
            && d.Continue? && d.principal.Some? && d.principal.value.email == email
  {
    var token := Jwt.GenerateAccessToken(env.key, env.jwtCfg, Some(email), jti, issued);
    var other := Jwt.GenerateAccessToken(env.key, env.jwtCfg, Some(email), otherJti, issued);
    var req1 := WithBearer(req, token);
    var req2 := WithBearer(req, other);
    BearerIsRead(req, token);
    BearerIsRead(req, other);
    Tbs.RevokeThenBlacklisted(env.key, env.jwtCfg, st.blacklist, email, jti, Some("Logout all devices"),
                              Some(ForRequest(req1)), req1.headers.userAgent, issued, now, now, logoutJti);
    var revoked := Tbs.BlacklistToken(env.key, st.blacklist, token, Some("Logout all devices"), Some(ForRequest(req1)),
                                      req1.headers.userAgent, now, logoutJti);
    var (st1, reply) := Lc.LogoutAllDevices(env, st, req1, now, logoutJti);
    assert otherJti !in revoked.value;
    assert otherJti !in st1.blacklist;
    Tbs.UnrevokedNotBlacklisted(env.key, env.jwtCfg, st1.blacklist, email, otherJti, issued, later, filterJti);
    Jwt.AccessTokenRoundTrip(env.key, env.jwtCfg, email, otherJti, issued, later);
    assert Jf.CarriesAccessToken(env, req2, later);
  }

  /** After an admin force-logout of an account, its unrevoked access token still authenticates it. */
  lemma {:induction false} ForceLogoutLeavesSessions(env: Env, st: State, email: string, ipAddress: Option<string>,
                                                     req: Request, issued: int, now: int, later: int, jti: string,
                                                     filterJti: string)
    requires Jwt.Sound(env.key)
    requires Trim(email) != ""
    requires issued <= now <= later <= issued + env.jwtCfg.accessTokenExpirationMinutes * Jwt.MillisPerMinute
    requires jti !in st.blacklist
    requires Us.LoadUserByUsername(st.db, email).Success?
    ensures var token := Jwt.GenerateAccessToken(env.key, env.jwtCfg, Some(email), jti, issued);
            var (st1, reply) := Lc.ForceLogout(st, Some(email), ipAddress, now);
            && reply.status == StatusOk
            && var d := Jf.DoFilterInternal(env, st1, WithBearer(req, token), false, later, filterJti).1;
            && d.Continue? && d.principal.Some? && d.principal.value.email == email
  {
    var token := Jwt.GenerateAccessToken(env.key, env.jwtCfg, Some(email), jti, issued);
    var req1 := WithBearer(req, token);
    BearerIsRead(req, token);
    var (st1, reply) := Lc.ForceLogout(st, Some(email), ipAddress, now);
    assert jti !in st1.blacklist;
    Tbs.UnrevokedNotBlacklisted(env.key, env.jwtCfg, st1.blacklist, email, jti, issued, later, filterJti);
    Jwt.AccessTokenRoundTrip(env.key, env.jwtCfg, email, jti, issued, later);
    assert Jf.CarriesAccessToken(env, req1, later);
  }

  /** A refresh token presented as a Bearer credential never authenticates anyone and changes nothing. */
  lemma RefreshTokenNeverAuthenticates(env: Env, st: State, email: string, req: Request, issued: int, now: int,
                                       refreshJti: string, filterJti: string, alreadyAuthenticated: bool)
    requires Jwt.Sound(env.key)
    requires issued <= now <= issued + env.jwtCfg.refreshTokenExpirationDays * Jwt.MillisPerDay
    ensures var refresh := Jwt.GenerateRefreshToken(env.key, env.jwtCfg, Some(email), refreshJti, issued);
            Jf.DoFilterInternal(env, st, WithBearer(req, refresh), alreadyAuthenticated, now, filterJti) == (st, Jf.Continue(None))
  {
    var refresh := Jwt.GenerateRefreshToken(env.key, env.jwtCfg, Some(email), refreshJti, issued);
    BearerIsRead(req, refresh);
    assert !Jwt.IsAccessToken(env.key, refresh, now);
  }
}

=== FILE: http.dfy ===
/** The request and reply shapes the controllers and filters exchange with the servlet container. */
module Http {
  import opened Wrappers
  import opened JavaStrings

  /** The request headers the core reads; an absent header is `None`. */
  datatype Headers = Headers(
    authorization: Option<string>,
    userAgent: Option<string>,
    xForwardedFor: Option<string>,
    xRealIp: Option<string>)

  datatype Request = Request(httpMethod: string, uri: string, headers: Headers, remoteAddr: string)

  const StatusOk := 200
  const StatusCreated := 201
  const StatusBadRequest := 400
  const StatusUnauthorized := 401
  const StatusForbidden := 403
  const StatusConflict := 409
  const StatusTooManyRequests := 429
  const StatusInternalServerError := 500

  /** The JSON bodies the controllers answer with. */
  datatype Body =
    | Message(message: string)
    | OtpSent(message: string, email: string, expiresIn: int)
    | TokenPair(accessToken: string, refreshToken: string, tokenType: string, expiresIn: int, email: string)
    | AccessTokenOnly(accessToken: string, tokenType: string, expiresIn: int)
    | Registered(message: string, email: string, name: string, userId: int)
    | Stamped(message: string, timestamp: int)

  datatype Reply = Reply(status: int, body: Body)

  /** The `Authorization` scheme prefix of section 2.1 of RFC 6750. */
  const BearerPrefix := "Bearer "

  /** The problem document of a 429 (`RateLimitExceededResponse`); its timestamp is left out. */
  datatype Problem = Problem(problemType: string, title: string, status: int, detail: string, instance: string, retryAfter: int)

  /** A 429 with its rate-limit headers. */
  datatype RateLimitReply = RateLimitReply(
    status: int,
    retryAfterHeader: string,
    limitHeader: string,
    remainingHeader: string,
    resetHeader: int,
    body: Problem)

  /**
   * The 429 both the rate-limit filter and the exception handler send:
   * `RateLimitExceededResponse.of(detail, retryAfterSeconds, path)` with the
   * same four headers.
   */
  function RateLimitExceeded(detail: string, retryAfterSeconds: int, path: string, now: int): RateLimitReply {
    RateLimitReply(
      StatusTooManyRequests, LongToString(retryAfterSeconds), "5", "0", now + retryAfterSeconds * 1000,
      Problem("https://example.com/problems/rate-limit-exceeded", "Too Many Requests", StatusTooManyRequests,
              detail, path, retryAfterSeconds))
  }
}

/** `getClientIpAddress`, written out identically in both controllers and the rate-limit filter. */
module ClientIp {
  import opened Wrappers
  import opened JavaStrings
  import opened Http

  /** A proxy header is used when present, non-empty and not "unknown" in any letter case. */
  predicate Usable(h: Option<string>) {
    h.Some? && h.value != "" && !EqualsIgnoreCase(h.value, "unknown")
  }

  /**
   * `split(",")` drops trailing empty strings, so a header made only of commas
   * yields an empty array and indexing it throws.
   */
  predicate SplitsToSomething(xForwardedFor: Option<string>) {
    !Usable(xForwardedFor) || exists i :: 0 <= i < |xForwardedFor.value| && xForwardedFor.value[i] != ','
  }

  /** `s[..k]` is the comma-free text before the first comma (or all of `s`). */
  predicate IsFirstField(s: string, k: int) {
    0 <= k <= |s| && (k == |s| || s[k] == ',') && forall i :: 0 <= i < k ==> s[i] != ','
  }

  /** `s.split(",")[0]` once the array is known to be non-empty. */
  function FirstSegment(s: string): (r: string)
    ensures IsFirstField(s, |r|) && r == s[..|r|]
  {
    var k := IndexOf(s, ",", 0);
    assert forall i :: 0 <= i < |s| && (k == -1 || i < k) ==> s[i] != ',' by {
      forall i | 0 <= i < |s| && (k == -1 || i < k)
        ensures s[i] != ','
      {
        assert !OccursAt(s, ",", i);
        assert s[i..i + 1] == [s[i]];
      }
    }
    if k < 0 then s else s[..k]
  }

  /**
   * The client address: the trimmed first entry of X-Forwarded-For, else
   * X-Real-IP, else the socket's remote address.
   */
  function GetClientIpAddress(xForwardedFor: Option<string>, xRealIp: Option<string>, remoteAddr: string): (ip: string)
    requires SplitsToSomething(xForwardedFor)
    ensures Usable(xForwardedFor) ==>
              exists k :: IsFirstField(xForwardedFor.value, k) && ip == Trim(xForwardedFor.value[..k])
    ensures !Usable(xForwardedFor) && Usable(xRealIp) ==> ip == xRealIp.value
    ensures !Usable(xForwardedFor) && !Usable(xRealIp) ==> ip == remoteAddr
  {
    if Usable(xForwardedFor) then
      var first := FirstSegment(xForwardedFor.value);
      Trim(first)
    else if Usable(xRealIp) then xRealIp.value
    else remoteAddr
  }

  /** `getClientIpAddress(request)` */
  function ForRequest(req: Request): string
    requires SplitsToSomething(req.headers.xForwardedFor)
  {
    GetClientIpAddress(req.headers.xForwardedFor, req.headers.xRealIp, req.remoteAddr)
  }
}

=== FILE: java_strings.dfy ===
/**
 * The `java.lang.String` and Spring `StringUtils` operations the core relies on,
 * stated over `seq<char>`.
 */
module JavaStrings {

  /** `s.startsWith(prefix)` */
  predicate StartsWith(s: string, prefix: string) {
    |prefix| <= |s| && s[..|prefix|] == prefix
  }

  /** `pattern` occurs in `s` at index `i`. */
  predicate OccursAt(s: string, pattern: string, i: int) {
    0 <= i && i + |pattern| <= |s| && s[i..i + |pattern|] == pattern
  }

  /** A one-character pattern occurs exactly where that character stands. */
  lemma OccursAtChar(s: string, c: char)
    ensures forall i :: OccursAt(s, [c], i) <==> 0 <= i < |s| && s[i] == c
  {
    forall i | 0 <= i < |s|
      ensures s[i..i + 1] == [s[i]]
    {
    }
  }

  /**
   * `s.indexOf(pattern, from)` for a non-empty pattern: the first occurrence at or
   * after `from` (a negative `from` searches from 0), or -1 when there is none.
   */
  function IndexOf(s: string, pattern: string, from: int): (r: int)
    requires pattern != ""
    ensures r == -1 || (from <= r && OccursAt(s, pattern, r))
    ensures forall i :: from <= i && (r == -1 || i < r) ==> !OccursAt(s, pattern, i)
    decreases |s| - from
  {
    if from < 0 then IndexOf(s, pattern, 0)
    else if from + |pattern| > |s| then -1
    else if OccursAt(s, pattern, from) then from
    else IndexOf(s, pattern, from + 1)
  }

  /** `s.contains(pattern)` */
  function Contains(s: string, pattern: string): (b: bool)
    requires pattern != ""
    ensures b <==> exists i :: OccursAt(s, pattern, i)
  {
    IndexOf(s, pattern, 0) >= 0
  }

  /** `String.trim()` strips every character up to and including the space. */
  predicate IsTrimmable(c: char) {
    c <= ' '
  }

  function TrimStart(s: string): (r: string)
    ensures |r| <= |s| && r == s[|s| - |r|..]
    ensures forall i :: 0 <= i < |s| - |r| ==> IsTrimmable(s[i])
    ensures r == [] || !IsTrimmable(r[0])
  {
    if |s| > 0 && IsTrimmable(s[0]) then TrimStart(s[1..]) else s
  }

  function TrimEnd(s: string): (r: string)
    ensures |r| <= |s| && r == s[..|r|]
    ensures forall i :: |r| <= i < |s| ==> IsTrimmable(s[i])
    ensures r == [] || !IsTrimmable(r[|r| - 1])
  {
    if |s| > 0 && IsTrimmable(s[|s| - 1]) then TrimEnd(s[..|s| - 1]) else s
  }

  /** `r` is `s[a..a + |r|]` and everything of `s` around it is trimmable. */
  predicate IsCoreAt(s: string, r: string, a: int) {
    && 0 <= a && a + |r| <= |s| && r == s[a..a + |r|]
    && (forall i :: 0 <= i < a ==> IsTrimmable(s[i]))
    && (forall i :: a + |r| <= i < |s| ==> IsTrimmable(s[i]))
  }

  /** `s.trim()`: the middle of `s` once trimmable characters are cut from both ends. */
  function Trim(s: string): (r: string)
    ensures r == [] || (!IsTrimmable(r[0]) && !IsTrimmable(r[|r| - 1]))
    ensures exists a :: IsCoreAt(s, r, a)
  {
    var t := TrimStart(s);
    var r := TrimEnd(t);
    var a := |s| - |t|;
    assert IsCoreAt(s, r, a);
    r
  }

  /** `s.trim().isEmpty()` */
  predicate IsBlank(s: string)
    ensures IsBlank(s) <==> forall i :: 0 <= i < |s| ==> IsTrimmable(s[i])
  {
    Trim(s) == []
  }

  /** `Character.isWhitespace` */
  predicate IsJavaWhitespace(c: char) {
    || c == ' '
    || '\t' <= c <= '\r'
    || '\U{1C}' <= c <= '\U{1F}'
    || c == '\U{1680}'
    || '\U{2000}' <= c <= '\U{2006}'
    || '\U{2008}' <= c <= '\U{200A}'
    || c == '\U{2028}' || c == '\U{2029}' || c == '\U{205F}' || c == '\U{3000}'
  }

  /** Spring's `StringUtils.hasText` on a non-null string. */
  predicate HasText(s: string) {
    exists i :: 0 <= i < |s| && !IsJavaWhitespace(s[i])
  }

  function AsciiLower(c: char): char {
    if 'A' <= c <= 'Z' then (c as int + 32) as char else c
  }

  /** `a.equalsIgnoreCase(b)`, with ASCII case folding. */
  predicate EqualsIgnoreCase(a: string, b: string) {
    |a| == |b| && forall i :: 0 <= i < |a| ==> AsciiLower(a[i]) == AsciiLower(b[i])
  }

  /**
   * `s.replace(pattern, "")`: scans left to right and deletes every
   * non-overlapping occurrence it meets.
   */
  function RemoveAll(s: string, pattern: string): (r: string)
    requires pattern != ""
    ensures |r| <= |s|
    ensures (forall i :: !OccursAt(s, pattern, i)) ==> r == s
    ensures (exists i :: OccursAt(s, pattern, i)) ==> |r| <= |s| - |pattern|
    decreases |s|
  {
    if |s| < |pattern| then s
    else if s[..|pattern|] == pattern then
      assert OccursAt(s, pattern, 0);
      RemoveAll(s[|pattern|..], pattern)
    else
      var rest := RemoveAll(s[1..], pattern);
      assert forall i :: OccursAt(s, pattern, i) && i > 0 ==> OccursAt(s[1..], pattern, i - 1);
      assert forall i :: OccursAt(s[1..], pattern, i) ==> OccursAt(s, pattern, i + 1);
      [s[0]] + rest
  }

  function DecimalDigit(d: nat): char
    requires d < 10
  {
    "0123456789"[d]
  }

  function NatToString(n: nat): (r: string)
    ensures |r| > 0
    decreases n
  {
    if n < 10 then [DecimalDigit(n)] else NatToString(n / 10) + [DecimalDigit(n % 10)]
  }

  /** `String.valueOf(long)` */
  function LongToString(n: int): string {
    if n < 0 then "-" + NatToString(-n) else NatToString(n)
  }
}

=== FILE: jwt_auth_filter.dfy ===
/**
 * `JwtAuthenticationFilter`: reads a Bearer access token, refuses a revoked
 * one with 401, and otherwise authenticates its subject when the token is
 * valid for an active account; every failure inside is swallowed and the
 * chain continues.
 */
module JwtAuthFilter {
  import opened Wrappers
  import opened Http
  import opened JavaStrings
  import opened Server
  import Users
  import Jwt = JwtTokenService
  import Tbs = TokenBlacklistService
  import Us = UserService

  /** `getJwtFromRequest`: the header minus "Bearer " when it has text and starts with that prefix. */
  function GetJwtFromRequest(authorization: Option<string>): (jwt: Option<string>)
    ensures jwt.Some? <==> authorization.Some? && HasText(authorization.value) && StartsWith(authorization.value, BearerPrefix)
    ensures jwt.Some? ==> authorization.value == BearerPrefix + jwt.value
  {
    if authorization.Some? && HasText(authorization.value) && StartsWith(authorization.value, BearerPrefix) then
      assert authorization.value == BearerPrefix + authorization.value[|BearerPrefix|..];
      Some(authorization.value[|BearerPrefix|..])
    else None
  }

  /**
   * What the filter does with the request: answer 401 without calling the
   * chain, or call the chain, having put `principal` into the security context
   * when it authenticated someone.
   */
  datatype Decision = Rejected | Continue(principal: Option<Users.User>)

  /** The request carries an access token the filter acts on. */
  predicate CarriesAccessToken(env: Env, req: Request, now: int) {
    var jwt := GetJwtFromRequest(req.headers.authorization);
    jwt.Some? && HasText(jwt.value) && Jwt.IsAccessToken(env.key, jwt.value, now)
  }

  /**
   * `doFilterInternal`. `alreadyAuthenticated` is whether the security context
   * holds an authentication when the filter runs. The only state change is the
   * deletion of an expired revocation by the blacklist check.
   */
  function DoFilterInternal(env: Env, st: State, req: Request, alreadyAuthenticated: bool, now: int, generatedJti: string)
    : (r: (State, Decision))
    ensures !CarriesAccessToken(env, req, now) ==> r == (st, Continue(None))
    ensures r.0 == st.(blacklist := r.0.blacklist)
    ensures CarriesAccessToken(env, req, now) ==>
              var jwt := GetJwtFromRequest(req.headers.authorization).value;
              r.0.blacklist == Tbs.IsTokenBlacklisted(env.key, st.blacklist, jwt, now, generatedJti).0
    ensures r.1.Rejected? <==>
              CarriesAccessToken(env, req, now)
              && Tbs.IsTokenBlacklisted(env.key, st.blacklist, GetJwtFromRequest(req.headers.authorization).value, now, generatedJti).1
    ensures r.1.Continue? && r.1.principal.Some? <==>
              && CarriesAccessToken(env, req, now)
              && var jwt := GetJwtFromRequest(req.headers.authorization).value;
              && !Tbs.IsTokenBlacklisted(env.key, st.blacklist, jwt, now, generatedJti).1
              && !alreadyAuthenticated
              && var subject := env.key.parse(jwt, now).value.subject;
              && subject.Some?
              && Us.LoadUserByUsername(st.db, subject.value).Success?
              && Jwt.ValidateToken(env.key, jwt, subject.value, now) == Success(true)
    ensures r.1.Continue? && r.1.principal.Some? ==>
              r.1.principal.value.isActive
              && Some(r.1.principal.value.email) == env.key.parse(GetJwtFromRequest(req.headers.authorization).value, now).value.subject
  {
    var jwt := GetJwtFromRequest(req.headers.authorization);
    if !(jwt.Some? && HasText(jwt.value) && Jwt.IsAccessToken(env.key, jwt.value, now)) then (st, Continue(None))
    else
      var token := jwt.value;
      var (t', blacklisted) := Tbs.IsTokenBlacklisted(env.key, st.blacklist, token, now, generatedJti);
      var st1 := st.(blacklist := t');
      if blacklisted then (st1, Rejected)
      else
        match Jwt.ExtractUsername(env.key, token, now)
        case Failure(_) => (st1, Continue(None))
        case Success(email) =>
          if email.None? || alreadyAuthenticated then (st1, Continue(None))
          else
            match Us.LoadUserByUsername(st.db, email.value)
            case Failure(_) => (st1, Continue(None))
            case Success(user) =>
              match Jwt.ValidateToken(env.key, token, user.email, now)
              case Success(true) => (st1, Continue(Some(user)))
              case _ => (st1, Continue(None))
  }
}

=== FILE: jwt_token_service.dfy ===
/**
 * `JwtTokenService`: issuing, parsing and checking signed tokens. Signing is an
 * abstract `sign` with a partial `parse`; `Sound` is what the model assumes of them.
 */
module JwtTokenService {
  import opened Wrappers
  import opened Exceptions
  import JavaStrings

  /** The claims the service reads and writes; an absent claim is `None`. */
  datatype Claims = Claims(
    subject: Option<string>,
    tokenType: Option<string>,
    jti: Option<string>,
    issuedAt: Option<int>,
    expiration: Option<int>)

  /**
   * A signing key: `sign` produces the compact token, `parse(token, now)` checks
   * the signature (and whatever else the JWT library checks at time `now`).
   */
  datatype Codec = Codec(sign: Claims -> string, parse: (string, int) -> Option<Claims>)

  /** The `exp` claim (section 4.1.4 of RFC 7519) is absent or not yet passed. */
  predicate NotExpired(c: Claims, now: int) {
    c.expiration.None? || now <= c.expiration.value
  }

  /**
   * Signing round-trips for tokens that have not expired, and parsing accepts only
   * the images of `sign` (a forged or altered token does not parse). A compact
   * token is never blank: it holds the two periods of section 7.1 of RFC 7515.
   */
  ghost predicate Sound(k: Codec) {
    && (forall c, now :: NotExpired(c, now) ==> k.parse(k.sign(c), now) == Some(c))
    && (forall t, now :: k.parse(t, now).Some? ==> k.sign(k.parse(t, now).value) == t)
    && (forall c :: JavaStrings.HasText(k.sign(c)))
  }

  datatype JwtConfig = JwtConfig(accessTokenExpirationMinutes: int, refreshTokenExpirationDays: int)

  /** `app.jwt.access-token-expiration-minutes` and `app.jwt.refresh-token-expiration-days` when unset. */
  const Defaults := JwtConfig(15, 30)

  const MillisPerMinute := 60 * 1000
  const MillisPerDay := 24 * 60 * MillisPerMinute

  const AccessType := "access"
  const RefreshType := "refresh"

  /** `createToken`: subject, type, jti, issued-at `now` and the given expiry, signed. */
  function CreateToken(k: Codec, tokenType: string, jti: string, subject: Option<string>, now: int, expiration: int)
    : string
  {
    k.sign(Claims(subject, Some(tokenType), Some(jti), Some(now), Some(expiration)))
  }

  /** `generateAccessToken` (and `generateToken`, which builds the same claims). */
  function GenerateAccessToken(k: Codec, cfg: JwtConfig, subject: Option<string>, jti: string, now: int): (token: string)
    ensures Sound(k) ==> forall t :: now <= t <= now + cfg.accessTokenExpirationMinutes * MillisPerMinute ==>
              k.parse(token, t) == Some(Claims(subject, Some(AccessType), Some(jti), Some(now),
                                               Some(now + cfg.accessTokenExpirationMinutes * MillisPerMinute)))
  {
    CreateToken(k, AccessType, jti, subject, now, now + cfg.accessTokenExpirationMinutes * MillisPerMinute)
  }

  /** `generateRefreshToken` */
  function GenerateRefreshToken(k: Codec, cfg: JwtConfig, subject: Option<string>, jti: string, now: int): (token: string)
    ensures Sound(k) ==> forall t :: now <= t <= now + cfg.refreshTokenExpirationDays * MillisPerDay ==>
              k.parse(token, t) == Some(Claims(subject, Some(RefreshType), Some(jti), Some(now),
                                               Some(now + cfg.refreshTokenExpirationDays * MillisPerDay)))
  {
    CreateToken(k, RefreshType, jti, subject, now, now + cfg.refreshTokenExpirationDays * MillisPerDay)
  }

  /** The message of the parser's own argument check on a blank token. */
  const BlankTokenMessage := "JWT String argument cannot be null or empty."

  /**
   * `extractAllClaims`: the parser first refuses a blank token with its own
   * IllegalArgumentException, which the method's `catch (JwtException)` lets
   * through unchanged; any other library failure is rewrapped as
   * IllegalArgumentException("Invalid JWT token").
   */
  function ExtractAllClaims(k: Codec, token: string, now: int): (r: Result<Claims, Thrown>)
    ensures !JavaStrings.HasText(token) ==> r == Failure(IllegalArgument(BlankTokenMessage))
    ensures JavaStrings.HasText(token) ==> (r.Failure? <==> k.parse(token, now).None?)
    ensures JavaStrings.HasText(token) && r.Failure? ==> r.error == IllegalArgument("Invalid JWT token")
    ensures r.Success? ==> k.parse(token, now) == Some(r.value)
    ensures Sound(k) && r.Success? ==> k.sign(r.value) == token
  {
    if !JavaStrings.HasText(token) then Failure(IllegalArgument(BlankTokenMessage))
    else
      match k.parse(token, now)
      case Some(c) => Success(c)
      case None => Failure(IllegalArgument("Invalid JWT token"))
  }

  /** `extractUsername`: the subject, which may be absent. */
  function ExtractUsername(k: Codec, token: string, now: int): (r: Result<Option<string>, Thrown>)
    ensures Sound(k) ==> forall c :: NotExpired(c, now) && token == k.sign(c) ==> r == Success(c.subject)
    ensures k.parse(token, now).None? ==> r.Failure?
  {
    match ExtractAllClaims(k, token, now)
    case Success(c) => Success(c.subject)
    case Failure(e) => Failure(e)
  }

  /** `isAccessToken`: never throws; false when the token does not parse. */
  function IsAccessToken(k: Codec, token: string, now: int): (b: bool)
    ensures b <==> JavaStrings.HasText(token) && k.parse(token, now).Some?
                   && k.parse(token, now).value.tokenType == Some(AccessType)
  {
    match ExtractAllClaims(k, token, now)
    case Success(c) => c.tokenType == Some(AccessType)
    case Failure(_) => false
  }

  /** `isRefreshToken`: never throws, false when the token does not parse, never true together with `isAccessToken`. */
  function IsRefreshToken(k: Codec, token: string, now: int): (b: bool)
    ensures b <==> JavaStrings.HasText(token) && k.parse(token, now).Some?
                   && k.parse(token, now).value.tokenType == Some(RefreshType)
    ensures b ==> !IsAccessToken(k, token, now)
  {
    match ExtractAllClaims(k, token, now)
    case Success(c) => c.tokenType == Some(RefreshType)
    case Failure(_) => false
  }

  /**
   * `validateToken`: the subject is the expected one and `exp` is not before
   * `now`. A parse failure is false; a missing subject or a missing expiry on
   * the compared path throws a NullPointerException the method does not catch.
   */
  function ValidateToken(k: Codec, token: string, email: string, now: int): (r: Result<bool, Thrown>)
    ensures !JavaStrings.HasText(token) || k.parse(token, now).None? ==> r == Success(false)
    ensures r == Success(true) <==>
              && JavaStrings.HasText(token)
              && k.parse(token, now).Some?
              && k.parse(token, now).value.subject == Some(email)
              && k.parse(token, now).value.expiration.Some?
              && now <= k.parse(token, now).value.expiration.value
    ensures r.Failure? ==> r.error == NullPointer
  {
    match ExtractAllClaims(k, token, now)
    case Failure(_) => Success(false)
    case Success(c) =>
      if c.subject.None? then Failure(NullPointer)
      else if c.subject.value != email then Success(false)
      else if c.expiration.None? then Failure(NullPointer)
      else Success(!(c.expiration.value < now))
  }

  /** `getAccessTokenExpirationInSeconds` */
  function GetAccessTokenExpirationInSeconds(cfg: JwtConfig): (seconds: int)
    ensures seconds * 1000 == cfg.accessTokenExpirationMinutes * MillisPerMinute
  {
    cfg.accessTokenExpirationMinutes * 60
  }

  /**
   * `refreshToken`: a token that parses and is typed "refresh" yields a new access
   * token for the same subject; anything else is an IllegalArgumentException.
   */
  function RefreshToken(k: Codec, cfg: JwtConfig, token: string, jti: string, now: int): (r: Result<string, Thrown>)
    ensures r.Failure? <==> !IsRefreshToken(k, token, now)
    ensures r.Failure? ==> r.error == IllegalArgument("Invalid refresh token")
    ensures r.Success? ==> r.value == GenerateAccessToken(k, cfg, k.parse(token, now).value.subject, jti, now)
  {
    match ExtractAllClaims(k, token, now)
    case Failure(_) => Failure(IllegalArgument("Invalid refresh token"))
    case Success(c) =>
      if !IsRefreshToken(k, token, now) then Failure(IllegalArgument("Invalid refresh token"))
      else Success(GenerateAccessToken(k, cfg, c.subject, jti, now))
  }

  // ----- properties over several calls -----

  /** An issued access token parses back to its subject and type, is valid for its owner and is not a refresh token. */
  lemma AccessTokenRoundTrip(k: Codec, cfg: JwtConfig, email: string, jti: string, now: int, later: int)
    requires Sound(k)
    requires 0 <= later - now <= cfg.accessTokenExpirationMinutes * MillisPerMinute
    ensures var token := GenerateAccessToken(k, cfg, Some(email), jti, now);
            && ExtractUsername(k, token, later) == Success(Some(email))
            && IsAccessToken(k, token, later) && !IsRefreshToken(k, token, later)
            && ValidateToken(k, token, email, later) == Success(true)
            && (forall other :: other != email ==> ValidateToken(k, token, other, later) == Success(false))
  {
  }

  /** Refreshing an issued refresh token gives an access token for the same subject. */
  lemma RefreshKeepsSubject(k: Codec, cfg: JwtConfig, email: string, jti: string, jti2: string, now: int, later: int)
    requires Sound(k)
    requires 0 <= later - now <= cfg.refreshTokenExpirationDays * MillisPerDay
    requires cfg.accessTokenExpirationMinutes >= 0
    ensures var r := RefreshToken(k, cfg, GenerateRefreshToken(k, cfg, Some(email), jti, now), jti2, later);
            && r.Success?
            && ExtractUsername(k, r.value, later) == Success(Some(email))
            && IsAccessToken(k, r.value, later)
  {
    var refresh := GenerateRefreshToken(k, cfg, Some(email), jti, now);
    assert IsRefreshToken(k, refresh, later);
  }

  /** An issued refresh token is, until it expires, a refresh token of its subject and never blank. */
  lemma RefreshTokenRoundTrip(k: Codec, cfg: JwtConfig, email: string, jti: string, now: int, later: int)
    requires Sound(k)
    requires 0 <= later - now <= cfg.refreshTokenExpirationDays * MillisPerDay
    ensures var token := GenerateRefreshToken(k, cfg, Some(email), jti, now);
            && JavaStrings.HasText(token)
            && k.parse(token, later).Some? && k.parse(token, later).value.subject == Some(email)
            && IsRefreshToken(k, token, later) && !IsAccessToken(k, token, later)
  {
    var token := GenerateRefreshToken(k, cfg, Some(email), jti, now);
    assert JavaStrings.HasText(token);
  }

  /** An access token cannot be used to refresh. */
  lemma AccessTokenDoesNotRefresh(k: Codec, cfg: JwtConfig, email: string, jti: string, jti2: string, now: int, later: int)
    requires Sound(k)
    requires 0 <= later - now <= cfg.accessTokenExpirationMinutes * MillisPerMinute
    ensures RefreshToken(k, cfg, GenerateAccessToken(k, cfg, Some(email), jti, now), jti2, later).Failure?
  {
  }
}

=== FILE: logout_controller.dfy ===
/**
 * `LogoutController`: logout, logout from all devices, refresh-token
 * invalidation and the administrator's forced logout, over the revocation table
 * and the OTP maps. `generatedJti` is the jti `blacklistToken` files a token
 * without one under.
 */
module LogoutController {
  import opened Wrappers
  import opened Http
  import opened ClientIp
  import opened JavaStrings
  import opened Buckets
  import opened BlacklistedTokens
  import opened Server
  import Otp = OtpService
  import Jwt = JwtTokenService
  import Tbs = TokenBlacklistService

  const IpBucketCapacity := 20

  const LoggedOut := "Logged out successfully"
  const LogoutFailed := "Logout failed. Please try again."
  const LoggedOutEverywhere := "Logged out from all devices successfully"
  const LogoutAllFailed := "Logout from all devices failed. Please try again."
  const RefreshTokensInvalidated := "All refresh tokens invalidated successfully"
  const TooManyRequests := "Too many requests. Please try again later."
  const EmailRequired := "Email is required"
  const ForcedOut := "User has been forcefully logged out from all devices"
  const Unknown := "unknown"

  /** `authHeader != null && authHeader.startsWith("Bearer ")`, then `substring(7)`. */
  function BearerToken(authorization: Option<string>): (token: Option<string>)
    ensures token.Some? <==> authorization.Some? && StartsWith(authorization.value, BearerPrefix)
    ensures token.Some? ==> authorization.value == BearerPrefix + token.value
  {
    if authorization.Some? && StartsWith(authorization.value, BearerPrefix) then
      assert authorization.value == BearerPrefix + authorization.value[|BearerPrefix|..];
      Some(authorization.value[|BearerPrefix|..])
    else None
  }

  /**
   * `extractEmailFromToken`: the subject (possibly `null`) read with the
   * controller's own key, or "unknown" when that key cannot be built or the
   * token does not parse with it. It never throws.
   */
  function ExtractEmailFromToken(logoutKey: Option<Jwt.Codec>, token: string, now: int): (email: Option<string>)
    ensures logoutKey.None? ==> email == Some(Unknown)
    ensures logoutKey.Some? && Jwt.Sound(logoutKey.value) ==>
              forall c :: Jwt.NotExpired(c, now) && token == logoutKey.value.sign(c) ==> email == c.subject
    ensures logoutKey.Some? && logoutKey.value.parse(token, now).None? ==> email == Some(Unknown)
  {
    if logoutKey.None? then Some(Unknown)
    else
      match logoutKey.value.parse(token, now)
      case None => Some(Unknown)
      case Some(c) => c.subject
  }

  /** Java string concatenation turns `null` into "null": the OTP key `clearOtp(null)` touches. */
  function JavaText(s: Option<string>): string {
    if s.None? then "null" else s.value
  }

  /**
   * `logout`: without a Bearer header nothing changes. With one, the token is
   * revoked (a 500 with nothing changed when that fails), then every "refresh"
   * revocation of the extracted email is deleted, then that email's code is
   * cleared.
   */
  function Logout(env: Env, st: State, req: Request, now: int, generatedJti: string): (r: (State, Reply))
    requires SplitsToSomething(req.headers.xForwardedFor)
    ensures BearerToken(req.headers.authorization).None? ==> r == (st, Reply(StatusOk, Stamped(LoggedOut, now)))
    ensures r.1.status in {StatusOk, StatusInternalServerError}
    ensures r.1.status == StatusInternalServerError ==> r == (st, Reply(StatusInternalServerError, Message(LogoutFailed)))
    ensures r.0 == st.(blacklist := r.0.blacklist, otp := r.0.otp)
    ensures BearerToken(req.headers.authorization).Some? ==>
              var token := BearerToken(req.headers.authorization).value;
              var revoked := Tbs.BlacklistToken(env.key, st.blacklist, token, Some("User logout"), Some(ForRequest(req)),
                                                req.headers.userAgent, now, generatedJti);
              var email := ExtractEmailFromToken(env.logoutKey, token, now);
              && (revoked.Failure? <==> r.1.status == StatusInternalServerError)
              && (revoked.Success? ==>
                    && r.1 == Reply(StatusOk, Stamped(LoggedOut, now))
                    && r.0.blacklist == Tbs.BlacklistAllUserTokensByType(revoked.value, email, Jwt.RefreshType)
                    && r.0.otp == Otp.ClearOtp(st.otp, JavaText(email)))
    ensures BearerToken(req.headers.authorization).Some? && r.1.status == StatusOk ==>
              var email := ExtractEmailFromToken(env.logoutKey, BearerToken(req.headers.authorization).value, now);
              forall j :: j in r.0.blacklist ==> !(EmailIs(r.0.blacklist[j], email) && r.0.blacklist[j].tokenType == Jwt.RefreshType)
  {
    match BearerToken(req.headers.authorization)
    case None => (st, Reply(StatusOk, Stamped(LoggedOut, now)))
    case Some(token) =>
      var ip := ForRequest(req);
      var ua := req.headers.userAgent;
      match Tbs.BlacklistToken(env.key, st.blacklist, token, Some("User logout"), Some(ip), ua, now, generatedJti)
      case Failure(_) => (st, Reply(StatusInternalServerError, Message(LogoutFailed)))
      case Success(t1) =>
        var email := ExtractEmailFromToken(env.logoutKey, token, now);
        var t2 := Tbs.BlacklistAllUserTokensByType(t1, email, Jwt.RefreshType);
        (st.(blacklist := t2, otp := Otp.ClearOtp(st.otp, JavaText(email))), Reply(StatusOk, Stamped(LoggedOut, now)))
  }

  /**
   * `logoutAllDevices`: the email is read first, then the token is revoked (a
   * 500 with nothing changed when that fails), then the metadata of the user's
   * still-valid revocations is rewritten and the code cleared. No other token
   * of the user is revoked: the table gains at most the presented token.
   */
  function LogoutAllDevices(env: Env, st: State, req: Request, now: int, generatedJti: string): (r: (State, Reply))
    requires SplitsToSomething(req.headers.xForwardedFor)
    ensures BearerToken(req.headers.authorization).None? ==> r == (st, Reply(StatusOk, Stamped(LoggedOutEverywhere, now)))
    ensures r.1.status in {StatusOk, StatusInternalServerError}
    ensures r.1.status == StatusInternalServerError ==> r == (st, Reply(StatusInternalServerError, Message(LogoutAllFailed)))
    ensures r.0 == st.(blacklist := r.0.blacklist, otp := r.0.otp)
    ensures BearerToken(req.headers.authorization).Some? ==>
              var token := BearerToken(req.headers.authorization).value;
              var revoked := Tbs.BlacklistToken(env.key, st.blacklist, token, Some("Logout all devices"), Some(ForRequest(req)),
                                                req.headers.userAgent, now, generatedJti);
              var email := ExtractEmailFromToken(env.logoutKey, token, now);
              && (revoked.Failure? <==> r.1.status == StatusInternalServerError)
              && (revoked.Success? ==>
                    && r.1 == Reply(StatusOk, Stamped(LoggedOutEverywhere, now))
                    && r.0.blacklist == Tbs.BlacklistAllUserTokens(revoked.value, email, Some("Logout all devices"),
                                                                   Some(ForRequest(req)), req.headers.userAgent, now)
                    && r.0.blacklist.Keys == revoked.value.Keys
                    && r.0.otp == Otp.ClearOtp(st.otp, JavaText(email)))
    ensures |r.0.blacklist.Keys - st.blacklist.Keys| <= 1
  {
    match BearerToken(req.headers.authorization)
    case None => (st, Reply(StatusOk, Stamped(LoggedOutEverywhere, now)))
    case Some(token) =>
      var ip := ForRequest(req);
      var ua := req.headers.userAgent;
      var email := ExtractEmailFromToken(env.logoutKey, token, now);
      match Tbs.BlacklistToken(env.key, st.blacklist, token, Some("Logout all devices"), Some(ip), ua, now, generatedJti)
      case Failure(_) => (st, Reply(StatusInternalServerError, Message(LogoutAllFailed)))
      case Success(t1) =>
        var t2 := Tbs.BlacklistAllUserTokens(t1, email, Some("Logout all devices"), Some(ip), ua, now);
        Tbs.RevocationAddsAtMostOne(env.key, st.blacklist, token, Some("Logout all devices"), Some(ip), ua, now, generatedJti);
        assert t2.Keys - st.blacklist.Keys == t1.Keys - st.blacklist.Keys;
        (st.(blacklist := t2, otp := Otp.ClearOtp(st.otp, JavaText(email))), Reply(StatusOk, Stamped(LoggedOutEverywhere, now)))
  }

  /**
   * `invalidateRefreshTokens`: the address bucket (capacity 20) first; then,
   * with a Bearer header, every "refresh" revocation of the extracted email is
   * deleted. The table only ever loses rows here.
   */
  function InvalidateRefreshTokens(env: Env, st: State, req: Request, now: int): (r: (State, Reply))
    requires SplitsToSomething(req.headers.xForwardedFor)
    ensures var (ipBuckets, ok) := TryConsume(st.logoutIpBuckets, ForRequest(req), IpBucketCapacity);
            && r.0 == st.(logoutIpBuckets := ipBuckets, blacklist := r.0.blacklist)
            && (!ok ==> r == (st.(logoutIpBuckets := ipBuckets), Reply(StatusTooManyRequests, Message(TooManyRequests))))
            && (ok ==> r.1 == Reply(StatusOk, Stamped(RefreshTokensInvalidated, now)))
    ensures BearerToken(req.headers.authorization).None? ==> r.0.blacklist == st.blacklist
    ensures BearerToken(req.headers.authorization).Some? && r.1.status == StatusOk ==>
              var email := ExtractEmailFromToken(env.logoutKey, BearerToken(req.headers.authorization).value, now);
              forall j :: j in r.0.blacklist <==> j in st.blacklist && !(EmailIs(st.blacklist[j], email) && st.blacklist[j].tokenType == Jwt.RefreshType)
    ensures RowsKept(st.blacklist, r.0.blacklist)
  {
    var ip := ForRequest(req);
    var (ipBuckets, ok) := TryConsume(st.logoutIpBuckets, ip, IpBucketCapacity);
    var st1 := st.(logoutIpBuckets := ipBuckets);
    if !ok then (st1, Reply(StatusTooManyRequests, Message(TooManyRequests)))
    else
      match BearerToken(req.headers.authorization)
      case None => (st1, Reply(StatusOk, Stamped(RefreshTokensInvalidated, now)))
      case Some(token) =>
        var email := ExtractEmailFromToken(env.logoutKey, token, now);
        (st1.(blacklist := Tbs.BlacklistAllUserTokensByType(st.blacklist, email, Jwt.RefreshType)),
         Reply(StatusOk, Stamped(RefreshTokensInvalidated, now)))
  }

  /**
   * `forceLogout`: a missing or blank email is a 400 with nothing changed;
   * otherwise the user's still-valid revocations are relabelled and the code
   * cleared. No token is revoked.
   */
  function ForceLogout(st: State, email: Option<string>, ipAddress: Option<string>, now: int): (r: (State, Reply))
    ensures email.None? || Trim(email.value) == "" ==> r == (st, Reply(StatusBadRequest, Message(EmailRequired)))
    ensures email.Some? && Trim(email.value) != "" ==>
              && r.1 == Reply(StatusOk, Stamped(ForcedOut, now))
              && r.0 == st.(blacklist := r.0.blacklist, otp := Otp.ClearOtp(st.otp, email.value))
              && r.0.blacklist.Keys == st.blacklist.Keys
              && forall j :: j in st.blacklist ==>
                   r.0.blacklist[j] == if EmailIs(st.blacklist[j], email) && st.blacklist[j].expiryDate > now
                                       then st.blacklist[j].(logoutReason := Some("Force logout by admin"), ipAddress := ipAddress,
                                                             userAgent := Some("Admin System"))
                                       else st.blacklist[j]
  {
    if email.None? || Trim(email.value) == "" then (st, Reply(StatusBadRequest, Message(EmailRequired)))
    else
      var t := Tbs.BlacklistAllUserTokens(st.blacklist, email, Some("Force logout by admin"), ipAddress, Some("Admin System"), now);
      (st.(blacklist := t, otp := Otp.ClearOtp(st.otp, email.value)), Reply(StatusOk, Stamped(ForcedOut, now)))
  }

  /** Invalidation never revokes: a token it leaves blacklisted was blacklisted before. */
  lemma InvalidationNeverRevokes(env: Env, st: State, req: Request, now: int, token: string, generatedJti: string)
    requires SplitsToSomething(req.headers.xForwardedFor)
    ensures var st' := InvalidateRefreshTokens(env, st, req, now).0;
            Tbs.IsTokenBlacklisted(env.key, st'.blacklist, token, now, generatedJti).1 ==> Tbs.IsTokenBlacklisted(env.key, st.blacklist, token, now, generatedJti).1
  {
  }

  /** Force logout never revokes: a token blacklisted after it was blacklisted before, whatever instant the check uses. */
  lemma ForceLogoutNeverRevokes(k: Jwt.Codec, st: State, email: Option<string>, ipAddress: Option<string>, now: int,
                                token: string, checkedAt: int, generatedJti: string)
    ensures var st' := ForceLogout(st, email, ipAddress, now).0;
            Tbs.IsTokenBlacklisted(k, st'.blacklist, token, checkedAt, generatedJti).1 <==> Tbs.IsTokenBlacklisted(k, st.blacklist, token, checkedAt, generatedJti).1
  {
  }

  /** With the key this controller builds by default, every logout uses the email "unknown". */
  lemma DefaultKeyLogsOutUnknown(env: Env, st: State, req: Request, now: int, generatedJti: string)
    requires SplitsToSomething(req.headers.xForwardedFor)
    requires env.logoutKey.None?
    requires BearerToken(req.headers.authorization).Some?
    ensures var r := Logout(env, st, req, now, generatedJti);
            r.1.status == StatusOk ==> r.0.otp == Otp.ClearOtp(st.otp, Unknown)
  {
  }
}

=== FILE: otp_service.dfy ===
/**
 * The OTP store of `OtpService` on its in-process fallback path: three maps keyed
 * by string (hashed OTP and expiry under "otp:"+email, the attempt counter under
 * "otp_attempts:"+email), with expiry checked lazily on read.
 */
module OtpService {
  import opened Wrappers

  /** One draw of `SecureRandom.nextInt(10)`. */
  type Digit = d: int | 0 <= d < 10

  datatype OtpConfig = OtpConfig(expirationMinutes: int, otpLength: nat, maxOtpAttempts: int)

  /** `app.otp.expiration-minutes`, `app.otp.length` and `app.otp.max-attempts` when unset. */
  const Defaults := OtpConfig(5, 6, 3)

  const MillisPerMinute := 60 * 1000

  const OtpKeyPrefix := "otp:"
  const AttemptsKeyPrefix := "otp_attempts:"

  function OtpKey(email: string): string {
    OtpKeyPrefix + email
  }

  function AttemptsKey(email: string): string {
    AttemptsKeyPrefix + email
  }

  /** Distinct emails never share a key. */
  lemma KeysDistinct(email: string)
    ensures forall e :: e != email ==> OtpKey(e) != OtpKey(email) && AttemptsKey(e) != AttemptsKey(email)
  {
    forall e | e != email
      ensures OtpKey(e) != OtpKey(email) && AttemptsKey(e) != AttemptsKey(email)
    {
      assert OtpKey(e)[|OtpKeyPrefix|..] == e;
      assert OtpKey(email)[|OtpKeyPrefix|..] == email;
      assert AttemptsKey(e)[|AttemptsKeyPrefix|..] == e;
      assert AttemptsKey(email)[|AttemptsKeyPrefix|..] == email;
    }
  }

  /** The one-way hash (BCrypt in the source), left uninterpreted. */
  datatype PasswordEncoder = PasswordEncoder(encode: string -> string, matches: (string, string) -> bool)

  ghost predicate AcceptsOwnHash(enc: PasswordEncoder) {
    forall c :: enc.matches(c, enc.encode(c))
  }

  ghost predicate RejectsOtherCodes(enc: PasswordEncoder) {
    forall c, d :: c != d ==> !enc.matches(d, enc.encode(c))
  }

  datatype Store = Store(otps: map<string, string>, expiries: map<string, int>, attempts: map<string, int>)

  const EmptyStore := Store(map[], map[], map[])

  /** Hashed OTP and expiry are always stored and removed together. */
  ghost predicate Valid(s: Store) {
    s.otps.Keys == s.expiries.Keys
  }

  function Get<K, V>(m: map<K, V>, k: K): Option<V> {
    if k in m then Some(m[k]) else None
  }

  /** Everything the store holds about one email. */
  datatype Entry = Entry(otp: Option<string>, expiry: Option<int>, attempts: Option<int>)

  function EntryOf(s: Store, email: string): Entry {
    Entry(Get(s.otps, OtpKey(email)), Get(s.expiries, OtpKey(email)), Get(s.attempts, AttemptsKey(email)))
  }

  ghost predicate OthersUnchanged(s: Store, s': Store, email: string) {
    forall e :: e != email ==> EntryOf(s', e) == EntryOf(s, e)
  }

  /** An expiry is recorded and `now` is strictly after it. */
  predicate Expired(s: Store, email: string, now: int) {
    OtpKey(email) in s.expiries && now > s.expiries[OtpKey(email)]
  }

  /** A hashed OTP is stored and has not expired. */
  predicate Live(s: Store, email: string, now: int) {
    OtpKey(email) in s.otps && !Expired(s, email, now)
  }

  // ----- in-memory helpers -----

  /** Everything stored under other keys, in any of the three maps, is as it was. */
  ghost predicate OtherKeysUnchanged(s: Store, s': Store, key: string) {
    && s'.otps - {key} == s.otps - {key}
    && s'.expiries - {key} == s.expiries - {key}
    && s'.attempts - {key} == s.attempts - {key}
  }

  /** Stores the hash and a deadline `minutes*60000` ms after `now`; the counters are untouched. */
  function StoreOtpInMemory(cfg: OtpConfig, s: Store, key: string, hashedOtp: string, now: int): (r: Store)
    ensures Get(r.otps, key) == Some(hashedOtp)
    ensures Get(r.expiries, key) == Some(now + cfg.expirationMinutes * MillisPerMinute)
    ensures r.attempts == s.attempts
    ensures OtherKeysUnchanged(s, r, key)
    ensures Valid(s) ==> Valid(r)
  {
    s.(otps := s.otps[key := hashedOtp],
       expiries := s.expiries[key := now + cfg.expirationMinutes * MillisPerMinute])
  }

  /** Removes hash and deadline under `key`; the counters are untouched. */
  function ClearOtpFromMemory(s: Store, key: string): (r: Store)
    ensures key !in r.otps && key !in r.expiries
    ensures r.attempts == s.attempts
    ensures OtherKeysUnchanged(s, r, key)
    ensures Valid(s) ==> Valid(r)
  {
    s.(otps := s.otps - {key}, expiries := s.expiries - {key})
  }

  /** Lazy expiry: the first read after the deadline deletes the record and reports it absent. */
  function GetOtpFromMemory(s: Store, key: string, now: int): (r: (Store, Option<string>))
    ensures key in s.expiries && now > s.expiries[key] ==>
              r.1 == None && key !in r.0.otps && key !in r.0.expiries && r.0.attempts == s.attempts
    ensures !(key in s.expiries && now > s.expiries[key]) ==> r.0 == s && r.1 == Get(s.otps, key)
    ensures OtherKeysUnchanged(s, r.0, key)
  {
    if key in s.expiries && now > s.expiries[key] then (ClearOtpFromMemory(s, key), None)
    else (s, Get(s.otps, key))
  }

  /**
   * True exactly when no hash is stored under `key` or its deadline has passed;
   * an overdue record is deleted on the way, and nothing else changes.
   */
  function IsOtpExpiredInMemory(s: Store, key: string, now: int): (r: (Store, bool))
    ensures r.1 <==> key !in s.otps || (key in s.expiries && now > s.expiries[key])
    ensures r.1 && key in s.otps ==> key !in r.0.otps && key !in r.0.expiries
    ensures key in s.expiries && now > s.expiries[key] ==> key !in r.0.otps && key !in r.0.expiries
    ensures r.0.attempts == s.attempts
    ensures OtherKeysUnchanged(s, r.0, key)
    ensures !(key in s.expiries && now > s.expiries[key]) ==> r.0 == s
  {
    if key in s.expiries && now > s.expiries[key] then (ClearOtpFromMemory(s, key), true)
    else (s, key !in s.otps)
  }

  /** The whole minutes left before the deadline (rounded down), 0 when it has passed or none is stored. */
  function GetOtpTtlFromMemory(s: Store, key: string, now: int): (minutes: int)
    ensures minutes >= 0
    ensures key !in s.expiries || s.expiries[key] <= now ==> minutes == 0
    ensures key in s.expiries && s.expiries[key] > now ==>
              minutes * MillisPerMinute <= s.expiries[key] - now < (minutes + 1) * MillisPerMinute
  {
    if key !in s.expiries then 0
    else
      var remaining := s.expiries[key] - now;
      if remaining > 0 then remaining / MillisPerMinute else 0
  }

  /** `inMemoryAttemptsStore.getOrDefault(key, 0)`: the email's recorded attempts, 0 when none are. */
  function GetAttemptCount(s: Store, email: string): (n: int)
    ensures n == EntryOf(s, email).attempts.GetOr(0)
  {
    Get(s.attempts, AttemptsKey(email)).GetOr(0)
  }

  /** `inMemoryAttemptsStore.merge(key, 1, Integer::sum)`: one more attempt for this email, nothing else changes. */
  function IncrementAttemptCount(s: Store, email: string): (r: Store)
    ensures GetAttemptCount(r, email) == GetAttemptCount(s, email) + 1
    ensures AttemptsKey(email) in r.attempts
    ensures r.otps == s.otps && r.expiries == s.expiries
    ensures OtherKeysUnchanged(s, r, AttemptsKey(email))
  {
    var key := AttemptsKey(email);
    s.(attempts := s.attempts[key := if key in s.attempts then s.attempts[key] + 1 else 1])
  }

  /** Forgets this email's attempts, so the count reads 0 again; nothing else changes. */
  function ClearAttemptCount(s: Store, email: string): (r: Store)
    ensures AttemptsKey(email) !in r.attempts && GetAttemptCount(r, email) == 0
    ensures r.otps == s.otps && r.expiries == s.expiries
    ensures OtherKeysUnchanged(s, r, AttemptsKey(email))
  {
    s.(attempts := s.attempts - {AttemptsKey(email)})
  }

  function DigitChar(d: Digit): (c: char)
    ensures '0' <= c <= '9'
  {
    ('0' as int + d) as char
  }

  /** `generateNumericOtp`: one decimal digit per draw, appended in draw order. */
  function GenerateNumericOtp(otpLength: nat, draws: seq<Digit>): (otp: string)
    requires |draws| == otpLength
    ensures |otp| == otpLength
    ensures forall i :: 0 <= i < otpLength ==> otp[i] == DigitChar(draws[i])
    ensures forall i :: 0 <= i < |otp| ==> '0' <= otp[i] <= '9'
  {
    if otpLength == 0 then ""
    else GenerateNumericOtp(otpLength - 1, draws[..otpLength - 1]) + [DigitChar(draws[otpLength - 1])]
  }

  // ----- public operations -----

  /**
   * `generateOtp`: stores only the hash of a fresh code, with a new deadline,
   * replacing any earlier code; the attempt counter is left as it was.
   */
  function GenerateOtp(cfg: OtpConfig, enc: PasswordEncoder, s: Store, email: string, draws: seq<Digit>, now: int)
    : (r: (Store, string))
    requires |draws| == cfg.otpLength
    ensures |r.1| == cfg.otpLength && forall i :: 0 <= i < |r.1| ==> '0' <= r.1[i] <= '9'
    ensures EntryOf(r.0, email)
         == Entry(Some(enc.encode(r.1)), Some(now + cfg.expirationMinutes * MillisPerMinute), EntryOf(s, email).attempts)
    ensures OthersUnchanged(s, r.0, email)
    ensures Valid(s) ==> Valid(r.0)
  {
    KeysDistinct(email);
    var otp := GenerateNumericOtp(cfg.otpLength, draws);
    (StoreOtpInMemory(cfg, s, OtpKey(email), enc.encode(otp), now), otp)
  }

  /** `clearOtp`: removes the code and its deadline, never the attempt counter. */
  function ClearOtp(s: Store, email: string): (s': Store)
    ensures EntryOf(s', email) == Entry(None, None, EntryOf(s, email).attempts)
    ensures OthersUnchanged(s, s', email)
    ensures Valid(s) ==> Valid(s')
  {
    KeysDistinct(email);
    ClearOtpFromMemory(s, OtpKey(email))
  }

  /**
   * `verifyOtp`: no live code means false with the counter untouched; otherwise the
   * counter goes up by one first, a counter above the maximum purges the code and
   * fails even for the right code, a match purges code and counter, and a
   * mismatch keeps the code.
   */
  function VerifyOtp(cfg: OtpConfig, enc: PasswordEncoder, s: Store, email: string, providedOtp: string, now: int)
    : (r: (Store, bool))
    ensures r.1 <==> Live(s, email, now) && GetAttemptCount(s, email) + 1 <= cfg.maxOtpAttempts
                     && enc.matches(providedOtp, s.otps[OtpKey(email)])
    ensures Expired(s, email, now) ==> EntryOf(r.0, email) == Entry(None, None, EntryOf(s, email).attempts)
    ensures !Expired(s, email, now) && !Live(s, email, now) ==> r.0 == s
    ensures Live(s, email, now) && r.1 ==> EntryOf(r.0, email) == Entry(None, None, None)
    ensures Live(s, email, now) && !r.1 ==> GetAttemptCount(r.0, email) == GetAttemptCount(s, email) + 1
    ensures Live(s, email, now) && GetAttemptCount(s, email) + 1 > cfg.maxOtpAttempts ==>
              EntryOf(r.0, email).otp == None && EntryOf(r.0, email).expiry == None
    ensures Live(s, email, now) && GetAttemptCount(s, email) + 1 <= cfg.maxOtpAttempts && !r.1 ==>
              EntryOf(r.0, email).otp == EntryOf(s, email).otp && EntryOf(r.0, email).expiry == EntryOf(s, email).expiry
    ensures OthersUnchanged(s, r.0, email)
    ensures Valid(s) ==> Valid(r.0)
  {
    KeysDistinct(email);
    var key := OtpKey(email);
    var (s1, hashedOtp) := GetOtpFromMemory(s, key, now);
    if hashedOtp.None? then (s1, false)
    else
      var s2 := IncrementAttemptCount(s1, email);
      if GetAttemptCount(s2, email) > cfg.maxOtpAttempts then (ClearOtp(s2, email), false)
      else if enc.matches(providedOtp, hashedOtp.value) then (ClearAttemptCount(ClearOtp(s2, email), email), true)
      else (s2, false)
  }

  /** `isOtpExpired`: no live code; an overdue one is deleted on the way. */
  function IsOtpExpired(s: Store, email: string, now: int): (r: (Store, bool))
    ensures r.1 <==> !Live(s, email, now)
    ensures Expired(s, email, now) ==> EntryOf(r.0, email) == Entry(None, None, EntryOf(s, email).attempts)
    ensures !Expired(s, email, now) ==> r.0 == s
    ensures OthersUnchanged(s, r.0, email)
  {
    KeysDistinct(email);
    IsOtpExpiredInMemory(s, OtpKey(email), now)
  }

  /** `getOtpTtl`: whole minutes left before the deadline, 0 once it has passed or when none is recorded. */
  function GetOtpTtl(s: Store, email: string, now: int): (minutes: int)
    ensures minutes >= 0
    ensures EntryOf(s, email).expiry == None ==> minutes == 0
    ensures EntryOf(s, email).expiry.Some? && EntryOf(s, email).expiry.value <= now ==> minutes == 0
    ensures EntryOf(s, email).expiry.Some? && EntryOf(s, email).expiry.value > now ==>
              minutes * MillisPerMinute <= EntryOf(s, email).expiry.value - now < (minutes + 1) * MillisPerMinute
  {
    GetOtpTtlFromMemory(s, OtpKey(email), now)
  }

  /** `isRateLimited`: the attempt counter has reached the maximum. */
  function IsRateLimited(cfg: OtpConfig, s: Store, email: string): (limited: bool)
    ensures limited <==> || (EntryOf(s, email).attempts.Some? && EntryOf(s, email).attempts.value >= cfg.maxOtpAttempts)
                         || (EntryOf(s, email).attempts.None? && cfg.maxOtpAttempts <= 0)
  {
    GetAttemptCount(s, email) >= cfg.maxOtpAttempts
  }

  // ----- properties over several calls -----

  /**
   * Single use: a fresh code is accepted once before its deadline (given the
   * counter leaves room for one more attempt) and rejected right after.
   */
  lemma GenerateThenVerifyOnce(cfg: OtpConfig, enc: PasswordEncoder, s: Store, email: string, draws: seq<Digit>,
                               now: int, later: int, latest: int)
    requires AcceptsOwnHash(enc)
    requires |draws| == cfg.otpLength
    requires GetAttemptCount(s, email) < cfg.maxOtpAttempts
    requires now <= later <= now + cfg.expirationMinutes * MillisPerMinute
    ensures var (s1, code) := GenerateOtp(cfg, enc, s, email, draws, now);
            var (s2, first) := VerifyOtp(cfg, enc, s1, email, code, later);
            var (s3, second) := VerifyOtp(cfg, enc, s2, email, code, latest);
            first && !second && GetAttemptCount(s2, email) == 0
  {
    var (s1, code) := GenerateOtp(cfg, enc, s, email, draws, now);
    assert enc.matches(code, enc.encode(code));
    assert Live(s1, email, later);
  }

  /**
   * Lazy expiry: after the deadline even the right code is refused, the code is
   * purged and the counter is left alone.
   */
  lemma ExpiredCodeRefused(cfg: OtpConfig, enc: PasswordEncoder, s: Store, email: string, draws: seq<Digit>,
                           now: int, later: int)
    requires |draws| == cfg.otpLength
    requires later > now + cfg.expirationMinutes * MillisPerMinute
    ensures var (s1, code) := GenerateOtp(cfg, enc, s, email, draws, now);
            var (s2, ok) := VerifyOtp(cfg, enc, s1, email, code, later);
            !ok && EntryOf(s2, email) == Entry(None, None, EntryOf(s, email).attempts)
  {
    var (s1, code) := GenerateOtp(cfg, enc, s, email, draws, now);
    assert Expired(s1, email, later);
  }

  /**
   * What `getOtpTtl` reports at an instant `later` about a code generated at `now`:
   * the whole minutes left before the deadline `now + minutes*60000`, and 0 once it
   * is reached. Read in the generating millisecond it is the configured number of
   * minutes; read at any later instant of the following minute it is one less.
   */
  lemma TtlAfterGenerate(cfg: OtpConfig, enc: PasswordEncoder, s: Store, email: string, draws: seq<Digit>,
                         now: int, later: int)
    requires |draws| == cfg.otpLength
    ensures var ttl := GetOtpTtl(GenerateOtp(cfg, enc, s, email, draws, now).0, email, later);
            var left := now + cfg.expirationMinutes * MillisPerMinute - later;
            && (left <= 0 ==> ttl == 0)
            && (left > 0 ==> ttl * MillisPerMinute <= left < (ttl + 1) * MillisPerMinute)
            && (later == now && cfg.expirationMinutes >= 0 ==> ttl == cfg.expirationMinutes)
            && (now < later <= now + MillisPerMinute && cfg.expirationMinutes >= 1 ==> ttl == cfg.expirationMinutes - 1)
  {
    var s1 := GenerateOtp(cfg, enc, s, email, draws, now).0;
    var ttl := GetOtpTtl(s1, email, later);
    var m := cfg.expirationMinutes;
    if later == now && m > 0 {
      assert ttl * MillisPerMinute <= m * MillisPerMinute < (ttl + 1) * MillisPerMinute;
    }
    if now < later <= now + MillisPerMinute && m >= 1 {
      assert (m - 1) * MillisPerMinute <= m * MillisPerMinute - (later - now) < m * MillisPerMinute;
    }
  }

  /**
   * Once the counter has reached the maximum it never comes down again on this
   * path: every later verify fails (the increment pushes it over the maximum),
   * and neither generating nor clearing a code touches it.
   */
  lemma {:induction false} LockoutIsPermanent(cfg: OtpConfig, enc: PasswordEncoder, s: Store, email: string,
                                              code: string, draws: seq<Digit>, now: int)
    requires IsRateLimited(cfg, s, email)
    requires |draws| == cfg.otpLength
    ensures var (s1, ok) := VerifyOtp(cfg, enc, s, email, code, now);
            !ok && IsRateLimited(cfg, s1, email)
    ensures IsRateLimited(cfg, GenerateOtp(cfg, enc, s, email, draws, now).0, email)
    ensures IsRateLimited(cfg, ClearOtp(s, email), email)
  {
    var (s1, ok) := VerifyOtp(cfg, enc, s, email, code, now);
    assert !ok;
    if Live(s, email, now) {
      assert GetAttemptCount(s1, email) == GetAttemptCount(s, email) + 1;
    } else if Expired(s, email, now) {
      assert EntryOf(s1, email).attempts == EntryOf(s, email).attempts;
    }
    assert GetAttemptCount(s1, email) >= GetAttemptCount(s, email);
  }

  /**
   * The attempt cap with the default maximum of 3, from a clean counter: three
   * wrong codes fail and keep the code, the fourth purges it, and the right code
   * is refused afterwards.
   */
  lemma AttemptCapScenario(enc: PasswordEncoder, s: Store, email: string, draws: seq<Digit>, wrong: string, now: int)
    requires RejectsOtherCodes(enc) && AcceptsOwnHash(enc)
    requires |draws| == Defaults.otpLength
    requires GetAttemptCount(s, email) == 0
    requires wrong != GenerateNumericOtp(Defaults.otpLength, draws)
    ensures var (s0, code) := GenerateOtp(Defaults, enc, s, email, draws, now);
            var (s1, ok1) := VerifyOtp(Defaults, enc, s0, email, wrong, now);
            var (s2, ok2) := VerifyOtp(Defaults, enc, s1, email, wrong, now);
            var (s3, ok3) := VerifyOtp(Defaults, enc, s2, email, wrong, now);
            var (s4, ok4) := VerifyOtp(Defaults, enc, s3, email, wrong, now);
            var (s5, ok5) := VerifyOtp(Defaults, enc, s4, email, code, now);
            && !ok1 && !ok2 && !ok3 && !ok4 && !ok5
            && EntryOf(s3, email).otp.Some? && IsRateLimited(Defaults, s3, email)
            && EntryOf(s4, email).otp.None?
  {
    var (s0, code) := GenerateOtp(Defaults, enc, s, email, draws, now);
    assert code == GenerateNumericOtp(Defaults.otpLength, draws);
    assert Live(s0, email, now) && s0.otps[OtpKey(email)] == enc.encode(code);
    WrongCodeKeepsCode(Defaults, enc, s0, email, code, wrong, now);
    var (s1, ok1) := VerifyOtp(Defaults, enc, s0, email, wrong, now);
    WrongCodeKeepsCode(Defaults, enc, s1, email, code, wrong, now);
    var (s2, ok2) := VerifyOtp(Defaults, enc, s1, email, wrong, now);
    WrongCodeKeepsCode(Defaults, enc, s2, email, code, wrong, now);
    var (s3, ok3) := VerifyOtp(Defaults, enc, s2, email, wrong, now);
    assert Live(s3, email, now) && GetAttemptCount(s3, email) == 3;
    OverusedCodePurged(Defaults, enc, s3, email, wrong, now);
    var (s4, ok4) := VerifyOtp(Defaults, enc, s3, email, wrong, now);
    NoLiveCodeRefused(Defaults, enc, s4, email, code, now);
  }

  /** Over the maximum, even the right code is refused and the code is purged. */
  lemma OverusedCodePurged(cfg: OtpConfig, enc: PasswordEncoder, s: Store, email: string, code: string, now: int)
    requires Live(s, email, now) && GetAttemptCount(s, email) + 1 > cfg.maxOtpAttempts
    ensures var (s', ok) := VerifyOtp(cfg, enc, s, email, code, now);
            !ok && EntryOf(s', email).otp.None? && !Live(s', email, now)
  {
  }

  /** Without a live code every verification fails and changes nothing but a lazy purge. */
  lemma NoLiveCodeRefused(cfg: OtpConfig, enc: PasswordEncoder, s: Store, email: string, code: string, now: int)
    requires EntryOf(s, email).otp.None?
    ensures !VerifyOtp(cfg, enc, s, email, code, now).1
  {
  }

  /** A wrong code while attempts remain is refused, keeps the live code and counts one attempt. */
  lemma WrongCodeKeepsCode(cfg: OtpConfig, enc: PasswordEncoder, s: Store, email: string, code: string, wrong: string,
                           now: int)
    requires RejectsOtherCodes(enc) && wrong != code
    requires Live(s, email, now) && s.otps[OtpKey(email)] == enc.encode(code)
    requires GetAttemptCount(s, email) + 1 <= cfg.maxOtpAttempts
    ensures var (s', ok) := VerifyOtp(cfg, enc, s, email, wrong, now);
            && !ok && Live(s', email, now) && s'.otps[OtpKey(email)] == enc.encode(code)
            && GetAttemptCount(s', email) == GetAttemptCount(s, email) + 1
  {
    var (s', ok) := VerifyOtp(cfg, enc, s, email, wrong, now);
    assert !enc.matches(wrong, enc.encode(code));
    assert EntryOf(s', email).otp == EntryOf(s, email).otp && EntryOf(s', email).expiry == EntryOf(s, email).expiry;
  }
}

=== FILE: rate_limit_filter.dfy ===
/**
 * `RateLimitFilter`: the servlet filter in front of request-otp. It reads the
 * email from the request body cached so far (`cachedBody`) and consults an
 * address bucket and then an email bucket of its own.
 */
module RateLimitFilter {
  import opened Wrappers
  import opened Http
  import opened ClientIp
  import opened JavaStrings
  import opened Buckets
  import opened Server

  const GatedUri := "/api/v1/auth/request-otp"
  const IpBucketCapacity := 10
  const EmailBucketCapacity := 5
  const RetryAfterSeconds := 60
  const IpLimitMessage := "IP rate limit exceeded. Too many requests from this IP address."
  const EmailLimitMessage := "Email rate limit exceeded. Too many OTP requests for this email address."

  const EmailKey := "\"email\""

  /** `v` stands between a quote at `q` and the next quote. */
  predicate QuotedAt(body: string, v: string, q: int) {
    && 0 <= q && q + |v| + 1 < |body|
    && body[q] == '"' && body[q + 1..q + 1 + |v|] == v && body[q + 1 + |v|] == '"'
  }

  /**
   * `extractEmailFromRequest`: the text between the first quote after the first
   * colon that follows the first `"email"`, and the next quote; `null` when the
   * body is empty, has no `"email"`, or that text is empty or unterminated.
   */
  function ExtractEmailFromRequest(body: string): (email: Option<string>)
    ensures (forall k :: !OccursAt(body, EmailKey, k)) ==> email.None?
    ensures email.Some? ==> email.value != "" && (forall i :: 0 <= i < |email.value| ==> email.value[i] != '"')
    ensures email.Some? ==> exists q :: QuotedAt(body, email.value, q)
  {
    if |body| == 0 || !Contains(body, EmailKey) then None
    else
      var emailIndex := IndexOf(body, EmailKey, 0);
      var colonIndex := IndexOf(body, ":", emailIndex);
      var startIndex := IndexOf(body, "\"", colonIndex) + 1;
      var endIndex := IndexOf(body, "\"", startIndex);
      if startIndex > 0 && endIndex > startIndex then
        var v := body[startIndex..endIndex];
        OccursAtChar(body, '"');
        assert forall i :: 0 <= i < |v| ==> v[i] == body[startIndex + i];
        assert QuotedAt(body, v, startIndex - 1);
        Some(v)
      else None
  }

  /** A body `{"email":"<e>"}` yields `e` for every non-empty `e` without quotes. */
  lemma ExtractsFromSimpleJson(e: string)
    requires e != "" && forall i :: 0 <= i < |e| ==> e[i] != '"'
    ensures ExtractEmailFromRequest("{" + EmailKey + ":\"" + e + "\"}") == Some(e)
  {
    var body := "{" + EmailKey + ":\"" + e + "\"}";
    var end := 10 + |e|;
    assert body[..10] == "{\"email\":\"";
    assert forall i :: 0 <= i < 10 ==> body[i] == body[..10][i];
    assert forall i :: 10 <= i < end ==> body[i] == e[i - 10];
    assert body[end] == '"';
    OccursAtChar(body, ':');
    OccursAtChar(body, '"');
    assert OccursAt(body, EmailKey, 1);
    assert !OccursAt(body, EmailKey, 0) by {
      assert body[0] == '{';
    }
    assert IndexOf(body, EmailKey, 0) == 1;
    assert body[8] == ':' && OccursAt(body, ":", 8);
    assert forall i :: 1 <= i < 8 ==> body[i] != ':';
    assert forall i :: 1 <= i < 8 ==> !OccursAt(body, ":", i);
    assert IndexOf(body, ":", 1) == 8;
    assert IndexOf(body, "\"", 8) == 9;
    assert IndexOf(body, "\"", 10) == end;
    assert body[10..end] == e;
  }

  datatype FilterResult = PassOn | Limited(reply: RateLimitReply)

  predicate IsGated(req: Request) {
    req.uri == GatedUri && req.httpMethod == "POST"
  }

  /** `sendRateLimitResponse(response, message, 60)` */
  function SendRateLimitResponse(message: string, now: int): (reply: RateLimitReply)
    ensures reply.status == StatusTooManyRequests && reply.body.status == StatusTooManyRequests
    ensures reply.retryAfterHeader == "60" && reply.limitHeader == "5" && reply.remainingHeader == "0"
    ensures reply.resetHeader == now + RetryAfterSeconds * 1000
    ensures reply.body.detail == message && reply.body.instance == GatedUri && reply.body.retryAfter == RetryAfterSeconds
  {
    assert NatToString(6) == "6" && NatToString(60) == NatToString(6) + "0";
    RateLimitExceeded(message, RetryAfterSeconds, GatedUri, now)
  }

  /**
   * `doFilter`: only a POST to exactly the request-otp path is gated. The
   * address bucket is tried first; the email bucket only when it granted and
   * the body yielded a non-empty email. The chain runs exactly when neither
   * bucket refused.
   */
  function DoFilter(st: State, req: Request, cachedBody: string, now: int): (r: (State, FilterResult))
    requires IsGated(req) ==> SplitsToSomething(req.headers.xForwardedFor)
    ensures !IsGated(req) ==> r == (st, PassOn)
    ensures r.0 == st.(filterIpBuckets := r.0.filterIpBuckets, filterEmailBuckets := r.0.filterEmailBuckets)
    ensures IsGated(req) ==>
              var (ipBuckets, ipOk) := TryConsume(st.filterIpBuckets, ForRequest(req), IpBucketCapacity);
              var email := ExtractEmailFromRequest(cachedBody);
              && r.0.filterIpBuckets == ipBuckets
              && (!ipOk ==> r.1 == Limited(SendRateLimitResponse(IpLimitMessage, now)) && r.0.filterEmailBuckets == st.filterEmailBuckets)
              && (ipOk && email.None? ==> r.1 == PassOn && r.0.filterEmailBuckets == st.filterEmailBuckets)
              && (ipOk && email.Some? ==>
                    var (emailBuckets, emailOk) := TryConsume(st.filterEmailBuckets, email.value, EmailBucketCapacity);
                    && r.0.filterEmailBuckets == emailBuckets
                    && r.1 == if emailOk then PassOn else Limited(SendRateLimitResponse(EmailLimitMessage, now)))
    ensures r.1.Limited? ==>
              && r.1.reply.status == StatusTooManyRequests
              && r.1.reply.retryAfterHeader == "60" && r.1.reply.limitHeader == "5"
              && r.1.reply.remainingHeader == "0"
  {
    if !IsGated(req) then (st, PassOn)
    else
      var email := ExtractEmailFromRequest(cachedBody);
      var ip := ForRequest(req);
      var (ipBuckets, ipOk) := TryConsume(st.filterIpBuckets, ip, IpBucketCapacity);
      var st1 := st.(filterIpBuckets := ipBuckets);
      if !ipOk then (st1, Limited(SendRateLimitResponse(IpLimitMessage, now)))
      else if email.Some? && email.value != "" then
        var (emailBuckets, emailOk) := TryConsume(st.filterEmailBuckets, email.value, EmailBucketCapacity);
        var st2 := st1.(filterEmailBuckets := emailBuckets);
        if !emailOk then (st2, Limited(SendRateLimitResponse(EmailLimitMessage, now))) else (st2, PassOn)
      else (st1, PassOn)
  }

  /**
   * Before the controller reads the body, the caching wrapper holds nothing, so
   * the filter never finds an email and its email bucket is never consulted.
   */
  lemma EmptyCacheSkipsEmailBucket(st: State, req: Request, now: int)
    requires IsGated(req) ==> SplitsToSomething(req.headers.xForwardedFor)
    ensures DoFilter(st, req, "", now).0.filterEmailBuckets == st.filterEmailBuckets
    ensures DoFilter(st, req, "", now).1.Limited? ==> DoFilter(st, req, "", now).1.reply.body.detail == IpLimitMessage
  {
  }
}

=== FILE: server.dfy ===
/**
 * The application's shared state and configuration. Each singleton service or
 * controller that keeps state contributes its part: the two database tables,
 * the in-memory OTP maps, the revocation table and the bucket maps of the two
 * controllers and of the rate-limit filter.
 */
module Server {
  import opened Wrappers
  import opened Buckets
  import opened BlacklistedTokens
  import Otp = OtpService
  import Jwt = JwtTokenService
  import Us = UserService

  /**
   * What the running application is configured with: the OTP and token settings,
   * the password encoder, the signing key of `JwtTokenService` and the key
   * `LogoutController` builds from its own secret (`None` when that key cannot be built).
   */
  datatype Env = Env(
    otpCfg: Otp.OtpConfig,
    encoder: Otp.PasswordEncoder,
    jwtCfg: Jwt.JwtConfig,
    key: Jwt.Codec,
    logoutKey: Option<Jwt.Codec>)

  datatype State = State(
    db: Us.UserDb,
    otp: Otp.Store,
    blacklist: Table,
    authIpBuckets: Buckets,
    authEmailBuckets: Buckets,
    logoutIpBuckets: Buckets,
    filterIpBuckets: Buckets,
    filterEmailBuckets: Buckets)
}

=== FILE: token_blacklist_service.dfy ===
/**
 * `TokenBlacklistService`: revocation by jti over the blacklist table.
 * `generatedJti` stands for `generateJtiFromToken`, which mixes the token's hash
 * code with the wall clock and is only used when a token carries no jti.
 */
module TokenBlacklistService {
  import opened Wrappers
  import opened Exceptions
  import opened BlacklistedTokens
  import Jwt = JwtTokenService

  const BlacklistFailed := Runtime("Failed to blacklist token")

  /** The jti the service files a token under. */
  function JtiOf(c: Jwt.Claims, generatedJti: string): string {
    c.jti.GetOr(generatedJti)
  }

  /** The row a first revocation of a token with claims `c` stores. */
  predicate IsRowFor(row: BlacklistedToken, c: Jwt.Claims, generatedJti: string, reason: Option<string>,
                     ip: Option<string>, userAgent: Option<string>, now: int) {
    && row.jti == JtiOf(c, generatedJti)
    && Some(row.userEmail) == c.subject && Some(row.tokenType) == c.tokenType && Some(row.expiryDate) == c.expiration
    && row.logoutReason == reason && row.ipAddress == ip && row.userAgent == userAgent
    && row.blacklistedAt == now
  }

  /**
   * `blacklistToken`: idempotent on the jti; a first revocation adds exactly one
   * row built from the token's claims; an unparseable token (or one whose claims
   * cannot fill the non-null columns) makes it throw with the table unchanged.
   */
  function BlacklistToken(k: Jwt.Codec, t: Table, token: string, reason: Option<string>, ip: Option<string>,
                          userAgent: Option<string>, now: int, generatedJti: string): (r: Result<Table, Thrown>)
    ensures k.parse(token, now).None? ==> r == Failure(BlacklistFailed)
    ensures r.Failure? ==> r.error == BlacklistFailed
    ensures k.parse(token, now).Some? && JtiOf(k.parse(token, now).value, generatedJti) in t ==> r == Success(t)
    ensures r.Success? && r.value != t ==>
              && k.parse(token, now).Some?
              && var j := JtiOf(k.parse(token, now).value, generatedJti);
              && j !in t && r.value.Keys == t.Keys + {j} && |r.value| == |t| + 1
              && IsRowFor(r.value[j], k.parse(token, now).value, generatedJti, reason, ip, userAgent, now)
              && (forall i :: i in t ==> r.value[i] == t[i])
    ensures k.parse(token, now).Some? && JtiOf(k.parse(token, now).value, generatedJti) !in t ==>
              var c := k.parse(token, now).value;
              var j := JtiOf(c, generatedJti);
              && (c.expiration.None? || c.subject.None? || c.tokenType.None? ==> r == Failure(BlacklistFailed))
              && (c.expiration.Some? && c.subject.Some? && c.tokenType.Some? ==>
                    r == Success(t[j := BlacklistedToken(j, c.subject.value, c.tokenType.value, c.expiration.value,
                                                         reason, ip, userAgent, now)]))
    ensures r.Success? && KeyedByJti(t) ==> KeyedByJti(r.value)
  {
    match k.parse(token, now)
    case None => Failure(BlacklistFailed)
    case Some(c) =>
      var jti := JtiOf(c, generatedJti);
      if ExistsByJti(t, jti) then Success(t)
      else if c.expiration.None? || c.subject.None? || c.tokenType.None? then Failure(BlacklistFailed)
      else
        var row := BlacklistedToken(jti, c.subject.value, c.tokenType.value, c.expiration.value,
                                    reason, ip, userAgent, now);
        match Insert(t, row)
        case Success(t') => Success(t')
        case Failure(_) => Failure(BlacklistFailed)
  }

  /**
   * `blacklistAllUserTokens`: rewrites reason, address and agent on that user's
   * rows that expire after `now`; inserts and deletes nothing.
   */
  function BlacklistAllUserTokens(t: Table, email: Option<string>, reason: Option<string>, ip: Option<string>,
                                  userAgent: Option<string>, now: int): (t': Table)
    ensures t'.Keys == t.Keys
    ensures forall j :: j in t && EmailIs(t[j], email) && t[j].expiryDate > now ==>
              t'[j] == t[j].(logoutReason := reason, ipAddress := ip, userAgent := userAgent)
    ensures forall j :: j in t && !(EmailIs(t[j], email) && t[j].expiryDate > now) ==> t'[j] == t[j]
  {
    var valid := FindValidBlacklistedTokensForUser(t, email, now);
    var updated := map j | j in valid :: valid[j].(logoutReason := reason, ipAddress := ip, userAgent := userAgent);
    SaveAll(t, updated)
  }

  /** `blacklistAllUserTokensByType`: deletes that user's rows of that type and leaves every other row. */
  function BlacklistAllUserTokensByType(t: Table, email: Option<string>, tokenType: string): (t': Table)
    ensures forall j :: j in t' <==> j in t && !(EmailIs(t[j], email) && t[j].tokenType == tokenType)
    ensures RowsKept(t, t')
  {
    DeleteTokensForUserByType(t, email, tokenType).0
  }

  /**
   * `isTokenBlacklisted`: true for a row that is found and not expired; a found
   * but expired row is deleted and reported false; an unparseable token is false.
   */
  function IsTokenBlacklisted(k: Jwt.Codec, t: Table, token: string, now: int, generatedJti: string)
    : (r: (Table, bool))
    ensures r.1 <==> k.parse(token, now).Some?
                     && var j := JtiOf(k.parse(token, now).value, generatedJti);
                     && j in t && !IsExpired(t[j], now)
    ensures k.parse(token, now).Some? ==>
              var j := JtiOf(k.parse(token, now).value, generatedJti);
              j in t && IsExpired(t[j], now) ==> r.0 == t - {j}
    ensures r.0 != t ==> |r.0| == |t| - 1 && RowsKept(t, r.0) && !r.1
  {
    match k.parse(token, now)
    case None => (t, false)
    case Some(c) =>
      var jti := JtiOf(c, generatedJti);
      match FindByJti(t, jti)
      case None => (t, false)
      case Some(row) =>
        if IsExpired(row, now) then (t - {jti}, false) else (t, true)
  }

  /** `cleanupExpiredTokens`: the scheduled sweep. */
  function CleanupExpiredTokens(t: Table, now: int): (t': Table)
    ensures forall j :: j in t' <==> j in t && !(t[j].expiryDate < now)
    ensures RowsKept(t, t')
  {
    DeleteExpiredTokens(t, now).0
  }

  /** `getBlacklistedTokensForUser` */
  function GetBlacklistedTokensForUser(t: Table, email: Option<string>, now: int): (r: Table)
    ensures forall j :: j in r <==> j in t && EmailIs(t[j], email) && t[j].expiryDate > now
  {
    FindValidBlacklistedTokensForUser(t, email, now)
  }

  /** `validateTokenNotBlacklisted`: throws exactly when `isTokenBlacklisted` says true. */
  function ValidateTokenNotBlacklisted(k: Jwt.Codec, t: Table, token: string, now: int, generatedJti: string)
    : (r: Result<Table, Thrown>)
    ensures r.Failure? <==> IsTokenBlacklisted(k, t, token, now, generatedJti).1
    ensures r.Failure? ==> r.error == IllegalArgument("Token has been blacklisted")
    ensures r.Success? ==> r.value == IsTokenBlacklisted(k, t, token, now, generatedJti).0
  {
    var (t', blacklisted) := IsTokenBlacklisted(k, t, token, now, generatedJti);
    if blacklisted then Failure(IllegalArgument("Token has been blacklisted")) else Success(t')
  }

  // ----- properties over several calls -----

  /** Revoking an issued token makes it blacklisted for the rest of its life. */
  lemma RevokeThenBlacklisted(k: Jwt.Codec, cfg: Jwt.JwtConfig, t: Table, email: string, jti: string,
                              reason: Option<string>, ip: Option<string>, ua: Option<string>,
                              issued: int, now: int, later: int, generatedJti: string)
    requires Jwt.Sound(k)
    requires issued <= now <= later <= issued + cfg.accessTokenExpirationMinutes * Jwt.MillisPerMinute
    ensures var token := Jwt.GenerateAccessToken(k, cfg, Some(email), jti, issued);
            var r := BlacklistToken(k, t, token, reason, ip, ua, now, generatedJti);
            r.Success? && jti in r.value && IsTokenBlacklisted(k, r.value, token, later, generatedJti).1
              == (jti !in t || !IsExpired(t[jti], later))
  {
  }

  /** A revocation adds at most one jti to the table. */
  lemma RevocationAddsAtMostOne(k: Jwt.Codec, t: Table, token: string, reason: Option<string>, ip: Option<string>,
                                userAgent: Option<string>, now: int, generatedJti: string)
    ensures var r := BlacklistToken(k, t, token, reason, ip, userAgent, now, generatedJti);
            r.Success? ==> |r.value.Keys - t.Keys| <= 1
  {
    var r := BlacklistToken(k, t, token, reason, ip, userAgent, now, generatedJti);
    if r.Success? {
      if r.value == t {
        assert r.value.Keys - t.Keys == {};
      } else {
        var j := JtiOf(k.parse(token, now).value, generatedJti);
        assert r.value.Keys - t.Keys == {j};
      }
    }
  }

  /** A token never revoked (its jti is absent) is not blacklisted, and the check changes nothing. */
  lemma UnrevokedNotBlacklisted(k: Jwt.Codec, cfg: Jwt.JwtConfig, t: Table, email: string, jti: string,
                                issued: int, now: int, generatedJti: string)
    requires Jwt.Sound(k)
    requires jti !in t
    requires issued <= now <= issued + cfg.accessTokenExpirationMinutes * Jwt.MillisPerMinute
    ensures IsTokenBlacklisted(k, t, Jwt.GenerateAccessToken(k, cfg, Some(email), jti, issued), now, generatedJti)
              == (t, false)
  {
  }

  /** Fail-open: a token that does not parse is never reported blacklisted. */
  lemma UnparseableNeverBlacklisted(k: Jwt.Codec, t: Table, token: string, now: int, generatedJti: string)
    requires k.parse(token, now).None?
    ensures IsTokenBlacklisted(k, t, token, now, generatedJti) == (t, false)
    ensures ValidateTokenNotBlacklisted(k, t, token, now, generatedJti) == Success(t)
  {
  }

  /**
   * Bulk revocation by type only touches that type: after revoking an access and a
   * refresh token of one user, deleting the user's "refresh" rows leaves the access
   * token blacklisted, and un-blacklists the refresh token.
   */
  lemma {:induction false} ByTypeOnlyTouchesThatType(k: Jwt.Codec, cfg: Jwt.JwtConfig, t: Table, email: string,
                                                     accessJti: string, refreshJti: string, now: int,
                                                     generatedJti: string)
    requires Jwt.Sound(k)
    requires cfg.accessTokenExpirationMinutes > 0 && cfg.refreshTokenExpirationDays > 0
    requires accessJti !in t && refreshJti !in t && accessJti != refreshJti
    ensures var access := Jwt.GenerateAccessToken(k, cfg, Some(email), accessJti, now);
            var refresh := Jwt.GenerateRefreshToken(k, cfg, Some(email), refreshJti, now);
            var r1 := BlacklistToken(k, t, access, None, None, None, now, generatedJti);
            r1.Success? &&
            var r2 := BlacklistToken(k, r1.value, refresh, None, None, None, now, generatedJti);
            r2.Success? &&
            var t3 := BlacklistAllUserTokensByType(r2.value, Some(email), Jwt.RefreshType);
            && IsTokenBlacklisted(k, r2.value, refresh, now, generatedJti).1
            && IsTokenBlacklisted(k, t3, access, now, generatedJti).1
            && !IsTokenBlacklisted(k, t3, refresh, now, generatedJti).1
  {
    var access := Jwt.GenerateAccessToken(k, cfg, Some(email), accessJti, now);
    var refresh := Jwt.GenerateRefreshToken(k, cfg, Some(email), refreshJti, now);
    var accessClaims := k.parse(access, now).value;
    var refreshClaims := k.parse(refresh, now).value;
    var r1 := RevokeFresh(k, t, access, now, generatedJti, accessClaims);
    var r2 := RevokeFresh(k, r1, refresh, now, generatedJti, refreshClaims);
    assert r2[accessJti] == r1[accessJti] && r1[accessJti].tokenType == Jwt.AccessType;
    assert r2[refreshJti].tokenType == Jwt.RefreshType;
    var t3 := BlacklistAllUserTokensByType(r2, Some(email), Jwt.RefreshType);
    assert accessJti in t3 && t3[accessJti] == r2[accessJti];
    assert refreshJti !in t3;
  }

  /** A first revocation of a token whose claims are all present adds exactly the row built from them. */
  lemma RevokeFresh(k: Jwt.Codec, t: Table, token: string, now: int, generatedJti: string, c: Jwt.Claims)
    returns (t': Table)
    requires k.parse(token, now) == Some(c)
    requires c.jti.Some? && c.jti.value !in t
    requires c.subject.Some? && c.tokenType.Some? && c.expiration.Some?
    ensures BlacklistToken(k, t, token, None, None, None, now, generatedJti) == Success(t')
    ensures t' == t[c.jti.value := BlacklistedToken(c.jti.value, c.subject.value, c.tokenType.value, c.expiration.value,
                                                    None, None, None, now)]
  {
    t' := t[c.jti.value := BlacklistedToken(c.jti.value, c.subject.value, c.tokenType.value, c.expiration.value,
                                            None, None, None, now)];
  }

  /** The creation instant of a row survives every operation that keeps the row. */
  lemma BlacklistedAtNeverChanges(t: Table, email: Option<string>, tokenType: string, reason: Option<string>,
                                  ip: Option<string>, ua: Option<string>, now: int, j: string)
    requires j in t
    ensures var t' := BlacklistAllUserTokens(t, email, reason, ip, ua, now);
            j in t' && t'[j].blacklistedAt == t[j].blacklistedAt && t'[j].jti == t[j].jti
              && t'[j].expiryDate == t[j].expiryDate && t'[j].userEmail == t[j].userEmail
    ensures var t' := BlacklistAllUserTokensByType(t, email, tokenType);
            j in t' ==> t'[j] == t[j]
    ensures var t' := CleanupExpiredTokens(t, now);
            j in t' ==> t'[j] == t[j]
  {
  }
}

=== FILE: user_service.dfy ===
/**
 * `UserService`: account lookup, registration, the login history and the
 * failed-attempt limits built on it. `now` is the clock in milliseconds and
 * `newId` the identity the database hands the next saved user.
 */
module UserService {
  import opened Wrappers
  import opened Exceptions
  import opened JavaStrings
  import opened Users

  const MillisPerMinute := 60_000

  datatype UserDb = UserDb(users: seq<User>, history: seq<LoginHistory>)

  /** The database constraints the service relies on. */
  ghost predicate Valid(db: UserDb) {
    UniqueEmails(db.users) && UniqueIds(db.users)
  }

  /** `newId` is not used yet: a fresh identity value. */
  predicate FreshId(db: UserDb, newId: int) {
    forall i :: 0 <= i < |db.users| ==> db.users[i].id != newId
  }

  function NotFoundByEmail(email: string): Thrown {
    UsernameNotFound("User not found with email: " + email)
  }

  function NotFoundById(id: int): Thrown {
    IllegalArgument("User not found with id: " + LongToString(id))
  }

  /** `loadUserByUsername`: only active accounts load. */
  function LoadUserByUsername(db: UserDb, email: string): (r: Result<User, Thrown>)
    ensures r.Success? <==> exists i :: 0 <= i < |db.users| && db.users[i].email == email && db.users[i].isActive
    ensures r.Success? ==> r.value in db.users && r.value.email == email && r.value.isActive
    ensures r.Failure? ==> r.error == NotFoundByEmail(email)
  {
    match FindByEmailAndIsActive(db.users, email)
    case Some(u) => Success(u)
    case None => Failure(NotFoundByEmail(email))
  }

  /** `getUserByEmail`: any account with that email, active or not. */
  function GetUserByEmail(db: UserDb, email: string): (r: Result<User, Thrown>)
    ensures r.Success? <==> exists i :: 0 <= i < |db.users| && db.users[i].email == email
    ensures r.Success? ==> r.value in db.users && r.value.email == email
    ensures r.Failure? ==> r.error == NotFoundByEmail(email)
  {
    match FindByEmail(db.users, email)
    case Some(u) => Success(u)
    case None => Failure(NotFoundByEmail(email))
  }

  /** `getUserById` */
  function GetUserById(db: UserDb, id: int): (r: Result<User, Thrown>)
    ensures r.Success? <==> exists i :: 0 <= i < |db.users| && db.users[i].id == id
    ensures r.Success? ==> r.value in db.users && r.value.id == id
    ensures r.Failure? ==> r.error == NotFoundById(id)
  {
    match FindIndexById(db.users, id)
    case Some(i) => Success(db.users[i])
    case None => Failure(NotFoundById(id))
  }

  /** `loadUserByUsername` succeeds exactly when `getUserByEmail` finds an active account, and with the same user. */
  lemma LoadIsActiveGet(db: UserDb, email: string)
    requires Valid(db)
    ensures LoadUserByUsername(db, email).Success?
        <==> GetUserByEmail(db, email).Success? && GetUserByEmail(db, email).value.isActive
    ensures LoadUserByUsername(db, email).Success? ==> LoadUserByUsername(db, email) == GetUserByEmail(db, email)
  {
    ActiveLookupIsFilteredLookup(db.users, email);
  }

  /**
   * The name a new account gets: the given one, or the part of the email
   * before the first '@'; with no '@' `substring(0, -1)` throws.
   */
  function NameFor(email: string, name: Option<string>): (r: Result<string, Thrown>)
    ensures name.Some? ==> r == Success(name.value)
    ensures name.None? && r.Success? ==> && OccursAt(email, "@", |r.value|)
                                         && r.value == email[..|r.value|]
                                         && forall i :: 0 <= i < |r.value| ==> email[i] != '@'
    ensures name.None? ==> (r.Failure? <==> forall i :: 0 <= i < |email| ==> email[i] != '@')
    ensures r.Failure? ==> r.error == IndexOutOfBounds
  {
    if name.Some? then Success(name.value)
    else
      var at := IndexOf(email, "@", 0);
      if at < 0 then
        assert forall i :: 0 <= i < |email| && email[i] == '@' ==> OccursAt(email, "@", i);
        Failure(IndexOutOfBounds)
      else
        assert forall i :: 0 <= i < at && email[i] == '@' ==> OccursAt(email, "@", i);
        assert email[at..at + 1] == "@" && email[at] == email[at..at + 1][0];
        Success(email[..at])
  }

  /** Builds and saves an active account. */
  function Register(db: UserDb, email: string, name: Option<string>, newId: int): (r: Result<(UserDb, User), Thrown>)
  {
    match NameFor(email, name)
    case Failure(e) => Failure(e)
    case Success(n) =>
      var u := User(newId, email, Some(n), true);
      Success((db.(users := db.users + [u]), u))
  }

  /** Saving an account under a fresh email and a fresh id keeps the table's constraints. */
  lemma RegisterKeepsValid(db: UserDb, email: string, name: Option<string>, newId: int)
    requires Valid(db) && FreshId(db, newId)
    requires forall i :: 0 <= i < |db.users| ==> db.users[i].email != email
    ensures Register(db, email, name, newId).Success? ==> Valid(Register(db, email, name, newId).value.0)
  {
  }

  /** `getOrCreateUser`: the existing account unchanged, or a new active one. */
  function GetOrCreateUser(db: UserDb, email: string, name: Option<string>, newId: int): (r: Result<(UserDb, User), Thrown>)
    requires Valid(db) && FreshId(db, newId)
    ensures FindByEmail(db.users, email).Some? ==> r == Success((db, FindByEmail(db.users, email).value))
    ensures FindByEmail(db.users, email).None? ==> r == Register(db, email, name, newId)
    ensures r.Success? ==> Valid(r.value.0) && r.value.1.email == email && r.value.0.history == db.history
  {
    match FindByEmail(db.users, email)
    case Some(u) => Success((db, u))
    case None =>
      RegisterKeepsValid(db, email, name, newId);
      Register(db, email, name, newId)
  }

  /** `createUser`: refuses a taken email. */
  function CreateUser(db: UserDb, email: string, name: Option<string>, newId: int): (r: Result<(UserDb, User), Thrown>)
    requires Valid(db) && FreshId(db, newId)
    ensures ExistsByEmail(db.users, email) ==> r == Failure(IllegalArgument("User with email " + email + " already exists"))
    ensures !ExistsByEmail(db.users, email) ==> r == Register(db, email, name, newId)
    ensures r.Success? ==> Valid(r.value.0) && r.value.1.isActive && r.value.1.id == newId
  {
    if ExistsByEmail(db.users, email) then Failure(IllegalArgument("User with email " + email + " already exists"))
    else
      RegisterKeepsValid(db, email, name, newId);
      Register(db, email, name, newId)
  }

  /** `createUserIfNotExists`: `null` (here `None`) and no change when the email is taken. */
  function CreateUserIfNotExists(db: UserDb, email: string, name: Option<string>, newId: int): (r: Result<(UserDb, Option<User>), Thrown>)
    requires Valid(db) && FreshId(db, newId)
    ensures ExistsByEmail(db.users, email) ==> r == Success((db, None))
    ensures !ExistsByEmail(db.users, email) && r.Success? ==>
              && NameFor(email, name).Success?
              && r.value.1 == Some(User(newId, email, Some(NameFor(email, name).value), true))
              && r.value.0 == db.(users := db.users + [r.value.1.value])
    ensures !ExistsByEmail(db.users, email) ==> (r.Failure? <==> name.None? && forall i :: 0 <= i < |email| ==> email[i] != '@')
    ensures r.Success? ==> Valid(r.value.0)
  {
    if FindByEmail(db.users, email).Some? then Success((db, None))
    else
      RegisterKeepsValid(db, email, name, newId);
      match Register(db, email, name, newId)
      case Failure(e) => Failure(e)
      case Success((db', u)) => Success((db', Some(u)))
  }

  /** `updateUser`: replaces the name (possibly by `null`) of the user with that id, nothing else. */
  function UpdateUser(db: UserDb, userId: int, name: Option<string>): (r: Result<(UserDb, User), Thrown>)
    ensures r.Failure? <==> forall i :: 0 <= i < |db.users| ==> db.users[i].id != userId
    ensures r.Failure? ==> r.error == NotFoundById(userId)
    ensures r.Success? ==> && r.value.0.history == db.history
                           && exists k :: && 0 <= k < |db.users| && db.users[k].id == userId
                                          && r.value.1 == db.users[k].(name := name)
                                          && r.value.0.users == db.users[k := r.value.1]
  {
    match FindIndexById(db.users, userId)
    case None => Failure(NotFoundById(userId))
    case Some(k) =>
      var u := db.users[k].(name := name);
      Success((db.(users := db.users[k := u]), u))
  }

  /** `deactivateUser`: clears the active flag of the user with that id, nothing else. */
  function DeactivateUser(db: UserDb, userId: int): (r: Result<UserDb, Thrown>)
    ensures r.Failure? <==> forall i :: 0 <= i < |db.users| ==> db.users[i].id != userId
    ensures r.Failure? ==> r.error == NotFoundById(userId)
    ensures r.Success? ==> && |r.value.users| == |db.users| && r.value.history == db.history
                           && exists k :: 0 <= k < |db.users| && db.users[k].id == userId
                                          && r.value.users == db.users[k := db.users[k].(isActive := false)]
  {
    match FindIndexById(db.users, userId)
    case None => Failure(NotFoundById(userId))
    case Some(k) => Success(db.(users := db.users[k := db.users[k].(isActive := false)]))
  }

  /**
   * `recordLoginHistory`: appends one entry stamped `now`. The user-agent
   * column is NOT NULL, so a request without that header makes the insert fail.
   */
  function RecordLoginHistory(db: UserDb, user: User, ipAddress: string, userAgent: Option<string>,
                              successful: bool, failureReason: Option<string>, now: int): (r: Result<UserDb, Thrown>)
    ensures userAgent.None? <==> r.Failure?
    ensures r.Failure? ==> r.error == ConstraintViolation("user_agent")
    ensures r.Success? ==> r.value == db.(history := db.history + [LoginHistory(user.id, ipAddress, userAgent.value, successful, failureReason, now)])
  {
    if userAgent.None? then Failure(ConstraintViolation("user_agent"))
    else Success(db.(history := db.history + [LoginHistory(user.id, ipAddress, userAgent.value, successful, failureReason, now)]))
  }

  /** `countFailedAttemptsInLastMinutes`: the window is the last `minutes`, its start excluded. */
  function CountFailedAttemptsInLastMinutes(db: UserDb, user: User, minutes: int, now: int): (n: nat)
    ensures n == |set i | 0 <= i < |db.history| && FailedForUserSince(db.history[i], user.id, now - minutes * MillisPerMinute)|
  {
    CountFailedAttemptsSince(db.history, user, now - minutes * MillisPerMinute)
  }

  /** `countFailedAttemptsByIpInLastMinutes` */
  function CountFailedAttemptsByIpInLastMinutes(db: UserDb, ipAddress: string, minutes: int, now: int): (n: nat)
    ensures n == |set i | 0 <= i < |db.history| && FailedFromIpSince(db.history[i], ipAddress, now - minutes * MillisPerMinute)|
  {
    CountFailedAttemptsByIpSince(db.history, ipAddress, now - minutes * MillisPerMinute)
  }

  /** `isRateLimited`: at least `maxAttempts` failures of that user in the window. */
  function IsRateLimited(db: UserDb, user: User, maxAttempts: int, timeWindowMinutes: int, now: int): (b: bool)
    ensures b <==> |set i | 0 <= i < |db.history| && FailedForUserSince(db.history[i], user.id, now - timeWindowMinutes * MillisPerMinute)| >= maxAttempts
  {
    CountFailedAttemptsInLastMinutes(db, user, timeWindowMinutes, now) >= maxAttempts
  }

  /** `isIpRateLimited`: at least `maxAttempts` failures from that address in the window. */
  function IsIpRateLimited(db: UserDb, ipAddress: string, maxAttempts: int, timeWindowMinutes: int, now: int): (b: bool)
    ensures b <==> |set i | 0 <= i < |db.history| && FailedFromIpSince(db.history[i], ipAddress, now - timeWindowMinutes * MillisPerMinute)| >= maxAttempts
  {
    CountFailedAttemptsByIpInLastMinutes(db, ipAddress, timeWindowMinutes, now) >= maxAttempts
  }

  /** A successful login never brings an account or an address closer to its limit. */
  lemma SuccessDoesNotLock(db: UserDb, user: User, ip: string, ua: string, other: User, otherIp: string,
                           max: int, window: int, now: int, later: int)
    requires now <= later
    ensures var db' := RecordLoginHistory(db, user, ip, Some(ua), true, None, now).value;
            && (IsRateLimited(db', other, max, window, later) ==> IsRateLimited(db, other, max, window, later))
            && (IsIpRateLimited(db', otherIp, max, window, later) ==> IsIpRateLimited(db, otherIp, max, window, later))
  {
    var e := LoginHistory(user.id, ip, ua, true, None, now);
    AppendSuccessfulKeepsCounts(db.history, e, other, otherIp, later - window * MillisPerMinute);
  }

  /** Each recorded failure, stamped now, is counted in every window that is still open at `now`. */
  lemma FailureCounts(db: UserDb, user: User, ip: string, ua: string, reason: string, minutes: int, now: int)
    requires minutes > 0
    ensures var db' := RecordLoginHistory(db, user, ip, Some(ua), false, Some(reason), now).value;
            CountFailedAttemptsInLastMinutes(db', user, minutes, now) == CountFailedAttemptsInLastMinutes(db, user, minutes, now) + 1
  {
    var e := LoginHistory(user.id, ip, ua, false, Some(reason), now);
    AppendFailedAddsOne(db.history, e, user, now - minutes * MillisPerMinute);
  }

  /** A lock only lifts as time passes: once limited at `later`, the account was limited at every earlier time with no new failures. */
  lemma LockOnlyLiftsOverTime(db: UserDb, user: User, max: int, window: int, now: int, later: int)
    requires now <= later
    ensures IsRateLimited(db, user, max, window, later) ==> IsRateLimited(db, user, max, window, now)
  {
    CountsNonIncreasing(db.history, user, "", now - window * MillisPerMinute, later - window * MillisPerMinute);
  }
}

=== FILE: users.dfy ===
/**
 * The user and login-history tables and the query semantics of `UserRepository`
 * and `LoginHistoryRepository`. Tables are sequences in insertion order.
 */
module Users {
  import opened Wrappers

  datatype User = User(id: int, email: string, name: Option<string>, isActive: bool)

  /** One login attempt; `user` is compared by id, as JPA compares entities. */
  datatype LoginHistory = LoginHistory(
    userId: int,
    ipAddress: string,
    userAgent: string,
    successful: bool,
    failureReason: Option<string>,
    createdAt: int)

  ghost predicate UniqueEmails(us: seq<User>) {
    forall i, j :: 0 <= i < j < |us| ==> us[i].email != us[j].email
  }

  ghost predicate UniqueIds(us: seq<User>) {
    forall i, j :: 0 <= i < j < |us| ==> us[i].id != us[j].id
  }

  // ----- UserRepository -----

  /** `findByEmail`: the user with that email, whatever its active flag. */
  function FindByEmail(us: seq<User>, email: string): (r: Option<User>)
    ensures r.Some? <==> exists i :: 0 <= i < |us| && us[i].email == email
    ensures r.Some? ==> r.value in us && r.value.email == email
    ensures r.Some? && UniqueEmails(us) ==> forall i :: 0 <= i < |us| && us[i].email == email ==> us[i] == r.value
  {
    if |us| == 0 then None
    else if us[0].email == email then Some(us[0])
    else
      var r := FindByEmail(us[1..], email);
      assert forall i :: 1 <= i < |us| ==> us[i] == us[1..][i - 1];
      r
  }

  /** `existsByEmail` agrees with `findByEmail`. */
  function ExistsByEmail(us: seq<User>, email: string): (b: bool)
    ensures b <==> FindByEmail(us, email).Some?
  {
    exists i :: 0 <= i < |us| && us[i].email == email
  }

  /** `findByEmailAndIsActive`: a user with that email whose active flag is set. */
  function FindByEmailAndIsActive(us: seq<User>, email: string): (r: Option<User>)
    ensures r.Some? <==> exists i :: 0 <= i < |us| && us[i].email == email && us[i].isActive
    ensures r.Some? ==> r.value in us && r.value.email == email && r.value.isActive
  {
    if |us| == 0 then None
    else if us[0].email == email && us[0].isActive then Some(us[0])
    else
      var r := FindByEmailAndIsActive(us[1..], email);
      assert forall i :: 1 <= i < |us| ==> us[i] == us[1..][i - 1];
      r
  }

  /** `existsByEmailAndIsActive` is "`findByEmailAndIsActive` is present". */
  function ExistsByEmailAndIsActive(us: seq<User>, email: string): (b: bool)
    ensures b <==> FindByEmailAndIsActive(us, email).Some?
  {
    exists i :: 0 <= i < |us| && us[i].email == email && us[i].isActive
  }

  /** With unique emails, the active lookup is the plain lookup filtered by the flag. */
  lemma ActiveLookupIsFilteredLookup(us: seq<User>, email: string)
    requires UniqueEmails(us)
    ensures FindByEmailAndIsActive(us, email)
         == if FindByEmail(us, email).Some? && FindByEmail(us, email).value.isActive then FindByEmail(us, email) else None
  {
    var a := FindByEmailAndIsActive(us, email);
    if a.Some? {
      var i :| 0 <= i < |us| && us[i] == a.value;
      assert us[i].email == email;
    }
  }

  /** The position of the user with that id (`findById`). */
  function FindIndexById(us: seq<User>, id: int): (r: Option<nat>)
    ensures r.Some? ==> r.value < |us| && us[r.value].id == id
    ensures r.None? <==> forall i :: 0 <= i < |us| ==> us[i].id != id
    decreases |us|
  {
    if |us| == 0 then None
    else if us[|us| - 1].id == id then Some(|us| - 1)
    else FindIndexById(us[..|us| - 1], id)
  }

  // ----- LoginHistoryRepository -----

  /** Entries satisfying `p`, counted from the oldest. */
  function Count(hs: seq<LoginHistory>, p: LoginHistory -> bool): nat
    decreases |hs|
  {
    if |hs| == 0 then 0 else Count(hs[..|hs| - 1], p) + (if p(hs[|hs| - 1]) then 1 else 0)
  }

  /** `lh.user = :user AND lh.successful = false AND lh.createdAt > :since` */
  predicate FailedForUserSince(h: LoginHistory, userId: int, since: int) {
    h.userId == userId && !h.successful && h.createdAt > since
  }

  /** `lh.ipAddress = :ipAddress AND lh.successful = false AND lh.createdAt > :since` */
  predicate FailedFromIpSince(h: LoginHistory, ip: string, since: int) {
    h.ipAddress == ip && !h.successful && h.createdAt > since
  }

  /** `countFailedAttemptsSince`: that user's failed entries strictly after `since`. */
  function CountFailedAttemptsSince(hs: seq<LoginHistory>, user: User, since: int): (n: nat)
    ensures n == |set i | 0 <= i < |hs| && FailedForUserSince(hs[i], user.id, since)|
  {
    var p := (h: LoginHistory) => FailedForUserSince(h, user.id, since);
    CountIsCardinality(hs, p);
    assert (set i | 0 <= i < |hs| && p(hs[i])) == (set i | 0 <= i < |hs| && FailedForUserSince(hs[i], user.id, since));
    Count(hs, p)
  }

  /** `countFailedAttemptsByIpSince`: failed entries from that address strictly after `since`. */
  function CountFailedAttemptsByIpSince(hs: seq<LoginHistory>, ip: string, since: int): (n: nat)
    ensures n == |set i | 0 <= i < |hs| && FailedFromIpSince(hs[i], ip, since)|
  {
    var p := (h: LoginHistory) => FailedFromIpSince(h, ip, since);
    CountIsCardinality(hs, p);
    assert (set i | 0 <= i < |hs| && p(hs[i])) == (set i | 0 <= i < |hs| && FailedFromIpSince(hs[i], ip, since));
    Count(hs, p)
  }

  /** The recursive count is the number of matching positions. */
  lemma {:induction false} CountIsCardinality(hs: seq<LoginHistory>, p: LoginHistory -> bool)
    ensures Count(hs, p) == |set i | 0 <= i < |hs| && p(hs[i])|
    decreases |hs|
  {
    if |hs| > 0 {
      var n := |hs| - 1;
      var init := hs[..n];
      CountIsCardinality(init, p);
      var before := set i | 0 <= i < n && p(init[i]);
      var after := set i | 0 <= i < |hs| && p(hs[i]);
      if p(hs[n]) {
        assert after == before + {n};
        assert n !in before;
      } else {
        assert after == before;
      }
    }
  }

  /** Appending a successful entry changes neither count. */
  lemma AppendSuccessfulKeepsCounts(hs: seq<LoginHistory>, entry: LoginHistory, user: User, ip: string, since: int)
    requires entry.successful
    ensures CountFailedAttemptsSince(hs + [entry], user, since) == CountFailedAttemptsSince(hs, user, since)
    ensures CountFailedAttemptsByIpSince(hs + [entry], ip, since) == CountFailedAttemptsByIpSince(hs, ip, since)
  {
    assert (hs + [entry])[..|hs|] == hs;
  }

  /** Appending a failed entry of that user, newer than `since`, adds exactly one to the user's count. */
  lemma AppendFailedAddsOne(hs: seq<LoginHistory>, entry: LoginHistory, user: User, since: int)
    requires !entry.successful && entry.userId == user.id && entry.createdAt > since
    ensures CountFailedAttemptsSince(hs + [entry], user, since) == CountFailedAttemptsSince(hs, user, since) + 1
  {
    assert (hs + [entry])[..|hs|] == hs;
  }

  /** Both counts can only drop as `since` moves later. */
  lemma {:induction false} CountsNonIncreasing(hs: seq<LoginHistory>, user: User, ip: string, since: int, since': int)
    requires since <= since'
    ensures CountFailedAttemptsSince(hs, user, since') <= CountFailedAttemptsSince(hs, user, since)
    ensures CountFailedAttemptsByIpSince(hs, ip, since') <= CountFailedAttemptsByIpSince(hs, ip, since)
    decreases |hs|
  {
    if |hs| > 0 {
      CountsNonIncreasing(hs[..|hs| - 1], user, ip, since, since');
    }
  }

  /** Newest first. */
  ghost predicate NewestFirst(s: seq<LoginHistory>) {
    forall i, j :: 0 <= i < j < |s| ==> s[i].createdAt >= s[j].createdAt
  }

  function InsertNewestFirst(x: LoginHistory, s: seq<LoginHistory>): (r: seq<LoginHistory>)
    requires NewestFirst(s)
    ensures NewestFirst(r)
    ensures multiset(r) == multiset(s) + multiset{x}
    ensures r[0] == x || (|s| > 0 && r[0] == s[0])
  {
    if |s| == 0 then [x]
    else if x.createdAt >= s[0].createdAt then [x] + s
    else
      assert s == [s[0]] + s[1..];
      [s[0]] + InsertNewestFirst(x, s[1..])
  }

  function SortNewestFirst(s: seq<LoginHistory>): (r: seq<LoginHistory>)
    ensures NewestFirst(r)
    ensures multiset(r) == multiset(s)
  {
    if |s| == 0 then []
    else
      assert s == [s[0]] + s[1..];
      InsertNewestFirst(s[0], SortNewestFirst(s[1..]))
  }

  function EntriesOf(hs: seq<LoginHistory>, userId: int): (r: seq<LoginHistory>)
    ensures forall h :: multiset(r)[h] == if h.userId == userId then multiset(hs)[h] else 0
    decreases |hs|
  {
    if |hs| == 0 then []
    else
      var init := hs[..|hs| - 1];
      assert hs == init + [hs[|hs| - 1]];
      EntriesOf(init, userId) + (if hs[|hs| - 1].userId == userId then [hs[|hs| - 1]] else [])
  }

  /** `findByUserOrderByCreatedAtDesc`: exactly that user's entries, newest first. */
  function FindByUserOrderByCreatedAtDesc(hs: seq<LoginHistory>, user: User): (r: seq<LoginHistory>)
    ensures NewestFirst(r)
    ensures forall h :: multiset(r)[h] == if h.userId == user.id then multiset(hs)[h] else 0
  {
    SortNewestFirst(EntriesOf(hs, user.id))
  }
}

=== FILE: wrappers.dfy ===
/** Failure-compatible wrappers and the Java exceptions the modelled code can throw. */
module Wrappers {

  /** Java's nullable reference / `Optional`: `None` stands for `null` or an empty `Optional`. */
  datatype Option<+T> = None | Some(value: T) {
    function GetOr(default: T): T {
      match this
      case Some(v) => v
      case None => default
    }
  }

  /** A value, or the exception that replaced it. */
  datatype Result<+T, +E> = Success(value: T) | Failure(error: E)
}

module Exceptions {

  /** The exceptions that leave the modelled methods. */
  datatype Thrown =
    | IllegalArgument(message: string)
    | UsernameNotFound(message: string)
    | Runtime(message: string)
    | NullPointer
    | IndexOutOfBounds
    | ConstraintViolation(column: string)
}
